=== FILE: README.md ===
# The Final String — a Dafny model of the game's core

"The Final String" is a small pygame puzzle game. The player walks a tile map and collects
notes, and each note teaches one password rule ("at least 8 characters", "contain at least
one number", ...). A locked door opens only for a password that meets every rule collected
so far. Around that win condition sit the level data (tile layers, collisions, the camera,
sprite-sheet arithmetic), the text widgets the puzzle is played with (an editable text box
with undo/redo, a scrollable selectable text, a typewriter dialogue box, a password prompt),
and the terminal-style menus that frame the game.

This project models that core as immutable Dafny datatypes and pure transition functions,
and proves the properties the code promises:

- `GameRules` (game_state.py): the deduplicating rule book, the phrase-keyed password
  checks and the all-rules verdict.
- `Interactables` (interactables.py): notes that collect once, doors that open once and pad
  the rule list with "????", and the manager that builds objects from a level's
  `interactables` layer. The global `game_state` and `interactable_manager` singletons
  become explicit values passed in and returned.
- `LevelLoader` and `LevelManager` (loader.py, manager.py): layers, collision queries,
  tile/pixel conversion with Python's floor division, level validation, the collision map,
  sprite-sheet naming and tile offsets, layer depths, the clamped camera, cyclic level
  navigation.
- `Shapes` (interactable_config.py): rectangle, line and cross coordinate generators.
- `Wrap` (wrap_text.py): greedy word wrap with the font's width measure as a parameter.
- `EditableText`, `SelectableText`, `DialogueBox`, `PasswordUI`: the widgets' state
  machines, with the clock and the clipboard passed in as arguments.
- `Terminal`: the game terminal. Both terminal.py files (src/ui and
  src/states/menu_substates/ui) are textually identical, so one module models both and
  the table cites the first.
- `MenuState` (menu-state.py): the stand-alone menu program's bounded terminal and its
  loading/menu/playing loop.
- `MenuOptions` and `LoadingMenu`: the menu sub-states.
- `RuleCountPatch` (add_rule_count.py) and `TimeFormat` (r.py): two small utilities.
- `Text`, `Seqs` and `Constants` are shared helpers: ASCII character classes, Python
  slicing and `strip`/`find`/`split`, and the game's constants.

The model follows the code as it stands, including these points where it behaves differently from what its names or comments suggest:

- The code has no adjacency grouping of interactables, no rule randomizer and no
  writer that saves interactables back to level files. interactable_config.py calls
  manager methods that do not exist. None of this is modelled.
- Door.try_password never looks at `required_rules`; `Interactables.RequiredRulesIgnored`
  states it.
- The loading sequence in menu-state.py starts at stage 0 without showing it, so the first
  stage's text never appears (`MenuState.LoadingSequence`).
- The terminal's target positions put the new line one line-height below the previous one,
  leaving a gap (`Terminal.AddLineLeavesGap`). Drawing uses only the line index, so the
  gap is not visible.
- The loading menu writes its lines straight into the terminal's list, so the position
  lists stay empty (`LoadingMenu.AdvanceStage`).
- In `_submit_password` the `.get` defaults never apply, because the door's result always
  carries every key (`PasswordUI.Submit`).
- get_tile_surface tests only the right and bottom edges of the sheet, so a negative tile
  id gets an offset above the sheet (`LevelManager.NegativeIdAboveSheet`).
- load_level makes the new level current before building its sprites, so when that step
  raises (a tile without an "id", or a tile size of 0) the level has already been replaced
  (`LevelManager.LoadLevel`).

## Model

| member | source | states |
|---|---|---|
| GameRules.AddRule | src/game_state.py:12-18 | a rule is appended only when new, so the list stays duplicate-free and the old list stays a prefix; a known rule leaves the session unchanged; the note id is recorded only with a new rule and only when it is truthy; the level is untouched |
| GameRules.HasRule | src/game_state.py:20-22 | a rule is known exactly when some position of the collected list holds it |
| GameRules.HasNote | src/game_state.py:24-26 | a note is known only when some note id has been collected |
| GameRules.Rules | src/game_state.py:32-34 | the copy holds exactly the known rules, and has no duplicate when the list has none |
| GameRules.RulesCount | src/game_state.py:28-30 | the count is the length of the returned list |
| GameRules.QueriesAfterAddRule | src/game_state.py:12-34 | after add_rule the rule is known, other rules are known exactly when they were before, the list gains the rule at its end exactly when it was new, the count grows by one exactly then, and a note is known exactly when it was before or the rule was new and its truthy id is that note |
| GameRules.CollectedRulesAreFirstOccurrences | src/game_state.py:12-18 | from a fresh session, collecting any series of rules leaves exactly the first occurrences of the series, in collection order, and no notes |
| GameRules.CheckRule | src/game_state.py:58-80 | the first phrase found in the lower-cased rule picks the check: length at least 8, some digit, some upper-case letter, a last character among "!@#$%"; any other rule is satisfied |
| GameRules.AnyDigit | src/game_state.py:68 | true exactly when some character of the password is a digit |
| GameRules.AnyUpper | src/game_state.py:72 | true exactly when some character of the password is an upper-case letter |
| GameRules.ValidatePassword | src/game_state.py:36-43 | the result's keys are exactly the collected rules and each value is that rule's single check |
| GameRules.ValidateAgainstAll | src/game_state.py:45-56 | the keys are exactly the given rules; the "????" placeholder maps to false and every other rule to its single check |
| GameRules.IsPasswordValid | src/game_state.py:82-88 | true exactly when at least one rule is collected and the password meets every collected rule |
| GameRules.ResetGameState | src/game_state.py:95-99 | rules, notes and the current level are all cleared, giving the fresh session |
| GameRules.ClearRulesForTesting | src/game_state.py:101-104 | rules and notes are cleared and the current level is kept |
| GameRules.StrongPasswordMeetsEveryRule | src/game_state.py:58-88 | with at least one rule collected, "Passw0rd!" satisfies every collected rule whatever its text |
| GameRules.EmptyPasswordFailsCheckedRules | src/game_state.py:58-80 | the empty password satisfies a rule exactly when none of the four phrases selects a check for it |
| GameRules.UncheckedRuleIsNeutral | src/game_state.py:12-18 | once something is collected, adding a rule that selects no check never changes the verdict |
| Interactables.IsNearPlayer | src/entities/interactables.py:23-27 | the player is near exactly when it lies in the square of half-side `distance` centred on the object |
| Interactables.NoteInteract | src/entities/interactables.py:37-53 | the note hands over its rule exactly when it is uncollected and its "note_x_y" id is unknown, marking itself collected and adding the rule with that id; otherwise it reports "already collected" and nothing changes |
| Interactables.NoteCollectsOnce | src/entities/interactables.py:37-53 | using a note a second time reports it as collected and changes neither the note nor the session |
| Interactables.DisplayRules | src/entities/interactables.py:81-87 | one entry per rule of the level: the i-th collected rule where one exists and "????" otherwise |
| Interactables.DoorInteract | src/entities/interactables.py:64-96 | an open door only says so; a closed one always prompts, with the padded rule list, the collected rules, the count message and a missing count of required minus collected, which may be negative |
| Interactables.TryPassword | src/entities/interactables.py:102-121 | success exactly when the rule book accepts the password; the door becomes open on success and an open door stays open; the results are the per-rule validation |
| Interactables.RequiredRulesIgnored | src/entities/interactables.py:102-121 | the door's required rule count has no influence on the outcome |
| Interactables.AttemptsOpen | src/entities/interactables.py:102-121 | after any series of attempts the door is open exactly when it was open before or some attempt was accepted |
| Interactables.Create | src/entities/interactables.py:192-208 | a note or a door exactly for the types "note" and "door", with x, y, id, rule and required count defaulting to 0, 0, "", "" and 4; doors carry the level's metadata; other types give nothing |
| Interactables.CreateAll | src/entities/interactables.py:142-145 | the objects are, in tile order, one per tile for which `_create_interactable` builds an object (a note or a door), and nothing else |
| Interactables.LoadLayers | src/entities/interactables.py:140-145 | the objects are those built from the tiles of the layers named "interactables", layer by layer and in tile order within a layer, one per tile that makes an object |
| Interactables.Load | src/entities/interactables.py:130-145 | previous objects are dropped; the metadata defaults to an empty object; the new list is the notes and doors built from the "interactables" layers' tiles, layer by layer and in tile order, one per tile that makes an object |
| Interactables.GetAt | src/entities/interactables.py:210-215 | nothing exactly when no object is on the tile; otherwise the first object on the tile in list order |
| Interactables.InteractAt | src/entities/interactables.py:217-222 | an empty tile answers "none" and changes nothing; otherwise the first object on the tile answers: a note gives exactly its own interact result (new note, rule book and answer), a door gives its prompt or "already open" and changes nothing; no other object changes |
| Interactables.InteractTwiceAtNote | src/entities/interactables.py:36-52 | using a note's tile a second time (interact_at, lines 217-222) finds the same, now collected, note: the answer is "already collected" and nothing changes |
| Interactables.TryPasswordAt | src/entities/interactables.py:102-121 | trying a password at a door in the list gives that door's outcome and replaces only that door |
| LevelLoader.TileDict | src/levels/loader.py:16-20 | the table holds a position exactly when some tile sits there, and the entry is the last tile at that position |
| LevelLoader.HasTileAt | src/levels/loader.py:26-28 | true exactly when some tile of the layer sits at (x, y) |
| LevelLoader.GetTileAt | src/levels/loader.py:22-24 | nothing exactly when no tile is there; otherwise the last tile at (x, y) in list order |
| LevelLoader.AddLayers | src/levels/loader.py:46-53 | the order lists every record's name, one per record, and the table's keys are exactly the names listed |
| LevelLoader.AddLayersKeepsLast | src/levels/loader.py:46-53 | each name's table entry is built from the last record carrying that name |
| LevelLoader.BuildLevel | src/levels/loader.py:33-53 | construction fails exactly when a layer record lacks its name, its tiles or a tile coordinate; sizes default to 16, 0 and 0; the level built is consistent and records one name per layer record |
| LevelLoader.DuplicateLayerNames | src/levels/loader.py:46-53 | for a name defined twice the table keeps the later definition while the order records both occurrences |
| LevelLoader.LayerValues | src/levels/loader.py:46-61 | every layer of the table appears, only layers of the table appear, and they are listed in the order their names were first recorded (the dict's insertion order, lines 52-53), so each name once |
| LevelLoader.CollisionLayers | src/levels/loader.py:59-61 | exactly the table's layers whose collider flag is set, each once, in the order their names were first recorded |
| LevelLoader.FilterKeepsOrder | src/levels/loader.py:61 | the comprehension's filter keeps the relative order of the layers it keeps |
| LevelLoader.CollisionAtIff | src/levels/loader.py:68-73 | a position collides exactly when some collider layer has a tile there |
| LevelLoader.IsCollisionAt | src/levels/loader.py:59-73 | the scan finds a collision exactly when some layer of the collision list has a tile at the position |
| LevelLoader.RenderLayers | src/levels/loader.py:63-66 | the recorded order reversed, each name looked up in the table, duplicates included |
| LevelLoader.FloorDiv | src/levels/loader.py:85 | Python's floor division: the quotient q with q times the divisor at most the dividend and less than one more multiple, for either sign of divisor |
| LevelLoader.PixelToTile | src/levels/loader.py:83-85 | an error exactly for a tile size of 0 (ZeroDivisionError); for a positive size each pixel falls in the tile whose span contains it, negative pixels included, and for a negative size in the mirrored span |
| LevelLoader.TileToPixel | src/levels/loader.py:79-85 | converting a tile to pixels and back gives the same tile for any non-zero tile size, and the division error for size 0 |
| LevelLoader.TileIssues | src/levels/loader.py:164-167 | an out-of-bounds issue for a layer appears exactly for the positions of its tiles outside the map, missing coordinates counting as -1 |
| LevelLoader.LayerIssues | src/levels/loader.py:163-167 | an out-of-bounds issue appears exactly for a stray tile of a layer of that name |
| LevelLoader.ShapeIssues | src/levels/loader.py:151-160 | "Invalid tile size" exactly when the size is at most 0, "Invalid map dimensions" exactly when a dimension is at most 0, "No layers found" exactly when there are no layers |
| LevelLoader.ValidateLevel | src/levels/loader.py:147-169 | the three shape issues under the same conditions, and an out-of-bounds issue exactly for each layer's tiles outside the map |
| LevelLoader.CollisionRow | src/levels/loader.py:182-183 | a row of the given width whose cell x tells whether (x, y) collides |
| LevelLoader.CollisionMap | src/levels/loader.py:177-185 | map-height rows of map-width cells, none for a non-positive size, with cell [y][x] telling whether (x, y) collides |
| LevelManager.SpriteSheetForLevel | src/levels/manager.py:61-69 | a name starting "level-" uses the sheet named by its first two '-'-separated pieces; every other name, the empty one and None included, uses "level-1.png" |
| LevelManager.SheetParts | src/levels/manager.py:63-66 | a name starting "level-" always splits into at least two pieces, the first being "level" |
| LevelManager.TileOffset | src/levels/manager.py:79-109 | each outcome under its exact condition: no sheet, a non-numeric id, a zero tile size, fewer than one tile per row, and a tile whose column or row (id modulo and floor-divided by the tiles per row) would end past the sheet's right or bottom edge; an offset only for a positive size, on the tile grid, starting at or right of the left edge and ending within the right and bottom edges (the top edge is not tested) |
| LevelManager.NegativeIdAboveSheet | src/levels/manager.py:85-96 | tile "-1" of a 32 by 32 sheet of 16-pixel tiles gets the offset (16, -16), above the sheet, because only the right and bottom edges are tested |
| LevelManager.RowsNeedPositiveSize | src/levels/manager.py:86-91 | a positive number of tiles per row forces a positive tile size, so a negative size is rejected as bad sheet dimensions |
| LevelManager.TileOffsetRoundTrip | src/levels/manager.py:92-93 | reading an offset back row by row gives the tile id again, negative ids included |
| LevelManager.LayerDepth | src/levels/manager.py:36-44 | the fixed table's depth for a known layer name and 50 for any other (get_layer_depth, lines 111-113) |
| LevelManager.DepthOrder | src/levels/manager.py:111-113 | ground draws first and foreground last, and a layer of unknown name draws between the non-colliding and the colliding objects |
| LevelManager.ClampOrigin | src/levels/manager.py:143-144 | the result lies between 0 and the larger of 0 and the limit, equals the input when that is already in range, and is 0 for a negative input |
| LevelManager.UpdateCamera | src/levels/manager.py:137-144 | the view origin stays between 0 and the level size minus the screen size, and is the target minus half the screen whenever that is in range |
| LevelManager.Apply | src/levels/manager.py:146-148 | the screen position plus the view origin gives back the world position |
| LevelManager.TargetOnScreen | src/levels/manager.py:137-148 | in a level at least as large as the screen, a followed target inside the level always lands on the screen |
| LevelManager.Fetch | src/levels/loader.py:94-126 | a level is obtained exactly when the document is readable and the Level constructor accepts it |
| LevelManager.LoadLevel | src/levels/manager.py:190-253 | False exactly when the level does not load, and then nothing changes; otherwise the level and its name become current; building the sprites raises exactly when some tile lacks an "id" (KeyError) or has a numeric id on a loaded sheet with tile size 0 (ZeroDivisionError), and then the index is left alone; on True the index moves to the name's first position only when the name is listed |
| LevelManager.LoadNext | src/levels/manager.py:255-261 | an empty list changes nothing and fails; otherwise the level after the current index, cyclically, is loaded: False exactly when it cannot be read and built, and then only the index has moved; otherwise it becomes current under its name; the index stays in range and, for a list without repeats, is the old index plus one modulo the list length |
| LevelManager.LoadPrevious | src/levels/manager.py:263-269 | an empty list changes nothing and fails; otherwise the level before the current index, cyclically (Python's modulo, so index 0 goes to the last), is loaded: False exactly when it cannot be read and built, and then only the index has moved; otherwise it becomes current under its name; for a list without repeats the index is the old index minus one modulo the list length |
| LevelManager.LoadFirst | src/levels/manager.py:271-275 | an empty list changes nothing and fails; otherwise the first listed level is loaded: False exactly when it cannot be read and built, and then nothing changes; otherwise it becomes current under its name, and on True at index 0 |
| LevelManager.NextThenPrevious | src/levels/manager.py:255-269 | stepping forward and then back returns to the same level index |
| LevelManager.FirstLevelCurrent | src/levels/manager.py:271-275 | for a manager holding no level yet, load_first_level leaves the first listed level current exactly when it can be read and built, and then holds exactly that level |
| LevelManager.CheckCollision | src/levels/manager.py:367-373 | false with no level; an error exactly for a current level of tile size 0; otherwise true exactly when some collider layer has a tile at the tile containing the pixel |
| LevelManager.ColliderTileBlocksItsPixels | src/levels/manager.py:367-373 | every pixel inside a tile of a collider layer collides |
| Shapes.Row | src/interactable_config.py:193-194 | one row of the rectangle: `width` cells (none for a non-positive width) going right from the start column |
| Shapes.RectShape | src/interactable_config.py:189-195 | the rectangle holds width times height cells, exactly the cells inside it, each once |
| Shapes.RectangleCoords | src/interactable_config.py:189-195 | rows outer and columns inner; width times height cells, exactly those inside the rectangle, none repeated |
| Shapes.LineCoords | src/interactable_config.py:197-213 | for an end point on a row, a column or a 45-degree diagonal through the start (the only ones the loop reaches; see Findings), the line starts at the start, ends at the end, moves one sign step per cell, holds the longer distance plus one cells and repeats none |
| Shapes.LineNeverEnds | src/interactable_config.py:202-211 | for an end point off the start's row, column and diagonals, no step of the loop stands on the end point, so the `break` is never reached |
| Shapes.LineFromOriginToTwoOne | src/interactable_config.py:202-211 | from (0, 0) towards (2, 1) the loop visits (k, k) after k steps and never (2, 1) |
| Shapes.LineCoordsChecked | src/interactable_config.py:197-213 | the line generator with its documented shapes checked first: no line exactly for an end point off the start's row, column and diagonals; otherwise the loop's line from start to end without repeats |
| Shapes.CrossCoords | src/interactable_config.py:215-229 | 4 times the arm length plus 1 cells, centre first, then left/right pairs and up/down pairs; every cell lies on the centre's row or column within arm distance, and none repeats |
| Shapes.CrossFacts | src/interactable_config.py:217-228 | a cross laid out as the loops lay it out stays on the centre's row and column within the arm length and repeats no cell |
| Shapes.CrossCellsDiffer | src/interactable_config.py:217-228 | two different positions of the cross never hold the same cell |
| Wrap.ParagraphLines | src/states/game/utils/wrap_text.py:22-48 | a blank paragraph gives exactly one empty line; every paragraph gives at least one line, none containing a line break, each fitting the width or being a single unbreakable word |
| Wrap.ConcatLines | src/states/game/utils/wrap_text.py:19-48 | at least one line per paragraph; no line break appears in any line; every line fits or is a single word |
| Wrap.WrapText | src/states/game/utils/wrap_text.py:15-48 | whitespace-only text comes back unchanged as the only line; the result is never empty; otherwise at least one line per paragraph, no line holds a line break, and every line fits the width or is a single word |
| Wrap.WrapWordsExtends | src/states/game/utils/wrap_text.py:30-44 | the word loop only ever appends to the lines already emitted |
| Wrap.WrapWordsGrows | src/states/game/utils/wrap_text.py:30-48 | while a line is being filled or a non-empty word remains, the paragraph emits at least one more line |
| Wrap.WrapWordsLines | src/states/game/utils/wrap_text.py:30-48 | every emitted line fits the width or is a single word, and no line gains a line break the words lack |
| Wrap.WrapWordsJoin | src/states/game/utils/wrap_text.py:27-48 | without empty words, the new lines joined by single spaces are exactly the pending line followed by the remaining words |
| Wrap.ParagraphRoundTrip | src/states/game/utils/wrap_text.py:27-48 | a paragraph with no empty words is reproduced by joining its lines with single spaces: no word is dropped, reordered or altered |
| EditableText.New | src/states/game/ui/editable_text.py:10-38 | a fresh field keeps the invariant, with the cursor at the end of the initial text, that state as the only undo entry and an empty redo stack |
| EditableText.Selected | src/states/game/ui/editable_text.py:425-434 | a selection is copied exactly when both ends are set; the copy is the text between the lower and the higher end, whichever is the anchor, clamped as Python slicing clamps |
| EditableText.DeleteSelectionAsWritten | src/states/game/ui/editable_text.py:454-462 | as written, the cursor moves to the lower end of the selection even when that lies past the shortened text, and the selection is cleared |
| EditableText.DeleteSelection | src/states/game/ui/editable_text.py:454-462 | with the lower end clamped to the text, the selection is cleared, the cursor sits where the removed text was, and putting the removed text back at the cursor rebuilds the old text |
| EditableText.Move | src/states/game/ui/editable_text.py:228-258 | the cursor moves to the target and the text is kept; with Shift the anchor is set where the cursor was unless one exists and the other end follows the cursor; without Shift the selection is cleared (also Home and End, lines 334-363) |
| EditableText.SaveState | src/states/game/ui/editable_text.py:375-385 | the current text and cursor end up on top of the undo stack; a state already on top changes nothing; otherwise it is appended, and at 50 entries exactly the single oldest entry is dropped; the redo stack is cleared only when something was pushed |
| EditableText.PushBounded | src/states/game/ui/editable_text.py:379-382 | below 50 entries the state is appended; at 50 or more the oldest single entry is dropped and the state appended |
| EditableText.Undo | src/states/game/ui/editable_text.py:387-405 | succeeds exactly when the undo stack holds more than one entry; then the current state goes to the redo stack, the top entry is dropped, the entry below it is restored and the selection cleared; otherwise nothing changes |
| EditableText.Redo | src/states/game/ui/editable_text.py:407-423 | succeeds exactly when the redo stack is not empty; then the current state goes on the undo stack, the top redo entry is restored and the selection cleared; otherwise nothing changes |
| EditableText.LineColToPos | src/states/game/ui/editable_text.py:134-148 | the position never exceeds the text length, and is 0 when there are no lines |
| EditableText.CursorLineCol | src/states/game/ui/editable_text.py:100-119 | no lines gives (0, 0); otherwise the line exists and the column lies within it |
| EditableText.PosToCursor | src/states/game/ui/editable_text.py:150-172 | the clicked line is clamped to the layout and the position is that line's column as _line_col_to_cursor_pos gives it; with no lines the cursor goes to the end of the text |
| EditableText.HandleKey | src/states/game/ui/editable_text.py:219-373 | with the corrected selection deletion of the first Findings row, every key press while focused keeps the invariant, and only Ctrl+C and Ctrl+X hand text to the clipboard |
| EditableText.KeyDispatch | src/states/game/ui/editable_text.py:219-373 | Left and Right step the cursor by one within the text, Home and End move it to 0 and to the length, all reported as handled; Ctrl with z, y, c, v, x or a goes to the Ctrl shortcuts; Backspace, Delete, Up and Down go to their keys; any other key types its character when it is printable and is otherwise left unhandled |
| EditableText.HandleEvent | src/states/game/ui/editable_text.py:174-218 | a click inside focuses the field and starts a collapsed selection at the clicked position, as _pos_to_cursor gives it; a click outside drops focus and selecting and is not handled; releasing the button ends selecting, clears a collapsed selection and is handled exactly when a selection was in progress; a drag with the left button held moves the cursor and the selection end together to the dragged position; the wheel is handled exactly when focused and over the field; keys go to the key handler only while focused; nothing is copied except by a key press |
| EditableText.CtrlKey | src/states/game/ui/editable_text.py:264-294 | Ctrl+Z and Ctrl+Y are undo and redo; Ctrl+C copies the selection and changes nothing; Ctrl+V and Ctrl+X are the editing shortcuts below; Ctrl+A selects the whole text with the cursor at its end; with the corrected selection deletion of the first Findings row, all keep the invariant |
| EditableText.CtrlEdit | src/states/game/ui/editable_text.py:279-288 | Ctrl+V and Ctrl+X save the state first, so it tops the undo stack; Ctrl+V then leaves the text and cursor that pasting gives; Ctrl+X copies the selection and leaves the text and cursor of deleting it, with no selection left; the invariant is kept (with the corrected selection deletion of the first Findings row) |
| EditableText.BackspaceKey | src/states/game/ui/editable_text.py:297-306 | with a non-empty selection, the state is saved and the text and cursor become those of deleting the selection (corrected as in the first Findings row), with no selection left; otherwise the character before the cursor is removed and the cursor steps back, and nothing happens at the start; the invariant is kept |
| EditableText.DeleteKey | src/states/game/ui/editable_text.py:307-315 | with a non-empty selection, the state is saved and the text and cursor become those of deleting the selection (corrected as in the first Findings row), with no selection left; otherwise the character at the cursor is removed and the cursor stays, and nothing happens at the end; the invariant is kept |
| EditableText.VerticalKey | src/states/game/ui/editable_text.py:316-333 | only the cursor moves, staying within the text; Up on the first line and Down on the last change nothing; otherwise the cursor lands on the line above or below, at the same column or that line's end if it is shorter |
| EditableText.TypeText | src/states/game/ui/editable_text.py:364-371 | the state is saved, any selection, even an empty one, is deleted (corrected as in the first Findings row), and the character lands at the resulting cursor, which advances by one; the invariant is kept |
| EditableText.Paste | src/states/game/ui/editable_text.py:436-446 | an empty clipboard changes nothing; otherwise any selection is deleted (corrected as in the first Findings row), the clipboard text lands at the resulting cursor, the cursor moves past it and no selection is left; the invariant is kept |
| EditableText.HandleEventKeepsInv | src/states/game/ui/editable_text.py:174-373 | every event keeps the cursor within the text, the undo stack non-empty and the two histories within 50 entries |
| EditableText.TypeThenBackspace | src/states/game/ui/editable_text.py:297-306 | typing a character and pressing Backspace gives back the text and the cursor (with typing at lines 364-371) |
| EditableText.ShiftMoveSelects | src/states/game/ui/editable_text.py:228-258 | a Shift move from an unselected field selects exactly the text crossed |
| EditableText.UndoThenRedo | src/states/game/ui/editable_text.py:387-423 | undo followed by redo restores the text, the cursor and the redo stack |
| EditableText.NewCannotUndo | src/states/game/ui/editable_text.py:387-405 | a fresh field cannot undo: its single initial entry is kept |
| EditableText.UndoSkipsLatestSave | src/states/game/ui/editable_text.py:375-405 | since the stack's top is the state saved before the latest edit, typing two characters into a fresh field and undoing once removes both |
| EditableText.StaleSelectionOverrunsText | src/states/game/ui/editable_text.py:454-462 | Shift+Right at the end, Backspace, then typing leaves the cursor past the end of the text as written, and at the end with the clamped deletion |
| EditableText.PrintableKeyTypes | src/states/game/ui/editable_text.py:364-371 | a non-empty printable key with no modifier is typed and reported as handled |
| EditableText.ShiftRightAtEnd | src/states/game/ui/editable_text.py:244-258 | Shift+Right at the end of a fresh field records the collapsed selection at the text length |
| EditableText.BackspaceKeepsStaleSelection | src/states/game/ui/editable_text.py:297-306 | Backspace with a collapsed selection removes the previous character but leaves the selection set |
| EditableText.CursorRoundTrip | src/states/game/ui/editable_text.py:100-148 | a position within the laid-out text maps to a line and column and back to the same position |
| EditableText.LineColRoundTrip | src/states/game/ui/editable_text.py:100-148 | a line and a column within it map to a position and back, when the text is at least as long as the layout |
| EditableText.WrappedCursorRoundTrip | src/states/game/ui/editable_text.py:100-148 | for lines that split the text at single separators, every cursor position survives the round trip through a line and column |
| EditableText.ClickRoundTrip | src/states/game/ui/editable_text.py:100-172 | for lines that split the text at single separators, clicking the line and column where a position is shown puts the cursor on that position |
| EditableText.DeleteIsRightThenBackspace | src/states/game/ui/editable_text.py:297-315 | without a selection and before the end, Delete gives the same text and cursor as Right followed by Backspace |
| EditableText.BackspaceThenPasteBack | src/states/game/ui/editable_text.py:297-306 | Backspace over a non-empty selection followed by pasting the selected text restores the text, with the cursor after the pasted text (with pasting at lines 279-283 and 436-446) |
| EditableText.CutThenPaste | src/states/game/ui/editable_text.py:279-288 | Ctrl+X followed by Ctrl+V with the cut text restores the text, with the cursor after the pasted text |
| EditableText.TypeOverSelectionThenBackspace | src/states/game/ui/editable_text.py:364-371 | typing over a selection and then pressing Backspace leaves the text and cursor of deleting the selection (with Backspace at lines 297-306) |
| EditableText.UpThenDown | src/states/game/ui/editable_text.py:316-333 | for lines laid out from the text, Up and then Down return to the same line, and to the same position when the column fits on the line above |
| SelectableText.Repeat | src/states/game/ui/selectable_text.py:14 | `[d] * n`: n copies of the colour |
| SelectableText.Create | src/states/game/ui/selectable_text.py:7-25 | the lines are the text's '\n'-separated pieces and join back to the text, one default colour per line, no selection, scrolled to the top, at least one visible line and the scroll bound that follows |
| SelectableText.SetLineColors | src/states/game/ui/selectable_text.py:27-32 | the given colours are kept as a prefix and padded with the default to at least one per line; nothing else changes |
| SelectableText.UpdateContentAsWritten | src/states/game/ui/selectable_text.py:34-46 | as written, the offset jumps to the bottom only when the new text overflows the view and is otherwise left as it was |
| SelectableText.UpdateContent | src/states/game/ui/selectable_text.py:34-46 | with the offset kept in bounds, the new text's lines are shown from the bottom, every line colour is reset to the default, and the selection is kept |
| SelectableText.ScrollToTop | src/states/game/ui/selectable_text.py:52-54 | only the offset changes, to 0, and the view stays valid |
| SelectableText.ScrollToBottom | src/states/game/ui/selectable_text.py:48-50 | only the offset changes, to the scroll bound, and the view stays valid |
| SelectableText.HandleScroll | src/states/game/ui/selectable_text.py:56-60 | the offset moves by the amount given, clamped to [0, max_scroll]; the result is true exactly when the offset changed; nothing else changes |
| SelectableText.CharIndexFrom | src/states/game/ui/selectable_text.py:98-105 | the column is the first whose next prefix is wider than the x offset, or the line length when every prefix fits |
| SelectableText.RowLine | src/states/game/ui/selectable_text.py:91-92 | a window row falls on an existing line, clamped at both ends |
| SelectableText.PosToCharIndex | src/states/game/ui/selectable_text.py:85-109 | the character index never exceeds the text length |
| SelectableText.SelectedText | src/states/game/ui/selectable_text.py:111-117 | "" unless both ends are set; otherwise the text between the lower and the higher end, clamped to the text as Python slicing clamps |
| SelectableText.MouseDown | src/states/game/ui/selectable_text.py:62-69 | handled exactly when inside; then a selection starts with both ends at the character index under the mouse, selecting nothing yet; outside nothing changes |
| SelectableText.MouseDrag | src/states/game/ui/selectable_text.py:71-76 | handled exactly while selecting; then only the free end moves, to the character index under the mouse; otherwise nothing changes |
| SelectableText.MouseUp | src/states/game/ui/selectable_text.py:78-83 | handled exactly while selecting; the selection ends and keeps its ends |
| SelectableText.LineInText | src/states/game/ui/selectable_text.py:108 | each line sits in the text at the sum of the earlier lines' lengths plus one separator each |
| SelectableText.PointsAtCharacter | src/states/game/ui/selectable_text.py:85-109 | a mouse position resolves to the line's start plus the column, and there the text holds that line's character |
| SelectableText.SelectionSymmetric | src/states/game/ui/selectable_text.py:111-117 | the selected text is the same whichever end is the anchor |
| SelectableText.SomeLineVisible | src/states/game/ui/selectable_text.py:22-25 | a view whose offset is within its bound always draws at least one line |
| SelectableText.StaleScrollHidesText | src/states/game/ui/selectable_text.py:34-46 | after scrolling a long text, a one-line text is drawn as no lines at all as written, and as its one line by the bounded update |
| SelectableText.StaleScrollExample | src/states/game/ui/selectable_text.py:34-46 | concretely: "a\nb" in a one-line view is scrolled to offset 1, after which "c" is drawn as nothing |
| DialogueBox.New | src/states/game/ui/dialogue_box.py:20-31 | a new box is hidden, keeps the reveal invariant and waits 30 ms per character |
| DialogueBox.ShowMessage | src/states/game/ui/dialogue_box.py:67-74 | the box is shown and not complete, holds the new message, displays nothing yet at index 0, and restarts its clock |
| DialogueBox.Update | src/states/game/ui/dialogue_box.py:76-91 | nothing changes while hidden, complete or before the delay; after it, exactly the next character is revealed, or the box completes once the whole message is shown; the displayed text stays the message's prefix of length char_index |
| DialogueBox.Hide | src/states/game/ui/dialogue_box.py:106-111 | the box becomes hidden, empty and not complete, and the character index is left as it was |
| DialogueBox.CompleteTyping | src/states/game/ui/dialogue_box.py:175-181 | reveals the whole message and completes it; nothing changes when already complete |
| DialogueBox.HandleEvent | src/states/game/ui/dialogue_box.py:207-219 | consumed exactly for E while shown and still typing, which completes the text; every other event changes nothing |
| DialogueBox.CompleteTypingIdempotent | src/states/game/ui/dialogue_box.py:175-181 | completing twice is completing once |
| DialogueBox.TickReveals | src/states/game/ui/dialogue_box.py:84-91 | with updates spaced by the delay, each update reveals one more character, and the update after the last character completes the box showing the whole message |
| DialogueBox.TickStaysComplete | src/states/game/ui/dialogue_box.py:84 | once complete, further updates change nothing |
| DialogueBox.ShowThenTypeAll | src/states/game/ui/dialogue_box.py:67-91 | a shown message is fully displayed after its length plus one timely updates, with the same text that completing it at once shows |
| PasswordUI.Show | src/ui/password_ui.py:37-46 | the prompt becomes visible with an empty input, no results and the fixed prompt message, holds the given rules, door and callback, and a missing list of collected rules becomes the empty list |
| PasswordUI.Hide | src/ui/password_ui.py:48-52 | the prompt becomes invisible with an empty input and no results, and nothing else changes |
| PasswordUI.UpdateValidation | src/ui/password_ui.py:91-99 | with a door, the results are keyed by exactly the listed rules, each (other than "????") being its single-rule check on the input; without a door nothing changes |
| PasswordUI.Submit | src/ui/password_ui.py:79-89 | without a door or a callback nothing changes; with both, a valid password opens the door and hides the prompt with nothing else changed, and an invalid one keeps the input and visibility, showing the failure message and the per-rule results; the door opens exactly on a valid password and never closes |
| PasswordUI.HandleEvent | src/ui/password_ui.py:54-77 | consumed exactly when visible and a key is pressed; otherwise nothing changes; Return submits; Escape hides; Backspace drops the last character (nothing on an empty input) and a printable character is appended, either way followed by revalidation; anything else is ignored |
| PasswordUI.TypeThenBackspace | src/ui/password_ui.py:65-75 | typing a printable character and pressing Backspace gives back the input |
| PasswordUI.EditsRevalidate | src/ui/password_ui.py:65-99 | after Backspace or a printable key at a door, the results are keyed by exactly the listed rules and each collected rule holds its check on the new input |
| PasswordUI.SubmitOpensOnlyWhenValid | src/ui/password_ui.py:79-89 | pressing Return with a door and a callback opens the door and closes the prompt for a valid password, and leaves both as they were otherwise |
| PasswordUI.ShowMessage | src/ui/password_ui.py:183-186 | the message, its time and its duration join the end of the queue, the rest untouched |
| PasswordUI.UpdateMessages | src/ui/password_ui.py:188-192 | exactly the messages still alive (now minus shown time below duration) remain, in their original order, each as often as it was queued |
| PasswordUI.UpdateLaterAbsorbs | src/ui/password_ui.py:188-192 | updating at an earlier time and then at a later one is updating at the later one |
| PasswordUI.UpdateIdempotent | src/ui/password_ui.py:188-192 | updating twice at the same time is updating once |
| PasswordUI.FreshMessageSurvives | src/ui/password_ui.py:183-192 | a message shown now with a positive duration survives an update at the same time |
| Terminal.New | src/ui/terminal.py:17-27 | a new terminal has no lines and no positions, dots at 0, a line height of the font height plus 5 and green as its default colour |
| Terminal.AddLine | src/ui/terminal.py:29-44 | the line joins the end; both position lists grow by one and stay equal in length; each earlier target becomes its index times the line height, and the new target and current position are the new line count times the line height |
| Terminal.Clear | src/ui/terminal.py:106-110 | the lines and both position lists are emptied and nothing else changes |
| Terminal.Ease | src/ui/terminal.py:54-58 | one easing step keeps four fifths of the remaining distance, so the position never overshoots its target |
| Terminal.StepDots | src/ui/terminal.py:49-51 | the dot counter stays within 0..3, and the step either happens at the clock reading or leaves counter and time as they were |
| Terminal.Update | src/ui/terminal.py:46-58 | the dot counter steps mod 4 and remembers the time exactly when more than the interval has passed; lines and targets are kept; every current position takes one easing step toward its target |
| Terminal.DotsCycle | src/ui/terminal.py:49-51 | four timely updates bring the dot counter back to where it was |
| Terminal.Dots | src/ui/terminal.py:65 | the dot string has as many characters as the counter says, all of them dots |
| Terminal.LineY | src/ui/terminal.py:70 | the newest line sits on the base line and every line lies between it and n - 1 line heights above it, for a non-negative line height (also line 103) |
| Terminal.DisplayText | src/ui/terminal.py:63-65 | an animated line shows its text followed by as many dots as the counter says; any other line shows its text alone |
| Terminal.LinesStackUp | src/ui/terminal.py:70 | the newest line sits on the base line and each older line one line height above the next (also line 103) |
| Terminal.PiecesSpellText | src/ui/terminal.py:77-99 | the coloured pieces spell exactly the displayed text: a segment not found after the current position is skipped, and nothing is lost or repeated |
| Terminal.FoundSegmentSpells | src/ui/terminal.py:80-93 | when the next segment is found, the text before it, the segment and the rest still spell the remaining text |
| Terminal.NoSegmentFound | src/ui/terminal.py:77-99 | when no segment occurs in the text, the line is drawn as one piece in the default colour |
| Terminal.RenderLine | src/ui/terminal.py:60-104 | each line is drawn at its stacked y coordinate as pieces that spell exactly its displayed text |
| Terminal.AddLineLeavesGap | src/ui/terminal.py:31-43 | the targets add_line sets leave a gap of one line: the newest line aims two line heights below the line before it |
| MenuState.NewBounded | src/states/menu-state.py:141-148 | a new bounded terminal is empty and, for at least one line of room, keeps its bound |
| MenuState.AddLine | src/states/menu-state.py:150-153 | the new line is always last; when the terminal is full the oldest line is dropped first, so the length stays within the bound and the surviving lines keep their order |
| MenuState.Update | src/states/menu-state.py:155-159 | only the dot counter moves, one step mod 4 once more than the interval has passed, and it stays within 0..3 |
| MenuState.KeepsLastLines | src/states/menu-state.py:150-153 | after any series of additions the terminal holds exactly the last max_lines lines ever added, oldest first |
| MenuState.Start | src/states/menu-state.py:181-202 | the loop starts loading at stage 0 with the first entry selected, running, and an empty terminal |
| MenuState.HandleEvent | src/states/menu-state.py:209-224 | quitting stops the loop; outside the menu nothing else happens; in the menu Down and Up move the selection cyclically over the two entries, Return on "Play" starts the game and adds the starting line, and Return on "Exit" stops the loop |
| MenuState.Step | src/states/menu-state.py:226-238 | the dots move every frame; while loading and once the delay has passed, the stage advances and the clock restarts, and the menu opens exactly when the stages run out; otherwise only the dots move |
| MenuState.DownThenUp | src/states/menu-state.py:215-218 | moving down then up in the menu returns to the same entry |
| MenuState.StageStep | src/states/menu-state.py:229-238 | a loading step that reaches a stage adds that stage's text as the newest line |
| MenuState.ReadyStep | src/states/menu-state.py:233-236 | the step past the last stage opens the menu and adds the two ready lines |
| MenuState.LoadingSequence | src/states/menu-state.py:190-238 | four stage delays after the start the menu is open showing the later three stage texts and the two ready lines; the first stage's text is never shown |
| LoadingMenu.StageLines | src/states/menu_substates/loading_menu_state.py:33-46 | stage k shows k + 1 lines |
| LoadingMenu.StageLinesShape | src/states/menu_substates/loading_menu_state.py:33-46 | stage k lists the stage texts 0..k in order, uncoloured, with only the last one animated |
| LoadingMenu.AdvanceStage | src/states/menu_substates/loading_menu_state.py:24-49 | the stage always advances; past the last stage the menu state is returned and the terminal is left alone; otherwise nothing is returned, the clock restarts and the terminal is rebuilt with the stage lines, its position lists left empty |
| LoadingMenu.New | src/states/menu_substates/loading_menu_state.py:6-11 | construction starts at stage 0, showing the first stage |
| LoadingMenu.Update | src/states/menu_substates/loading_menu_state.py:13-22 | the stage advances exactly when more than the delay has passed since it began; the menu state is returned exactly when that advance passes the last stage |
| LoadingMenu.Run | src/states/menu_substates/loading_menu_state.py:13-49 | successive updates keep the invariant and never move the stage back, and the only state ever returned is the menu |
| LoadingMenu.RunShowsStages | src/states/menu_substates/loading_menu_state.py:13-49 | with updates coming after the delay, k updates show stages up to the current one plus k, and the update past the last stage hands over to the menu |
| LoadingMenu.RunUnfolds | src/states/menu_substates/loading_menu_state.py:13-22 | before the last stage, a run of several updates is one update followed by the rest |
| LoadingMenu.RunFirst | src/states/menu_substates/loading_menu_state.py:13-49 | a run of one update, or one that reaches the end of the stages, stops there |
| LoadingMenu.LoadingReachesMenu | src/states/menu_substates/loading_menu_state.py:6-49 | from a fresh loading screen every stage is shown in turn, and the menu follows after as many updates as there are stages |
| MenuOptions.HandleSelection | src/states/menu_substates/menu_options_state.py:80-92 | each of the five entries leads to its own state, in both directions, and "Exit" leaves the program |
| MenuOptions.MenuStart | src/states/menu_substates/menu_options_state.py:65-70 | the menu starts at the first line whose stripped text, with or without its two-character prefix, is a menu entry; with no such line it starts at 0 |
| MenuOptions.UpdateMenuItems | src/states/menu_substates/menu_options_state.py:63-78 | the selection and line count are unchanged, and each line from the menu's start on is repainted with its entry's text and colour, lines past the end skipped |
| MenuOptions.RepaintKeepsOthers | src/states/menu_substates/menu_options_state.py:73-78 | the repaint leaves every line outside the menu block unchanged and never touches the dots flag |
| MenuOptions.OnlySelectedMarked | src/states/menu_substates/menu_options_state.py:73-78 | after a repaint exactly the selected entry carries the "> " mark and the yellow colour, and every entry's name follows its two-character prefix |
| MenuOptions.HandleEvent | src/states/menu_substates/menu_options_state.py:22-34 | Up/W, away from the top, moves the selection up and repaints the items for it; Down/S, away from the end, does the same downwards; at the ends nothing changes, without wrapping; Return leaves the state alone and reports the chosen entry's result; other events change nothing |
| MenuOptions.UpThenDown | src/states/menu_substates/menu_options_state.py:24-31 | away from the top, Up then Down returns to the same entry |
| MenuOptions.DownOnEnteredPage | src/states/menu_substates/menu_options_state.py:22-78 | on an entered page, Down shows the same terminal as entering the page with the next entry selected |
| MenuOptions.AddLinesAppends | src/states/menu_substates/menu_options_state.py:41-61 | writing lines through add_line appends them in order and gives each a position |
| MenuOptions.Enter | src/states/menu_substates/menu_options_state.py:36-61 | entering the menu clears the terminal and writes the sixteen page lines for the current selection, every one with its position |
| MenuOptions.EnterShowsMenu | src/states/menu_substates/menu_options_state.py:54-58 | line 9 + i of the entered page is entry i, marked and coloured exactly when it is selected |
| MenuOptions.EnterMenuStart | src/states/menu_substates/menu_options_state.py:36-70 | on the entered page the search for the menu finds line 9, the first entry, and no earlier line (loading stages, title, creators, blanks) |
| MenuOptions.RepaintMatchesEnter | src/states/menu_substates/menu_options_state.py:22-78 | repainting the entered page for a new selection gives the same terminal as entering the page with that selection |
| RuleCountPatch.AddRuleCount | add_rule_count.py:9-31 | the patch succeeds exactly when the document is an object whose "metadata", if present, is an object; otherwise the error is caught and reported as failure |
| RuleCountPatch.PatchSetsOnlyRuleCount | add_rule_count.py:15-20 | after the patch, metadata.rule_count is the given count, a missing metadata becomes an object holding only that count, and every other top-level and metadata key keeps its value |
| RuleCountPatch.PatchIdempotent | add_rule_count.py:15-20 | patching twice with the same count is patching once |
| RuleCountPatch.PatchOverwrites | add_rule_count.py:19-20 | patching with one count and then another is patching with the second |
| TimeFormat.Pad2 | r.py:78 | the two-digit zero-padded field has at least two characters, exactly two digits for 0..99, and no colon |
| TimeFormat.SecondsToTime | r.py:72-78 | zero, which is falsy, gives "Unknown" and nothing else does; any other duration ends in a colon followed by two digits |
| TimeFormat.Pad2Value | r.py:78 | the padded field reads back as the number it came from, negative numbers included |
| TimeFormat.FormatRoundTrip | r.py:72-78 | every non-zero duration, negative ones included, reads back from "MM:SS" as the same number of seconds, with floor division and remainder |
| TimeFormat.SecondsFieldInRange | r.py:76-78 | the seconds field is always a value from 0 to 59 |

## Left out

- Drawing, fonts, surfaces, blitting and the CRT shader: every `render`/`_draw_*` method, the HUD, compass, pause button, rule counter and UI manager. The font's width measure is a function parameter wherever wrapping or hit-testing needs it.
- The clock: `pygame.time.get_ticks()` becomes an integer `now` argument.
- The clipboard: paste takes the clipboard's text as an argument. Copying, and the heuristic clean-up in `_clean_text_for_clipboard`, are effects outside the model.
- Floating point: the smooth camera branch, player movement, popup fades, the dialogue triangle, compass trigonometry, and the `+ layer_index * 0.1` sprite depths. The terminal's y-easing is modelled over reals in `Terminal.Ease`, without float rounding.
- File and network I/O: reading and listing level files (`load_level`, `reload_level`, `get_available_levels`), reading and writing the document in add_rule_count.py, the video helper's download and URL check. The loader's parsed JSON is an input, and the script's failure is a `None` result.
- The programmatic registration calls in interactable_config.py target manager methods that do not exist.
- Interactables.Load: `_detect_level_type` only reads the metadata's description, and `_create_interactable` ignores the level type it returns, so the call is left out. The AttributeError it raises for a description that is not a string is therefore not modelled; the model's metadata keeps only the rule list. `_get_rules_for_level_type` is never called.
- Text.ParseInt: accepts optional surrounding whitespace, a sign and ASCII digits; Python's `int` also accepts underscores between digits ("1_0") and non-ASCII digits, which are not modelled.
- TimeFormat.SecondsToTime: takes an integer; the ValueError that the `:02d` format raises for a float duration is not modelled.
- Main loops and state switching: main.py, the game and prelude states, and the static menu screens (how to play, settings, credits). The password judge screen is also left out: it calls the door with two arguments and uses `SelectableText` features that do not exist.
- Keyboard polling: `pygame.key.get_pressed()` is modelled as the key of the event being handled. The key-repeat path, where a KEYUP with an arrow key still held moves the cursor again, is not modelled.
- EditableText.HandleEvent: the field's scroll offset is not modelled: neither the wheel's clamped change (editable_text.py:208-215) nor the adjustments of `_ensure_cursor_visible`, which depend on the field's pixel height. A mouse event therefore carries the line after scrolling (the scroll offset plus the clicked row, line 156), and the wheel only reports whether it was handled.
- Wrapping inside `EditableText._update_wrapped_lines` and `DialogueBox._wrap_text`: the wrapped lines are an input.
- Unicode: `isdigit`, `isupper`, `lower`, `isspace` and `isprintable` are modelled for ASCII only.
- JSON object key order: documents in `RuleCountPatch` are maps, so the order in which `json.dump` writes keys is not modelled.
- Leaving the program: `pygame.quit()` followed by `exit()` on "Exit" is the result `MenuOptions.ExitGame`, and clearing `running` in menu-state.py is a field of the loop state.
- The password prompt's callback is a flag saying whether one is set; calling it is left out. `PasswordUI.Submit` returns the updated prompt, which holds the updated door.
- LevelLoader.ValidateLevel: states which issues appear, but not their order or how often a repeated out-of-bounds message occurs.

## Findings

| source | as written | input that shows it | evidently intended | confidence | as-written member | corrected member |
|---|---|---|---|---|---|---|
| src/states/game/ui/editable_text.py:454-462 | deleting a selection sets the cursor to the selection's smaller end, even when a stale selection left over from an earlier edit points past the end of the text; typing then places the cursor beyond the text | a non-empty text t with the cursor at its end: Shift+Right (selection from \|t\| to \|t\|), Backspace (removes a character, keeps the selection), then type "x": the cursor ends at \|t\| + 1 while the text has length \|t\| | the cursor never leaves the text | not executed | EditableText.DeleteSelectionAsWritten, EditableText.StaleSelectionOverrunsText | EditableText.DeleteSelection, EditableText.HandleEventKeepsInv |
| src/states/game/ui/selectable_text.py:34-46 | update_content jumps to the bottom only when the new max_scroll is positive, and otherwise keeps the old scroll offset | the text "a\nb" in a one-line view scrolled to line 1, then update_content("c"): the offset stays 1 while the only line is line 0, so no line is drawn | the offset is clamped into the new range, so some line is always visible | not executed | SelectableText.UpdateContentAsWritten, SelectableText.StaleScrollHidesText | SelectableText.UpdateContent, SelectableText.SomeLineVisible |
| src/interactable_config.py:197-213 | create_line_coords steps by the sign of each difference and stops only on reaching the end point exactly | create_line_coords(0, 0, 2, 1): the loop visits (0, 0), (1, 1), (2, 2), ... and never stops, so the list grows without end | the documented horizontal, vertical or diagonal lines, with any other end point rejected instead of looping | not executed | Shapes.LineNeverEnds, Shapes.LineFromOriginToTwoOne | Shapes.LineCoordsChecked, Shapes.LineCoords |

=== FILE: constants.dfy ===
/** The shared configuration of the menus and the terminal: colours, state numbers,
    menu entries and loading stages. */
module Constants {

  /** An RGB colour. */
  type Color = (int, int, int)

  const TerminalGreen: Color := (0, 255, 0)
  const TerminalYellow: Color := (255, 255, 0)

  const StateLoading := 0
  const StateMenu := 1
  const StatePrelude := 2
  const StateHowToPlay := 3
  const StateSettings := 4
  const StateCredits := 5

  const MenuItems: seq<string> := ["Play", "How To Play", "Settings", "Credits", "Exit"]
  const Creators: seq<string> := ["[name1]", "[name2]", "[name3]", "[name4]"]
  const Title := "The Final String: Win By Making Better Passwords"
  const ControlsText := "Press 'W' or Up Arrow to move up, 'S' or Down Arrow to move down"

  /** Milliseconds each loading stage stays on screen. */
  const LoadingDelay := 2000
  /** Each stage's text and whether its dots animate. */
  const LoadingStages: seq<(string, bool)> := [
    ("Initializing engine", true),
    ("Generating levels", true),
    ("Loading assets", true),
    ("Finalizing setup", true)
  ]
}

=== FILE: dialogue_box.dfy ===
/** The dialogue box's typewriter: a message is revealed one character per `charDelay`
    milliseconds, and the E key reveals the rest at once. The clock is an argument;
    drawing and the pulsing triangle are not modelled. */
module DialogueBox {

  datatype Box = Box(
    message: string,
    displayed: string,
    active: bool,
    charIndex: nat,
    lastCharTime: int,
    charDelay: int,
    complete: bool)

  const CharDelay := 30

  /** While the box is shown, the displayed text is the first `charIndex` characters of
      the message, and typing is complete only once the whole message is shown. */
  predicate Inv(b: Box) {
    b.active ==>
      && b.charIndex <= |b.message|
      && b.displayed == b.message[..b.charIndex]
      && (b.complete ==> b.charIndex == |b.message|)
  }

  /** The constructor: hidden, empty, 30 ms per character. */
  function New(): (b: Box)
    ensures Inv(b) && !b.active && b.charDelay == CharDelay
  {
    Box("", "", false, 0, 0, CharDelay, false)
  }

  /** show_message: start revealing `message` from nothing at time `now`. */
  function ShowMessage(b: Box, message: string, now: int): (r: Box)
    ensures Inv(r)
    ensures r.active && !r.complete && r.message == message && r.displayed == "" && r.charIndex == 0
    ensures r.lastCharTime == now && r.charDelay == b.charDelay
  {
    b.(message := message, displayed := "", charIndex := 0, active := true, complete := false, lastCharTime := now)
  }

  /** update at time `now`: nothing while hidden or complete or before the delay has
      passed; then either the next character or, at the end, completion. */
  function Update(b: Box, now: int): (r: Box)
    ensures Inv(b) ==> Inv(r)
    ensures !b.active || b.complete || now - b.lastCharTime < b.charDelay ==> r == b
    ensures b.active && !b.complete && now - b.lastCharTime >= b.charDelay && b.charIndex < |b.message| ==>
              r == b.(displayed := b.displayed + [b.message[b.charIndex]], charIndex := b.charIndex + 1, lastCharTime := now)
    ensures b.active && !b.complete && now - b.lastCharTime >= b.charDelay && b.charIndex >= |b.message| ==>
              r == b.(complete := true)
  {
    if !b.active then b
    else if !b.complete && now - b.lastCharTime >= b.charDelay then
      if b.charIndex < |b.message| then
        b.(displayed := b.displayed + [b.message[b.charIndex]], charIndex := b.charIndex + 1, lastCharTime := now)
      else b.(complete := true)
    else b
  }

  /** hide: inactive, empty, not complete; the character index is left as it was. */
  function Hide(b: Box): (r: Box)
    ensures Inv(r) && !r.active && r.message == "" && r.displayed == "" && !r.complete
    ensures r.charIndex == b.charIndex
  {
    b.(active := false, message := "", displayed := "", complete := false)
  }

  /** complete_typing: reveal the whole message; nothing if already complete. */
  function CompleteTyping(b: Box, now: int): (r: Box)
    ensures Inv(b) ==> Inv(r)
    ensures b.complete ==> r == b
    ensures !b.complete ==> r.displayed == r.message == b.message && r.complete && r.charIndex == |b.message|
  {
    if !b.complete then
      b.(displayed := b.message, charIndex := |b.message|, complete := true, lastCharTime := now)
    else b
  }

  /** handle_event: only the E key while the box is shown and still typing is consumed;
      it completes the text. */
  function HandleEvent(b: Box, keyE: bool, now: int): (r: (Box, bool))
    ensures r.1 <==> b.active && keyE && !b.complete
    ensures r.1 ==> r.0 == CompleteTyping(b, now)
    ensures !r.1 ==> r.0 == b
  {
    if !b.active then (b, false)
    else if keyE then
      if !b.complete then (CompleteTyping(b, now), true) else (b, false)
    else (b, false)
  }

  // ---------------------------------------------------------------- lemmas

  /** Completing twice is completing once. */
  lemma CompleteTypingIdempotent(b: Box, t1: int, t2: int)
    ensures CompleteTyping(CompleteTyping(b, t1), t2) == CompleteTyping(b, t1)
  {
  }

  /** `k` updates, each exactly one delay after the last revealed character. */
  function Tick(b: Box, k: nat): Box
    decreases k
  {
    if k == 0 then b else Tick(Update(b, b.lastCharTime + b.charDelay), k - 1)
  }

  /** With updates spaced by the delay, the box reveals one character per update and
      completes on the update after the last character: the typewriter shows the whole
      message, exactly as E would. */
  lemma {:induction false} TickReveals(b: Box, k: nat)
    requires Inv(b) && b.active && !b.complete
    ensures var r := Tick(b, k);
            && r.active && r.message == b.message
            && (b.charIndex + k <= |b.message| ==> r.charIndex == b.charIndex + k && !r.complete)
            && (b.charIndex + k > |b.message| ==> r.complete && r.displayed == b.message)
    decreases k
  {
    if k > 0 {
      var n := Update(b, b.lastCharTime + b.charDelay);
      if b.charIndex < |b.message| {
        assert n.charIndex == b.charIndex + 1 && !n.complete;
        TickReveals(n, k - 1);
      } else {
        assert n.complete;
        TickStaysComplete(n, k - 1);
      }
    }
  }

  lemma {:induction false} TickStaysComplete(b: Box, k: nat)
    requires b.complete
    ensures Tick(b, k) == b
    decreases k
  {
    if k > 0 {
      TickStaysComplete(Update(b, b.lastCharTime + b.charDelay), k - 1);
    }
  }

  /** A shown message is fully displayed after |message| + 1 timely updates, with the
      same text that completing it at once displays. */
  lemma ShowThenTypeAll(b: Box, message: string, now: int)
    ensures var s := ShowMessage(b, message, now);
            var r := Tick(s, |message| + 1);
            r.complete && r.displayed == message == CompleteTyping(s, now).displayed
  {
    TickReveals(ShowMessage(b, message, now), |message| + 1);
  }
}

=== FILE: editable_text.dfy ===
/** The password text field: a text buffer with a cursor, an optional selection (two ends
    that may be unset), a bounded undo history and a redo history. The field's wrapped
    lines depend on a font and are an input; the clipboard is an input for paste and an
    output for copy and cut. */
module EditableText {
  import opened Text
  import opened Seqs

  /** A saved (text, cursor) pair. */
  type Snapshot = (string, nat)

  const MaxUndoStates := 50

  datatype Editor = Editor(
    text: string,
    cursor: nat,
    selStart: Option<nat>,
    selEnd: Option<nat>,
    focused: bool,
    selecting: bool,
    undo: seq<Snapshot>,
    redo: seq<Snapshot>)

  predicate ValidSnapshot(s: Snapshot) { s.1 <= |s.0| }

  /** What every editor reachable from `New` satisfies: the cursor lies within the text,
      the undo stack is never empty, and undo and redo together hold at most 50 entries. */
  predicate Inv(e: Editor) {
    && e.cursor <= |e.text|
    && 1 <= |e.undo|
    && |e.undo| + |e.redo| <= MaxUndoStates
    && (forall k | 0 <= k < |e.undo| :: ValidSnapshot(e.undo[k]))
    && (forall k | 0 <= k < |e.redo| :: ValidSnapshot(e.redo[k]))
  }

  /** The constructor: cursor at the end, no selection, the initial state as the only undo entry. */
  function New(initial: string): (e: Editor)
    ensures Inv(e)
    ensures e.text == initial && e.cursor == |initial| && e.undo == [(initial, |initial|)] && e.redo == []
  {
    Editor(initial, |initial|, None, None, false, false, [(initial, |initial|)], [])
  }

  // ---------------------------------------------------------------- selection

  predicate HasSelection(e: Editor) { e.selStart.Some? && e.selEnd.Some? }

  function Lo(e: Editor): nat
    requires HasSelection(e)
  {
    Min(e.selStart.value, e.selEnd.value)
  }

  function Hi(e: Editor): nat
    requires HasSelection(e)
  {
    Max(e.selStart.value, e.selEnd.value)
  }

  /** _copy_selection: the selected text, whichever end is the anchor. */
  function Selected(e: Editor): (r: Option<string>)
    ensures r.Some? <==> HasSelection(e)
    ensures r.Some? ==> r.value == Slice(e.text, Lo(e), Hi(e)) && |r.value| <= Hi(e) - Lo(e)
    ensures r.Some? && Hi(e) <= |e.text| ==> r.value == e.text[Lo(e)..Hi(e)]
  {
    if HasSelection(e) then Some(Slice(e.text, Lo(e), Hi(e))) else None
  }

  /** _delete_selection as written: the cursor moves to the selection's lower end even
      when that end lies past the (shortened) text. */
  function DeleteSelectionAsWritten(e: Editor): (r: Editor)
    ensures HasSelection(e) ==> r.cursor == Lo(e) && r.selStart.None? && r.selEnd.None?
    ensures !HasSelection(e) ==> r == e
  {
    if HasSelection(e) then
      e.(text := Take(e.text, Lo(e)) + Drop(e.text, Hi(e)), cursor := Lo(e), selStart := None, selEnd := None)
    else e
  }

  /** _delete_selection with the lower end clamped to the text, as `text[:start]` already
      clamps it: the removed text put back at the cursor rebuilds the old text. */
  function DeleteSelection(e: Editor): (r: Editor)
    ensures HasSelection(e) ==>
      && r.selStart.None? && r.selEnd.None?
      && r.cursor == Min(Lo(e), |e.text|) <= |r.text|
      && r.text[..r.cursor] + Selected(e).value + r.text[r.cursor..] == e.text
      && |r.text| == |e.text| - |Selected(e).value|
    ensures !HasSelection(e) ==> r == e
    ensures r.undo == e.undo && r.redo == e.redo && r.focused == e.focused && r.selecting == e.selecting
  {
    if HasSelection(e) then
      var lo := Min(Lo(e), |e.text|);
      var t := Take(e.text, Lo(e)) + Drop(e.text, Hi(e));
      assert t[..lo] + Selected(e).value + t[lo..] == e.text by {
        assert t[..lo] == e.text[..lo];
        assert t[lo..] == e.text[Min(Hi(e), |e.text|)..];
      }
      e.(text := t, cursor := lo, selStart := None, selEnd := None)
    else e
  }

  /** Put `s` at the cursor and advance the cursor by `step`. */
  function Insert(e: Editor, s: string, step: nat): Editor {
    e.(text := Take(e.text, e.cursor) + s + Drop(e.text, e.cursor), cursor := e.cursor + step)
  }

  /** Move the cursor to `target`: with Shift the selection is anchored where the cursor
      was (unless an anchor exists) and follows the cursor; without Shift it is cleared. */
  function Move(e: Editor, target: nat, shift: bool): (r: Editor)
    ensures r.cursor == target && r.text == e.text && r.undo == e.undo && r.redo == e.redo
    ensures shift ==> r.selStart == (if e.selStart.None? then Some(e.cursor) else e.selStart) && r.selEnd == Some(target)
    ensures !shift ==> r.selStart.None? && r.selEnd.None?
  {
    if shift then
      e.(selStart := if e.selStart.None? then Some(e.cursor) else e.selStart, selEnd := Some(target), cursor := target)
    else e.(cursor := target, selStart := None, selEnd := None)
  }

  // ---------------------------------------------------------------- undo / redo

  /** Push `cur` onto the undo stack, dropping the oldest entry beyond 50. */
  function PushBounded(undo: seq<Snapshot>, cur: Snapshot): (kept: seq<Snapshot>)
    ensures |kept| > 0 && kept[|kept| - 1] == cur
    ensures IsSuffix(kept[..|kept| - 1], undo)
    ensures |undo| < MaxUndoStates ==> kept == undo + [cur]
    ensures |undo| >= MaxUndoStates ==> kept == undo[1..] + [cur]
    ensures |undo| <= MaxUndoStates ==> |kept| <= MaxUndoStates
    ensures (forall k | 0 <= k < |undo| :: ValidSnapshot(undo[k])) && ValidSnapshot(cur) ==>
              forall k | 0 <= k < |kept| :: ValidSnapshot(kept[k])
  {
    if |undo| >= MaxUndoStates then
      var kept := undo[1..] + [cur];
      assert kept[..|kept| - 1] == undo[1..];
      kept
    else
      var kept := undo + [cur];
      assert kept[..|kept| - 1] == undo;
      kept
  }

  /** _save_state: push (text, cursor) unless it is already on top; beyond 50 entries the
      oldest is dropped; the redo stack is cleared only when something was pushed. */
  function SaveState(e: Editor): (r: Editor)
    ensures |r.undo| > 0 && r.undo[|r.undo| - 1] == (e.text, e.cursor)
    ensures r.text == e.text && r.cursor == e.cursor && r.selStart == e.selStart && r.selEnd == e.selEnd
    ensures r.focused == e.focused && r.selecting == e.selecting
    ensures |e.undo| > 0 && e.undo[|e.undo| - 1] == (e.text, e.cursor) ==> r == e
    ensures r != e ==> r.redo == [] && IsSuffix(r.undo[..|r.undo| - 1], e.undo)
    ensures r != e && |e.undo| < MaxUndoStates ==> r.undo == e.undo + [(e.text, e.cursor)]
    ensures r != e && |e.undo| >= MaxUndoStates ==> r.undo == e.undo[1..] + [(e.text, e.cursor)]
    ensures Inv(e) ==> Inv(r)
  {
    var cur := (e.text, e.cursor);
    if |e.undo| == 0 || e.undo[|e.undo| - 1] != cur then
      PushedState(e);
      e.(undo := PushBounded(e.undo, cur), redo := [])
    else e
  }

  /** Pushing a state that is not on top changes the editor, and keeps the invariant. */
  lemma PushedState(e: Editor)
    requires |e.undo| == 0 || e.undo[|e.undo| - 1] != (e.text, e.cursor)
    ensures var r := e.(undo := PushBounded(e.undo, (e.text, e.cursor)), redo := []);
            r != e && (Inv(e) ==> Inv(r))
  {
    var kept := PushBounded(e.undo, (e.text, e.cursor));
    assert kept != e.undo;
  }

  /** _undo: with a single entry nothing happens; otherwise the current state goes to the
      redo stack, the top entry is dropped and the entry below it is restored. */
  function Undo(e: Editor): (r: (Editor, bool))
    ensures r.1 <==> |e.undo| > 1
    ensures !r.1 ==> r.0 == e
    ensures r.1 ==>
      && r.0.undo == e.undo[..|e.undo| - 1]
      && r.0.redo == e.redo + [(e.text, e.cursor)]
      && (r.0.text, r.0.cursor) == e.undo[|e.undo| - 2]
      && r.0.selStart.None? && r.0.selEnd.None?
    ensures Inv(e) ==> Inv(r.0)
  {
    if |e.undo| > 1 then
      var u := e.undo[..|e.undo| - 1];
      var s := u[|u| - 1];
      (e.(text := s.0, cursor := s.1, selStart := None, selEnd := None, undo := u, redo := e.redo + [(e.text, e.cursor)]), true)
    else (e, false)
  }

  /** _redo: with an empty redo stack nothing happens; otherwise the current state goes on
      the undo stack and the top redo entry is restored. */
  function Redo(e: Editor): (r: (Editor, bool))
    ensures r.1 <==> |e.redo| > 0
    ensures !r.1 ==> r.0 == e
    ensures r.1 ==>
      && r.0.undo == e.undo + [(e.text, e.cursor)]
      && r.0.redo == e.redo[..|e.redo| - 1]
      && (r.0.text, r.0.cursor) == e.redo[|e.redo| - 1]
      && r.0.selStart.None? && r.0.selEnd.None?
    ensures Inv(e) ==> Inv(r.0)
  {
    if |e.redo| > 0 then
      var s := e.redo[|e.redo| - 1];
      (e.(text := s.0, cursor := s.1, selStart := None, selEnd := None,
          undo := e.undo + [(e.text, e.cursor)], redo := e.redo[..|e.redo| - 1]), true)
    else (e, false)
  }

  // ---------------------------------------------------------------- wrapped lines

  /** The offset of line `m`'s first character: each line before it contributes its
      length and one separator, except that no separator follows the last line. */
  function LinePrefix(lines: seq<string>, m: nat): nat
    requires m <= |lines|
  {
    if m == 0 then 0 else LinePrefix(lines, m - 1) + |lines[m - 1]| + (if m < |lines| then 1 else 0)
  }

  /** _line_col_to_cursor_pos: the position of column `col` of line `line`, clamped to
      the line and to the text. */
  function LineColToPos(lines: seq<string>, text: string, line: nat, col: nat): (r: nat)
    ensures r <= |text|
    ensures lines == [] ==> r == 0
  {
    if lines == [] then 0
    else
      var m := if line < |lines| then line else |lines|;
      var pos := LinePrefix(lines, m) + (if line < |lines| then Min(col, |lines[line]|) else 0);
      if pos < |text| then pos else |text|
  }

  /** _update_cursor_position: the first line whose end is at or past `pos`, and the column
      within it; past every line, the end of the last line. */
  function CursorLineCol(lines: seq<string>, pos: nat): (r: (nat, nat))
    ensures lines == [] ==> r == (0, 0)
    ensures lines != [] ==> r.0 < |lines| && r.1 <= |lines[r.0]|
  {
    if lines == [] then (0, 0) else CursorFrom(lines, 0, 0, pos)
  }

  function CursorFrom(lines: seq<string>, idx: nat, count: nat, pos: nat): (r: (nat, nat))
    requires lines != [] && idx <= |lines| && count <= pos
    ensures r.0 < |lines| && r.1 <= |lines[r.0]|
    decreases |lines| - idx
  {
    if idx == |lines| then (|lines| - 1, |lines[|lines| - 1]|)
    else if count + |lines[idx]| >= pos then (idx, pos - count)
    else CursorFrom(lines, idx + 1, count + |lines[idx]| + (if idx < |lines| - 1 then 1 else 0), pos)
  }

  /** _pos_to_cursor once the font has turned the mouse into a raw line and a column:
      the line is clamped to the layout, and with no lines at all the cursor goes to the
      end of the text. */
  function PosToCursor(lines: seq<string>, text: string, line: int, col: nat): (r: nat)
    ensures r <= |text|
    ensures lines == [] ==> r == |text|
    ensures lines != [] ==> r == LineColToPos(lines, text, Max(0, Min(line, |lines| - 1)), col)
  {
    var li := Max(0, Min(line, |lines| - 1));
    if li >= |lines| then |text| else LineColToPos(lines, text, li, col)
  }

  // ---------------------------------------------------------------- events

  datatype Key = Left | Right | Up | Down | Home | End | Backspace | Delete | Letter(c: char) | OtherKey

  /** A mouse event's `line` is the wrapped line under the mouse, the scroll offset
      already added; `col` is the column the font places the mouse in. */
  datatype Event =
    | MouseDown(inside: bool, line: int, col: nat)
    | MouseUp
    | MouseMotion(leftHeld: bool, line: int, col: nat)
    | Wheel(inside: bool)
    | KeyDown(key: Key, shift: bool, ctrl: bool, unicode: string)
    | OtherEvent

  /** The new editor, whether the event was handled, and what was copied to the clipboard. */
  datatype Outcome = Outcome(editor: Editor, handled: bool, copied: Option<string>)

  /** What a mouse event does: a click inside focuses the field and starts a collapsed
      selection at the clicked position; a click outside drops focus and selecting and is not
      handled; releasing the button ends selecting, clears a collapsed selection and is
      handled exactly when a selection was in progress; a drag with the left button held
      moves the cursor and the selection end together to the dragged position; the wheel is handled exactly when
      focused and over the field. None of them changes the text. */
  predicate MouseEffect(e: Editor, ev: Event, lines: seq<string>, r: Outcome) {
    && (ev.MouseDown? && ev.inside ==>
          && r.handled && r.editor.focused && r.editor.selecting && r.editor.text == e.text
          && r.editor.cursor == PosToCursor(lines, e.text, ev.line, ev.col)
          && r.editor.selStart == r.editor.selEnd == Some(r.editor.cursor))
    && (ev.MouseDown? && !ev.inside ==>
          !r.handled && !r.editor.focused && !r.editor.selecting && r.editor == e.(focused := false, selecting := false))
    && (ev.MouseUp? ==>
          && (r.handled <==> e.selecting) && !r.editor.selecting && r.editor.text == e.text
          && (e.selecting && e.selStart == e.selEnd ==> !HasSelection(r.editor)))
    && (ev.MouseMotion? ==>
          && (r.handled <==> e.selecting && ev.leftHeld) && r.editor.text == e.text
          && (r.handled ==>
                && r.editor.cursor == PosToCursor(lines, e.text, ev.line, ev.col)
                && r.editor.selEnd == Some(r.editor.cursor)))
    && (ev.Wheel? ==> r.editor == e && (r.handled <==> e.focused && ev.inside))
  }

  /** handle_event. `lines` are the current wrapped lines of the text and `clipboard` the
      clipboard's content. */
  function HandleEvent(e: Editor, ev: Event, lines: seq<string>, clipboard: string): (r: Outcome)
    ensures Inv(e) ==> Inv(r.editor)
    ensures r.copied.Some? ==> ev.KeyDown? && e.focused
    ensures MouseEffect(e, ev, lines, r)
    ensures ev.KeyDown? && !e.focused ==> r == Outcome(e, false, None)
    ensures ev.KeyDown? && e.focused ==> r == HandleKey(e, ev.key, ev.shift, ev.ctrl, ev.unicode, lines, clipboard)
    ensures ev.OtherEvent? ==> r == Outcome(e, false, None)
  {
    match ev
    case MouseDown(inside, line, col) =>
      if inside then
        var p := PosToCursor(lines, e.text, line, col);
        Outcome(e.(focused := true, cursor := p, selStart := Some(p), selEnd := Some(p), selecting := true), true, None)
      else Outcome(e.(focused := false, selecting := false), false, None)
    case MouseUp =>
      if e.selecting then
        var e1 := e.(selecting := false);
        Outcome(if e.selStart == e.selEnd then e1.(selStart := None, selEnd := None) else e1, true, None)
      else Outcome(e, false, None)
    case MouseMotion(held, line, col) =>
      if e.selecting && held then
        var p := PosToCursor(lines, e.text, line, col);
        Outcome(e.(selEnd := Some(p), cursor := p), true, None)
      else Outcome(e, false, None)
    case Wheel(inside) => Outcome(e, e.focused && inside, None)
    case KeyDown(key, shift, ctrl, u) =>
      if !e.focused then Outcome(e, false, None) else HandleKey(e, key, shift, ctrl, u, lines, clipboard)
    case OtherEvent => Outcome(e, false, None)
  }

  /** The printable-key test: a non-empty, printable `event.unicode`. */
  predicate Typed(u: string) { u != "" && AllPrintable(u) }

  /** A key press while focused. */
  function HandleKey(e: Editor, key: Key, shift: bool, ctrl: bool, u: string, lines: seq<string>, clipboard: string): (r: Outcome)
    ensures Inv(e) ==> Inv(r.editor)
    ensures r.copied.Some? ==> ctrl && key.Letter? && key.c in "cx"
  {
    if key == Left then
      Outcome(Move(e, if e.cursor > 0 then e.cursor - 1 else e.cursor, shift), true, None)
    else if key == Right then
      Outcome(Move(e, if e.cursor < |e.text| then e.cursor + 1 else e.cursor, shift), true, None)
    else if ctrl && key.Letter? && key.c in "zycvxa" then
      CtrlKey(e, key.c, clipboard)
    else if key == Backspace then
      Outcome(BackspaceKey(e), true, None)
    else if key == Delete then
      Outcome(DeleteKey(e), true, None)
    else if key == Up || key == Down then
      Outcome(VerticalKey(e, key == Up, lines), true, None)
    else if key == Home then
      Outcome(Move(e, 0, shift), true, None)
    else if key == End then
      Outcome(Move(e, |e.text|, shift), true, None)
    else if Typed(u) then
      Outcome(TypeText(e, u), true, None)
    else Outcome(e, false, None)
  }

  /** Ctrl+Z, Y, C, V, X and A: Z and Y are undo and redo, C copies the selection and
      changes nothing, V and X are the editing shortcuts, and A selects the whole text
      with the cursor at its end. */
  function CtrlKey(e: Editor, c: char, clipboard: string): (r: Outcome)
    ensures Inv(e) ==> Inv(r.editor)
    ensures c == 'z' ==> (r.editor, r.handled) == Undo(e) && r.copied.None?
    ensures c == 'y' ==> (r.editor, r.handled) == Redo(e) && r.copied.None?
    ensures c == 'c' ==> r.editor == e && r.copied == Selected(e)
    ensures c == 'v' || c == 'x' ==> r == CtrlEdit(e, c == 'x', clipboard)
    ensures c == 'a' ==> Selected(r.editor) == Some(e.text) && r.editor.cursor == |e.text|
  {
    if c == 'z' then var (r, ok) := Undo(e); Outcome(r, ok, None)
    else if c == 'y' then var (r, ok) := Redo(e); Outcome(r, ok, None)
    else if c == 'c' then Outcome(e, true, Selected(e))
    else if c == 'v' || c == 'x' then CtrlEdit(e, c == 'x', clipboard)
    else
      CtrlSelectAll(e);
      Outcome(e.(selStart := Some(0), selEnd := Some(|e.text|), cursor := |e.text|), true, None)
  }

  /** Ctrl+V (`cut` false) and Ctrl+X (`cut` true): the state is saved first; then the
      text and cursor are those of pasting the clipboard, or of deleting the selection,
      which is copied and gone. */
  function CtrlEdit(e: Editor, cut: bool, clipboard: string): (r: Outcome)
    ensures Inv(e) ==> Inv(r.editor)
    ensures r.handled && |r.editor.undo| > 0 && r.editor.undo[|r.editor.undo| - 1] == (e.text, e.cursor)
    ensures !cut ==>
              && r.copied.None?
              && r.editor.text == Paste(e, clipboard).text && r.editor.cursor == Paste(e, clipboard).cursor
    ensures cut ==>
              && r.copied == Selected(e) && !HasSelection(r.editor)
              && r.editor.text == DeleteSelection(e).text && r.editor.cursor == DeleteSelection(e).cursor
  {
    if !cut then
      CtrlPaste(e, clipboard);
      Outcome(Paste(SaveState(e), clipboard), true, None)
    else
      CtrlCut(e);
      Outcome(DeleteSelection(SaveState(e)), true, Selected(SaveState(e)))
  }

  predicate NonEmptySelection(e: Editor) { HasSelection(e) && e.selStart != e.selEnd }

  /** Backspace: a non-empty selection is deleted; otherwise the character before the
      cursor goes, and nothing happens at the start. */
  function BackspaceKey(e: Editor): (r: Editor)
    ensures Inv(e) ==> Inv(r)
    ensures Inv(e) && !NonEmptySelection(e) && e.cursor > 0 ==>
              r.text == e.text[..e.cursor - 1] + e.text[e.cursor..] && r.cursor == e.cursor - 1
    ensures !NonEmptySelection(e) && e.cursor == 0 ==> r == e
    ensures NonEmptySelection(e) ==>
              r.text == DeleteSelection(e).text && r.cursor == DeleteSelection(e).cursor && !HasSelection(r)
    ensures NonEmptySelection(e) || e.cursor > 0 ==> |r.undo| > 0 && r.undo[|r.undo| - 1] == (e.text, e.cursor)
  {
    if NonEmptySelection(e) then DeleteSelection(SaveState(e))
    else if e.cursor > 0 then
      var s := SaveState(e);
      s.(text := Take(s.text, s.cursor - 1) + Drop(s.text, s.cursor), cursor := s.cursor - 1)
    else e
  }

  /** Delete: a non-empty selection is deleted; otherwise the character at the cursor
      goes, and nothing happens at the end. */
  function DeleteKey(e: Editor): (r: Editor)
    ensures Inv(e) ==> Inv(r)
    ensures Inv(e) && !NonEmptySelection(e) && e.cursor < |e.text| ==>
              r.text == e.text[..e.cursor] + e.text[e.cursor + 1..] && r.cursor == e.cursor
    ensures !NonEmptySelection(e) && e.cursor >= |e.text| ==> r == e
    ensures NonEmptySelection(e) ==>
              r.text == DeleteSelection(e).text && r.cursor == DeleteSelection(e).cursor && !HasSelection(r)
    ensures NonEmptySelection(e) || e.cursor < |e.text| ==> |r.undo| > 0 && r.undo[|r.undo| - 1] == (e.text, e.cursor)
  {
    if NonEmptySelection(e) then DeleteSelection(SaveState(e))
    else if e.cursor < |e.text| then
      var s := SaveState(e);
      s.(text := Take(s.text, s.cursor) + Drop(s.text, s.cursor + 1))
    else e
  }

  /** Up/Down: the same column (clamped) on the previous or next wrapped line. */
  function VerticalKey(e: Editor, up: bool, lines: seq<string>): (r: Editor)
    ensures r == e.(cursor := r.cursor)
    ensures Inv(e) ==> r.cursor <= |e.text|
    ensures up && CursorLineCol(lines, e.cursor).0 == 0 ==> r == e
    ensures !up && CursorLineCol(lines, e.cursor).0 + 1 >= |lines| ==> r == e
    ensures var (line, col) := CursorLineCol(lines, e.cursor);
            up && line > 0 && LinePrefix(lines, |lines|) <= |e.text| ==>
              CursorLineCol(lines, r.cursor) == (line - 1, Min(col, |lines[line - 1]|))
    ensures var (line, col) := CursorLineCol(lines, e.cursor);
            !up && line + 1 < |lines| && LinePrefix(lines, |lines|) <= |e.text| ==>
              CursorLineCol(lines, r.cursor) == (line + 1, Min(col, |lines[line + 1]|))
  {
    var (line, col) := CursorLineCol(lines, e.cursor);
    if up && line > 0 then
      var c := Min(col, |lines[line - 1]|);
      LandsOnLine(lines, e.text, line - 1, c);
      e.(cursor := LineColToPos(lines, e.text, line - 1, c))
    else if !up && line + 1 < |lines| then
      var c := Min(col, |lines[line + 1]|);
      LandsOnLine(lines, e.text, line + 1, c);
      e.(cursor := LineColToPos(lines, e.text, line + 1, c))
    else e
  }

  /** A printable key: save, drop any selection (even an empty one), insert, advance by one. */
  function TypeText(e: Editor, u: string): (r: Editor)
    requires Typed(u)
    ensures Inv(e) ==> Inv(r)
    ensures Inv(e) && !HasSelection(e) ==>
              r.text == e.text[..e.cursor] + u + e.text[e.cursor..] && r.cursor == e.cursor + 1
    ensures HasSelection(e) ==> r.selStart.None? && r.selEnd.None?
    ensures Inv(e) ==>
              var d := DeleteSelection(e);
              r.text == d.text[..d.cursor] + u + d.text[d.cursor..] && r.cursor == d.cursor + 1
    ensures |r.undo| > 0 && r.undo[|r.undo| - 1] == (e.text, e.cursor)
    ensures !HasSelection(r) && r.focused == e.focused
  {
    var s := SaveState(e);
    var d := DeleteSelection(s);
    SavedDelete(e);
    InsertKeepsInv(d, u, 1);
    Insert(d, u, 1)
  }

  /** The same key with the deletion as written. */
  function TypeTextAsWritten(e: Editor, u: string): Editor {
    var s := SaveState(e);
    Insert(DeleteSelectionAsWritten(s), u, 1)
  }

  /** _paste: a non-empty clipboard replaces any selection and lands at the cursor. */
  function Paste(e: Editor, clipboard: string): (r: Editor)
    ensures Inv(e) ==> Inv(r)
    ensures Inv(e) && !HasSelection(e) ==>
              r.text == e.text[..e.cursor] + clipboard + e.text[e.cursor..] && r.cursor == e.cursor + |clipboard|
    ensures Inv(e) && clipboard != "" ==>
              var d := DeleteSelection(e);
              && r.text == d.text[..d.cursor] + clipboard + d.text[d.cursor..] && r.cursor == d.cursor + |clipboard|
              && !HasSelection(r)
    ensures clipboard == "" ==> r == e
  {
    if clipboard != "" then
      var d := DeleteSelection(e);
      InsertKeepsInv(d, clipboard, |clipboard|);
      Insert(d, clipboard, |clipboard|)
    else e
  }

  // ---------------------------------------------------------------- lemmas

  /** Which handler each key reaches while the field is focused, and whether the key
      counts as handled. */
  lemma KeyDispatch(e: Editor, key: Key, shift: bool, ctrl: bool, u: string, lines: seq<string>, clipboard: string)
    ensures var r := HandleKey(e, key, shift, ctrl, u, lines, clipboard);
      && (key == Left ==> r == Outcome(Move(e, if e.cursor > 0 then e.cursor - 1 else e.cursor, shift), true, None))
      && (key == Right ==> r == Outcome(Move(e, if e.cursor < |e.text| then e.cursor + 1 else e.cursor, shift), true, None))
      && (ctrl && key.Letter? && key.c in "zycvxa" ==> r == CtrlKey(e, key.c, clipboard))
      && (key == Backspace ==> r == Outcome(BackspaceKey(e), true, None))
      && (key == Delete ==> r == Outcome(DeleteKey(e), true, None))
      && (key == Up || key == Down ==> r == Outcome(VerticalKey(e, key == Up, lines), true, None))
      && (key == Home ==> r == Outcome(Move(e, 0, shift), true, None))
      && (key == End ==> r == Outcome(Move(e, |e.text|, shift), true, None))
      && ((key.Letter? || key == OtherKey) && !(ctrl && key.Letter? && key.c in "zycvxa") ==>
            r == if Typed(u) then Outcome(TypeText(e, u), true, None) else Outcome(e, false, None))
  {
  }

  /** Saving the state touches only the histories, so deletion after it edits alike. */
  lemma SavedDelete(e: Editor)
    ensures DeleteSelection(SaveState(e)) == DeleteSelection(e).(undo := SaveState(e).undo, redo := SaveState(e).redo)
  {
  }

  lemma SavedPaste(e: Editor, clipboard: string)
    ensures Paste(SaveState(e), clipboard) == Paste(e, clipboard).(undo := SaveState(e).undo, redo := SaveState(e).redo)
  {
    if clipboard != "" {
      var s := SaveState(e);
      SavedDelete(e);
      var d := DeleteSelection(e);
      assert Paste(s, clipboard) == Insert(DeleteSelection(s), clipboard, |clipboard|);
      assert Paste(e, clipboard) == Insert(d, clipboard, |clipboard|);
    }
  }

  /** Ctrl+A: the whole text selected, with the cursor at its end. */
  lemma CtrlSelectAll(e: Editor)
    ensures var r := e.(selStart := Some(0), selEnd := Some(|e.text|), cursor := |e.text|);
            Selected(r) == Some(e.text) && (Inv(e) ==> Inv(r))
  {
    assert e.text[0..|e.text|] == e.text;
  }

  /** Ctrl+V: the text and cursor of pasting, over the saved state. */
  lemma CtrlPaste(e: Editor, clipboard: string)
    ensures var r := Paste(SaveState(e), clipboard);
            && r.text == Paste(e, clipboard).text && r.cursor == Paste(e, clipboard).cursor
            && |r.undo| > 0 && r.undo[|r.undo| - 1] == (e.text, e.cursor)
            && (Inv(e) ==> Inv(r))
  {
    SavedPaste(e, clipboard);
  }

  /** Ctrl+X: the selection copied, and the text and cursor of deleting it, over the saved
      state. */
  lemma CtrlCut(e: Editor)
    ensures var s := SaveState(e);
            var r := DeleteSelection(s);
            && Selected(s) == Selected(e) && !HasSelection(r)
            && r.text == DeleteSelection(e).text && r.cursor == DeleteSelection(e).cursor
            && |r.undo| > 0 && r.undo[|r.undo| - 1] == (e.text, e.cursor)
            && (Inv(e) ==> Inv(r))
  {
    SavedDelete(e);
  }

  lemma InsertKeepsInv(e: Editor, s: string, step: nat)
    requires step <= |s|
    ensures Inv(e) ==> Inv(Insert(e, s, step))
    ensures e.cursor <= |e.text| ==> Insert(e, s, step).text == e.text[..e.cursor] + s + e.text[e.cursor..]
  {
  }

  /** Every event keeps the editor's invariant. */
  lemma HandleEventKeepsInv(e: Editor, ev: Event, lines: seq<string>, clipboard: string)
    requires Inv(e)
    ensures Inv(HandleEvent(e, ev, lines, clipboard).editor)
  {
  }

  /** Typing a character and pressing Backspace gives back the text and cursor. */
  lemma TypeThenBackspace(e: Editor, c: char)
    requires Inv(e) && e.focused && !HasSelection(e) && IsPrintable(c)
    ensures var e1 := HandleEvent(e, KeyDown(OtherKey, false, false, [c]), [], "").editor;
            var e2 := HandleEvent(e1, KeyDown(Backspace, false, false, ""), [], "").editor;
            e2.text == e.text && e2.cursor == e.cursor
  {
    TypeEvent(e, c);
    BackspaceEvent(TypeText(e, [c]));
    TypeThenBackspaceKeys(e, c);
  }

  lemma TypeThenBackspaceKeys(e: Editor, c: char)
    requires Inv(e) && !HasSelection(e) && IsPrintable(c)
    ensures var e2 := BackspaceKey(TypeText(e, [c]));
            e2.text == e.text && e2.cursor == e.cursor
  {
    InsertThenRemove(e.text, e.cursor, c);
  }

  /** A printable character typed into a focused field goes through TypeText. */
  lemma TypeEvent(e: Editor, c: char)
    requires e.focused && IsPrintable(c)
    ensures HandleEvent(e, KeyDown(OtherKey, false, false, [c]), [], "").editor == TypeText(e, [c])
  {
    assert Typed([c]) by { assert [c][0] == c; }
    assert HandleEvent(e, KeyDown(OtherKey, false, false, [c]), [], "") == HandleKey(e, OtherKey, false, false, [c], [], "");
    PrintableKeyTypes(e, [c], [], "");
  }

  /** Backspace in a focused field goes through BackspaceKey. */
  lemma BackspaceEvent(e: Editor)
    requires e.focused
    ensures HandleEvent(e, KeyDown(Backspace, false, false, ""), [], "").editor == BackspaceKey(e)
  {
    assert HandleEvent(e, KeyDown(Backspace, false, false, ""), [], "") == HandleKey(e, Backspace, false, false, "", [], "");
  }

  /** Delete removes what Right followed by Backspace removes, and leaves the cursor
      where it was. */
  lemma DeleteIsRightThenBackspace(e: Editor)
    requires Inv(e) && !NonEmptySelection(e) && e.cursor < |e.text|
    ensures var d := DeleteKey(e);
            var b := BackspaceKey(Move(e, e.cursor + 1, false));
            d.text == b.text && d.cursor == b.cursor == e.cursor
  {
    var m := Move(e, e.cursor + 1, false);
    assert !NonEmptySelection(m);
  }

  /** Deleting a non-empty selection with Backspace and pasting the deleted text back
      restores the text, with the cursor after the pasted text. */
  lemma BackspaceThenPasteBack(e: Editor)
    requires Inv(e) && NonEmptySelection(e)
    ensures var b := BackspaceKey(e);
            var p := CtrlKey(b, 'v', Selected(e).value).editor;
            p.text == e.text && p.cursor == Min(Lo(e), |e.text|) + |Selected(e).value|
  {
    var d := DeleteSelection(e);
    var b := BackspaceKey(e);
    assert Inv(b);
    assert !HasSelection(b) && b.text == d.text && b.cursor == d.cursor;
  }

  /** Cutting a selection and pasting what was cut restores the text. */
  lemma CutThenPaste(e: Editor, clipboard: string)
    requires Inv(e) && HasSelection(e)
    ensures var x := CtrlKey(e, 'x', clipboard);
            var p := CtrlKey(x.editor, 'v', x.copied.value).editor;
            p.text == e.text && p.cursor == Min(Lo(e), |e.text|) + |Selected(e).value|
  {
    var d := DeleteSelection(e);
    var x := CtrlKey(e, 'x', clipboard);
    assert Inv(x.editor);
    assert x.editor.text == d.text && x.editor.cursor == d.cursor && !HasSelection(x.editor);
    if Selected(e).value == "" {
      assert d.text[..d.cursor] + d.text[d.cursor..] == d.text;
    }
  }

  /** Typing one character over a selection and pressing Backspace leaves what deleting
      the selection leaves. */
  lemma TypeOverSelectionThenBackspace(e: Editor, c: char)
    requires Inv(e) && HasSelection(e) && IsPrintable(c)
    ensures var t := TypeText(e, [c]);
            var b := BackspaceKey(t);
            b.text == DeleteSelection(e).text && b.cursor == DeleteSelection(e).cursor
  {
    assert Typed([c]) by { assert [c][0] == c; }
    var d := DeleteSelection(e);
    InsertThenRemove(d.text, d.cursor, c);
  }

  /** Removing the character just inserted at `k` gives back the text. */
  lemma InsertThenRemove(s: string, k: nat, c: char)
    requires k <= |s|
    ensures var u := s[..k] + [c] + s[k..];
            u[..k] == s[..k] && u[k + 1..] == s[k..] && u[..k] + u[k + 1..] == s
  {
    var u := s[..k] + [c] + s[k..];
    assert u[..k] == s[..k];
    assert u[k + 1..] == s[k..];
  }

  /** On a laid-out text, Up and then Down come back to the same line, and to the same
      position when the line above is long enough for the column. */
  lemma UpThenDown(e: Editor, lines: seq<string>)
    requires Inv(e) && lines != [] && Join(lines, " ") == e.text
    requires CursorLineCol(lines, e.cursor).0 > 0
    ensures var (line, col) := CursorLineCol(lines, e.cursor);
            var d := VerticalKey(VerticalKey(e, true, lines), false, lines);
            && CursorLineCol(lines, d.cursor).0 == line
            && (col <= |lines[line - 1]| ==> d.cursor == e.cursor)
  {
    var (line, col) := CursorLineCol(lines, e.cursor);
    LaidOutLength(lines, |lines|);
    assert lines[..|lines|] == lines;
    var u := VerticalKey(e, true, lines);
    assert CursorLineCol(lines, u.cursor) == (line - 1, Min(col, |lines[line - 1]|));
    var d := VerticalKey(u, false, lines);
    assert CursorLineCol(lines, d.cursor) == (line, Min(col, |lines[line - 1]|));
    if col <= |lines[line - 1]| {
      WrappedCursorRoundTrip(lines, e.text, e.cursor);
      WrappedCursorRoundTrip(lines, e.text, d.cursor);
    }
  }

  /** A Shift move from an unselected editor selects exactly the text crossed. */
  lemma ShiftMoveSelects(e: Editor, target: nat)
    requires Inv(e) && e.selStart.None? && target <= |e.text|
    ensures Selected(Move(e, target, true)) == Some(e.text[Min(e.cursor, target)..Max(e.cursor, target)])
  {
  }

  /** Undo followed by redo restores the text, the cursor and the redo stack. */
  lemma UndoThenRedo(e: Editor)
    requires |e.undo| > 1
    ensures var (u, _) := Undo(e);
            var (r, ok) := Redo(u);
            ok && r.text == e.text && r.cursor == e.cursor && r.redo == e.redo
  {
  }

  /** A fresh editor cannot undo: the single initial entry is kept. */
  lemma NewCannotUndo(initial: string)
    ensures !Undo(New(initial)).1 && Undo(New(initial)).0 == New(initial)
  {
  }

  /** The stack's top is the state saved before the latest edit, so undo restores the
      state before the one before it: typing two characters at the end of a fresh field
      and undoing once removes both. */
  lemma UndoSkipsLatestSave(t: string, a: char, b: char)
    requires IsPrintable(a) && IsPrintable(b)
    ensures var e0 := New(t).(focused := true);
            var e1 := HandleEvent(e0, KeyDown(OtherKey, false, false, [a]), [], "").editor;
            var e2 := HandleEvent(e1, KeyDown(OtherKey, false, false, [b]), [], "").editor;
            var e3 := HandleEvent(e2, KeyDown(Letter('z'), false, true, ""), [], "").editor;
            e2.text == t + [a, b] && e3.text == t
  {
    var e0 := New(t).(focused := true);
    var e1 := HandleEvent(e0, KeyDown(OtherKey, false, false, [a]), [], "").editor;
    var e2 := HandleEvent(e1, KeyDown(OtherKey, false, false, [b]), [], "").editor;
    TypeTwo(t, a, b);
    var f2 := TypeText(New(t).(focused := true, text := t + [a], cursor := |t| + 1), [b]);
    assert e2 == f2;
    TypeAgainAtEnd(t, a, b);
    UndoEvent(f2);
    assert Undo(f2).0.text == f2.undo[0].0 == t;
  }

  /** Two printable keys typed into a fresh focused field. */
  lemma TypeTwo(t: string, a: char, b: char)
    requires IsPrintable(a) && IsPrintable(b)
    ensures var e0 := New(t).(focused := true);
            var e1 := HandleEvent(e0, KeyDown(OtherKey, false, false, [a]), [], "").editor;
            HandleEvent(e1, KeyDown(OtherKey, false, false, [b]), [], "").editor
              == TypeText(New(t).(focused := true, text := t + [a], cursor := |t| + 1), [b])
  {
    var e0 := New(t).(focused := true);
    TypeEvent(e0, a);
    TypeAtFreshEnd(t, a);
    var e1 := e0.(text := t + [a], cursor := |t| + 1);
    TypeEvent(e1, b);
  }

  /** Typing into a fresh field at its end saves nothing new: the initial entry is on top. */
  lemma TypeAtFreshEnd(t: string, a: char)
    requires IsPrintable(a)
    ensures TypeText(New(t).(focused := true), [a]) == New(t).(focused := true, text := t + [a], cursor := |t| + 1)
  {
  }

  /** The second character pushes the state after the first. */
  lemma TypeAgainAtEnd(t: string, a: char, b: char)
    requires IsPrintable(b)
    ensures var e2 := TypeText(New(t).(focused := true, text := t + [a], cursor := |t| + 1), [b]);
            e2.undo == [(t, |t|), (t + [a], |t| + 1)] && e2.text == t + [a, b]
  {
    var e1 := New(t).(focused := true, text := t + [a], cursor := |t| + 1);
    var s := SaveState(e1);
    assert s == e1.(undo := [(t, |t|), (t + [a], |t| + 1)], redo := []);
    assert DeleteSelection(s) == s;
    InsertAtEnd(s, [b], 1);
    assert t + [a] + [b] == t + [a, b];
  }

  /** Ctrl+Z in a focused field goes through Undo. */
  lemma UndoEvent(e: Editor)
    requires e.focused
    ensures HandleEvent(e, KeyDown(Letter('z'), false, true, ""), [], "").editor == Undo(e).0
  {
    assert 'z' in "zycvxa";
    assert HandleEvent(e, KeyDown(Letter('z'), false, true, ""), [], "") == HandleKey(e, Letter('z'), false, true, "", [], "");
    assert HandleKey(e, Letter('z'), false, true, "", [], "") == CtrlKey(e, 'z', "");
  }

  /** Shift+Right at the end records the collapsed selection (n, n) for a text of length
      n; Backspace shortens the text without clearing it; typing then deletes that stale
      selection and, as written, leaves the cursor past the end of the text. The corrected
      deletion keeps it at the end. */
  lemma StaleSelectionOverrunsText(t: string)
    requires t != ""
    ensures var e0 := New(t).(focused := true);
            var e1 := HandleEvent(e0, KeyDown(Right, true, false, ""), [], "").editor;
            var e2 := HandleEvent(e1, KeyDown(Backspace, false, false, ""), [], "").editor;
            var bad := TypeTextAsWritten(e2, "x");
            var good := HandleEvent(e2, KeyDown(OtherKey, false, false, "x"), [], "").editor;
            && e2.text == t[..|t| - 1] && e2.selStart == Some(|t|) && e2.selEnd == Some(|t|)
            && bad.text == t[..|t| - 1] + "x" && bad.cursor == |t| + 1 > |bad.text|
            && good.text == t[..|t| - 1] + "x" && good.cursor == |t| == |good.text|
  {
    var n := |t|;
    var e0 := New(t).(focused := true);
    var e1 := e0.(selStart := Some(n), selEnd := Some(n));
    ShiftRightAtEnd(t);
    BackspaceKeepsStaleSelection(t);
    var e2 := e1.(text := t[..n - 1], cursor := n - 1);
    StaleTypeAsWritten(t, e2);
    StaleTypeCorrected(t, e2);
  }

  /** The editor after Shift+Right at the end and Backspace. */
  predicate AfterStaleBackspace(t: string, e: Editor) {
    t != "" && e == New(t).(focused := true, selStart := Some(|t|), selEnd := Some(|t|), text := t[..|t| - 1], cursor := |t| - 1)
  }

  lemma StaleTypeAsWritten(t: string, e2: Editor)
    requires AfterStaleBackspace(t, e2)
    ensures var bad := TypeTextAsWritten(e2, "x");
            bad.text == t[..|t| - 1] + "x" && bad.cursor == |t| + 1
  {
    var n := |t|;
    var s := SaveState(e2);
    assert s.text == t[..n - 1] && s.cursor == n - 1 && s.selStart == Some(n) && s.selEnd == Some(n);
    var bad := DeleteSelectionAsWritten(s);
    assert bad.text == t[..n - 1] && bad.cursor == n;
  }

  lemma StaleTypeCorrected(t: string, e2: Editor)
    requires AfterStaleBackspace(t, e2)
    ensures var good := HandleEvent(e2, KeyDown(OtherKey, false, false, "x"), [], "").editor;
            good.text == t[..|t| - 1] + "x" && good.cursor == |t|
  {
    TypeEvent(e2, 'x');
    StaleTypeKeys(t, e2);
  }

  lemma StaleTypeKeys(t: string, e2: Editor)
    requires AfterStaleBackspace(t, e2)
    ensures TypeText(e2, "x").text == t[..|t| - 1] + "x" && TypeText(e2, "x").cursor == |t|
  {
    var n := |t|;
    var s := SaveState(e2);
    assert s.text == t[..n - 1] && s.cursor == n - 1 && s.selStart == Some(n) && s.selEnd == Some(n);
    var d := DeleteSelection(s);
    assert d.text == t[..n - 1] && d.cursor == n - 1;
    InsertAtEnd(d, "x", 1);
  }

  /** Inserting at the end of the text appends. */
  lemma InsertAtEnd(e: Editor, u: string, step: nat)
    requires e.cursor == |e.text|
    ensures Insert(e, u, step) == e.(text := e.text + u, cursor := e.cursor + step)
  {
    assert Take(e.text, e.cursor) == e.text && Drop(e.text, e.cursor) == [];
  }

  lemma PrintableKeyTypes(e: Editor, u: string, lines: seq<string>, clipboard: string)
    requires Typed(u)
    ensures HandleKey(e, OtherKey, false, false, u, lines, clipboard) == Outcome(TypeText(e, u), true, None)
  {
  }

  lemma ShiftRightAtEnd(t: string)
    ensures var e0 := New(t).(focused := true);
            HandleEvent(e0, KeyDown(Right, true, false, ""), [], "").editor
              == e0.(selStart := Some(|t|), selEnd := Some(|t|))
  {
    var e0 := New(t).(focused := true);
    assert HandleEvent(e0, KeyDown(Right, true, false, ""), [], "") == HandleKey(e0, Right, true, false, "", [], "");
  }

  lemma BackspaceKeepsStaleSelection(t: string)
    requires t != ""
    ensures var e1 := New(t).(focused := true, selStart := Some(|t|), selEnd := Some(|t|));
            HandleEvent(e1, KeyDown(Backspace, false, false, ""), [], "").editor
              == e1.(text := t[..|t| - 1], cursor := |t| - 1)
  {
    var e1 := New(t).(focused := true, selStart := Some(|t|), selEnd := Some(|t|));
    assert HandleEvent(e1, KeyDown(Backspace, false, false, ""), [], "") == HandleKey(e1, Backspace, false, false, "", [], "");
    assert SaveState(e1) == e1;
  }

  // ---------------------------------------------------------------- layout lemmas

  lemma {:induction false} CursorFromSound(lines: seq<string>, idx: nat, count: nat, pos: nat)
    requires lines != [] && idx <= |lines| && count <= pos
    requires count == LinePrefix(lines, idx) && pos <= LinePrefix(lines, |lines|)
    ensures var r := CursorFrom(lines, idx, count, pos);
            LinePrefix(lines, r.0) + r.1 == pos
    decreases |lines| - idx
  {
    if idx == |lines| {
    } else if count + |lines[idx]| >= pos {
    } else {
      CursorFromSound(lines, idx + 1, count + |lines[idx]| + (if idx < |lines| - 1 then 1 else 0), pos);
    }
  }

  /** A position within the laid-out text maps to a line and column and back. */
  lemma CursorRoundTrip(lines: seq<string>, text: string, pos: nat)
    requires lines != [] && pos <= |text| && pos <= LinePrefix(lines, |lines|)
    ensures var (line, col) := CursorLineCol(lines, pos);
            LineColToPos(lines, text, line, col) == pos
  {
    CursorFromSound(lines, 0, 0, pos);
  }

  lemma {:induction false} LinePrefixMono(lines: seq<string>, i: nat, j: nat)
    requires i <= j <= |lines|
    ensures LinePrefix(lines, i) + (if i < j then |lines[i]| + (if i + 1 < |lines| then 1 else 0) else 0) <= LinePrefix(lines, j)
    decreases j - i
  {
    if i < j {
      if i + 1 < j {
        LinePrefixMono(lines, i + 1, j);
      }
    }
  }

  lemma {:induction false} CursorFromFinds(lines: seq<string>, idx: nat, count: nat, line: nat, col: nat)
    requires idx <= line < |lines| && col <= |lines[line]|
    requires count == LinePrefix(lines, idx)
    ensures count <= LinePrefix(lines, line) + col
    ensures CursorFrom(lines, idx, count, LinePrefix(lines, line) + col) == (line, col)
    decreases line - idx
  {
    LinePrefixMono(lines, idx, line);
    if idx < line {
      CursorFromFinds(lines, idx + 1, count + |lines[idx]| + (if idx < |lines| - 1 then 1 else 0), line, col);
    }
  }

  /** A line and a column within it map to a position and back, provided the text is
      at least as long as the layout. */
  lemma LineColRoundTrip(lines: seq<string>, text: string, line: nat, col: nat)
    requires line < |lines| && col <= |lines[line]| && LinePrefix(lines, |lines|) <= |text|
    ensures CursorLineCol(lines, LineColToPos(lines, text, line, col)) == (line, col)
  {
    LinePrefixMono(lines, line, |lines|);
    CursorFromFinds(lines, 0, 0, line, col);
  }

  /** Where the text covers the layout, a line and column within it are where the
      position they name lies. */
  lemma LandsOnLine(lines: seq<string>, text: string, line: nat, col: nat)
    requires line < |lines| && col <= |lines[line]|
    ensures LinePrefix(lines, |lines|) <= |text| ==> CursorLineCol(lines, LineColToPos(lines, text, line, col)) == (line, col)
  {
    if LinePrefix(lines, |lines|) <= |text| {
      LineColRoundTrip(lines, text, line, col);
    }
  }

  /** The laid-out length is the length of the lines joined by one separator each. */
  lemma {:induction false} LaidOutLength(lines: seq<string>, m: nat)
    requires 0 < m <= |lines|
    ensures LinePrefix(lines, m) == |Join(lines[..m], " ")| + (if m < |lines| then 1 else 0)
  {
    if m > 1 {
      LaidOutLength(lines, m - 1);
      assert lines[..m] == lines[..m - 1] + [lines[m - 1]];
      JoinAppend(lines[..m - 1], lines[m - 1], " ");
    } else {
      assert lines[..1] == [lines[0]];
    }
  }

  /** For lines that wrap `text` at single separators, every cursor position survives the
      round trip through a line and column. */
  lemma WrappedCursorRoundTrip(lines: seq<string>, text: string, pos: nat)
    requires lines != [] && Join(lines, " ") == text && pos <= |text|
    ensures var (line, col) := CursorLineCol(lines, pos);
            LineColToPos(lines, text, line, col) == pos
  {
    LaidOutLength(lines, |lines|);
    assert lines[..|lines|] == lines;
    CursorRoundTrip(lines, text, pos);
  }

  /** A click on the line and column where a position is shown puts the cursor back on
      that position, for lines laid out from the text. */
  lemma ClickRoundTrip(lines: seq<string>, text: string, pos: nat)
    requires lines != [] && Join(lines, " ") == text && pos <= |text|
    ensures var (line, col) := CursorLineCol(lines, pos);
            PosToCursor(lines, text, line, col) == pos
  {
    WrappedCursorRoundTrip(lines, text, pos);
  }
}

=== FILE: game_state.dfy ===
/** The session's rule book: the password rules collected so far (in collection order,
    without duplicates), the ids of the notes that yielded them, and the fixed
    phrase-keyed password checks that decide whether a door opens. */
module GameRules {
  import opened Text
  import opened Seqs

  datatype GameState = GameState(
    collectedRules: seq<string>,
    collectedNotes: set<string>,
    currentLevel: Option<string>)

  /** A fresh session: nothing collected, no level. */
  const Initial := GameState([], {}, None)

  /** Placeholder shown for a rule of the level that has not been collected yet. */
  const Unknown := "????"

  /** The characters a rule of kind EndsWithSpecial accepts as the last character. */
  const SpecialChars := "!@#$%"

  /** Python's truthiness of an optional `str` argument: None and "" are both false. */
  predicate Truthy(s: Option<string>) {
    s.Some? && s.value != ""
  }

  /** add_rule: append the rule only when it is new, and only then remember the note id. */
  function AddRule(g: GameState, rule: string, noteId: Option<string>): (r: GameState)
    ensures rule in r.collectedRules
    ensures IsPrefix(g.collectedRules, r.collectedRules)
    ensures NoDuplicates(g.collectedRules) ==> NoDuplicates(r.collectedRules)
    ensures rule in g.collectedRules ==> r == g
    ensures rule !in g.collectedRules ==> |r.collectedRules| == |g.collectedRules| + 1
    ensures g.collectedNotes <= r.collectedNotes
    ensures r.collectedNotes - g.collectedNotes <= (if noteId.Some? then {noteId.value} else {})
    ensures Truthy(noteId) && rule !in g.collectedRules ==> noteId.value in r.collectedNotes
    ensures r.currentLevel == g.currentLevel
  {
    if rule !in g.collectedRules then
      g.(collectedRules := g.collectedRules + [rule],
         collectedNotes := if Truthy(noteId) then g.collectedNotes + {noteId.value} else g.collectedNotes)
    else g
  }

  /** Collect a whole series of rules, one add_rule call per element. */
  function AddRules(g: GameState, rules: seq<string>): GameState
    decreases |rules|
  {
    if rules == [] then g
    else AddRules(AddRule(g, rules[0], None), rules[1..])
  }

  function AddRulesBack(g: GameState, rules: seq<string>): GameState
  {
    if rules == [] then g
    else AddRule(AddRulesBack(g, rules[..|rules| - 1]), rules[|rules| - 1], None)
  }

  lemma {:induction false} AddRulesIsBack(g: GameState, rules: seq<string>)
    ensures AddRules(g, rules) == AddRulesBack(g, rules)
    decreases |rules|
  {
    if rules != [] {
      var g1 := AddRule(g, rules[0], None);
      AddRulesIsBack(g1, rules[1..]);
      // AddRulesBack(g1, rules[1..]) == AddRulesBack(g, rules), peeling off the last element
      AddRulesBackShift(g, rules);
    }
  }

  lemma {:induction false} AddRulesBackShift(g: GameState, rules: seq<string>)
    requires rules != []
    ensures AddRulesBack(AddRule(g, rules[0], None), rules[1..]) == AddRulesBack(g, rules)
    decreases |rules|
  {
    if |rules| == 1 {
      assert rules[1..] == [];
      assert rules[..0] == [];
    } else {
      var front := rules[..|rules| - 1];
      AddRulesBackShift(g, front);
      assert front[1..] == rules[1..][..|rules[1..]| - 1];
      assert front[0] == rules[0];
    }
  }

  /** Starting from a fresh session, collecting any series of rules leaves exactly their
      first occurrences, in collection order: the list never holds a duplicate and a
      repeated rule is silently ignored. */
  lemma {:induction false} CollectedRulesAreFirstOccurrences(rules: seq<string>)
    ensures AddRules(Initial, rules).collectedRules == FirstOccurrences(rules)
    ensures AddRules(Initial, rules).collectedNotes == {}
  {
    AddRulesIsBack(Initial, rules);
    BackIsFirstOccurrences(rules);
  }

  lemma {:induction false} BackIsFirstOccurrences(rules: seq<string>)
    ensures AddRulesBack(Initial, rules).collectedRules == FirstOccurrences(rules)
    ensures AddRulesBack(Initial, rules).collectedNotes == {}
    ensures AddRulesBack(Initial, rules).currentLevel == None
  {
    if rules != [] {
      BackIsFirstOccurrences(rules[..|rules| - 1]);
    }
  }

  /** has_rule: a linear scan of the collected list. */
  function HasRule(g: GameState, rule: string): (b: bool)
    ensures b <==> exists i | 0 <= i < |g.collectedRules| :: g.collectedRules[i] == rule
  {
    rule in g.collectedRules
  }

  /** has_note: membership in the set of collected note ids. */
  function HasNote(g: GameState, noteId: string): (b: bool)
    ensures b ==> g.collectedNotes != {}
  {
    noteId in g.collectedNotes
  }

  /** get_rules: a copy of the collected list, in collection order. */
  function Rules(g: GameState): (r: seq<string>)
    ensures forall rule :: rule in r <==> HasRule(g, rule)
    ensures NoDuplicates(g.collectedRules) ==> NoDuplicates(r)
  {
    g.collectedRules
  }

  /** get_rules_count: the length of that list. */
  function RulesCount(g: GameState): (n: nat)
    ensures n == |Rules(g)|
  {
    |g.collectedRules|
  }

  /** What the queries answer after add_rule: the rule is now known, the count grows by
      one exactly for a new rule, and a note counts as collected afterwards exactly when
      it was before, or the rule was new and the note id was passed and truthy. */
  lemma QueriesAfterAddRule(g: GameState, rule: string, noteId: Option<string>, other: string, note: string)
    ensures var a := AddRule(g, rule, noteId);
            && HasRule(a, rule)
            && (HasRule(a, other) <==> HasRule(g, other) || other == rule)
            && Rules(a) == (if HasRule(g, rule) then Rules(g) else Rules(g) + [rule])
            && RulesCount(a) == RulesCount(g) + (if HasRule(g, rule) then 0 else 1)
            && (HasNote(a, note) <==>
                  HasNote(g, note) || (!HasRule(g, rule) && Truthy(noteId) && note == noteId.value))
  {
  }

  /** Which of the fixed checks a rule text selects: the first phrase found, case-insensitively. */
  datatype RuleKind = MinLength8 | NeedsDigit | NeedsUpper | EndsWithSpecial | Unchecked

  function Classify(rule: string): RuleKind
  {
    var lower := Lower(rule);
    if Contains(lower, "at least 8 characters") then MinLength8
    else if Contains(lower, "contain at least one number") then NeedsDigit
    else if Contains(lower, "contain at least one uppercase") then NeedsUpper
    else if Contains(lower, "end with a special character") then EndsWithSpecial
    else Unchecked
  }

  /** _validate_single_rule */
  function CheckRule(password: string, rule: string): (ok: bool)
    ensures Classify(rule) == MinLength8 ==> (ok <==> |password| >= 8)
    ensures Classify(rule) == NeedsDigit ==> (ok <==> exists i | 0 <= i < |password| :: IsDigit(password[i]))
    ensures Classify(rule) == NeedsUpper ==> (ok <==> exists i | 0 <= i < |password| :: IsUpper(password[i]))
    ensures Classify(rule) == EndsWithSpecial ==> (ok <==> password != [] && password[|password| - 1] in SpecialChars)
    ensures Classify(rule) == Unchecked ==> ok
  {
    match Classify(rule)
    case MinLength8 => |password| >= 8
    case NeedsDigit => AnyDigit(password)
    case NeedsUpper => AnyUpper(password)
    case EndsWithSpecial => |password| > 0 && password[|password| - 1] in SpecialChars
    case Unchecked => true
  }

  /** `any(c.isdigit() for c in s)`, scanning left to right. */
  function AnyDigit(s: string): (b: bool)
    ensures b <==> exists i | 0 <= i < |s| :: IsDigit(s[i])
  {
    if s == [] then false
    else IsDigit(s[0]) || (assert forall i | 1 <= i < |s| :: s[1..][i - 1] == s[i]; AnyDigit(s[1..]))
  }

  /** `any(c.isupper() for c in s)`, scanning left to right. */
  function AnyUpper(s: string): (b: bool)
    ensures b <==> exists i | 0 <= i < |s| :: IsUpper(s[i])
  {
    if s == [] then false
    else IsUpper(s[0]) || (assert forall i | 1 <= i < |s| :: s[1..][i - 1] == s[i]; AnyUpper(s[1..]))
  }

  /** The results dictionary built by the loop of validate_password: one entry per rule,
      later entries overwriting earlier ones. */
  function ValidateRules(password: string, rules: seq<string>): (m: map<string, bool>)
    ensures m.Keys == set r | r in rules
    ensures forall r | r in m :: m[r] == CheckRule(password, r)
  {
    if rules == [] then map[]
    else
      var m := ValidateRules(password, rules[..|rules| - 1]);
      assert rules == rules[..|rules| - 1] + [rules[|rules| - 1]];
      m[rules[|rules| - 1] := CheckRule(password, rules[|rules| - 1])]
  }

  /** validate_password: keyed by exactly the collected rules. */
  function ValidatePassword(g: GameState, password: string): (m: map<string, bool>)
    ensures m.Keys == set r | r in g.collectedRules
    ensures forall r | r in m :: m[r] == CheckRule(password, r)
  {
    ValidateRules(password, g.collectedRules)
  }

  /** validate_password_against_all_rules: the placeholder is never satisfied. */
  function ValidateAgainstAll(password: string, allRules: seq<string>): (m: map<string, bool>)
    ensures m.Keys == set r | r in allRules
    ensures Unknown in m ==> !m[Unknown]
    ensures forall r | r in m && r != Unknown :: m[r] == CheckRule(password, r)
  {
    if allRules == [] then map[]
    else
      var m := ValidateAgainstAll(password, allRules[..|allRules| - 1]);
      var rule := allRules[|allRules| - 1];
      assert allRules == allRules[..|allRules| - 1] + [rule];
      m[rule := if rule == Unknown then false else CheckRule(password, rule)]
  }

  /** is_password_valid: false with nothing collected, else every collected rule holds. */
  function IsPasswordValid(g: GameState, password: string): (ok: bool)
    ensures ok <==> g.collectedRules != [] && forall r | r in g.collectedRules :: CheckRule(password, r)
  {
    if g.collectedRules == [] then false
    else
      var results := ValidatePassword(g, password);
      forall r | r in results :: results[r]
  }

  /** reset_level_state keeps everything. */
  function ResetLevelState(g: GameState): GameState { g }

  /** reset_game_state */
  function ResetGameState(g: GameState): (r: GameState)
    ensures r == Initial
  {
    g.(collectedRules := [], collectedNotes := {}, currentLevel := None)
  }

  /** clear_rules_for_testing forgets rules and notes but keeps the level. */
  function ClearRulesForTesting(g: GameState): (r: GameState)
    ensures r.collectedRules == [] && r.collectedNotes == {}
    ensures r.currentLevel == g.currentLevel
    ensures r == Initial.(currentLevel := g.currentLevel)
  {
    g.(collectedRules := [], collectedNotes := {})
  }

  /** One password meets every fixed check, so with at least one rule collected it
      always satisfies the whole rule book. */
  lemma StrongPasswordMeetsEveryRule(g: GameState)
    requires g.collectedRules != []
    ensures IsPasswordValid(g, "Passw0rd!")
  {
    var p := "Passw0rd!";
    assert IsDigit(p[5]) && IsUpper(p[0]);
    assert p[|p| - 1] == '!' && '!' in SpecialChars;
  }

  /** The empty password fails every rule except those no fixed check covers. */
  lemma EmptyPasswordFailsCheckedRules(rule: string)
    ensures CheckRule("", rule) <==> Classify(rule) == Unchecked
  {
  }

  /** Adding a rule no fixed check covers never changes the verdict once something is collected. */
  lemma UncheckedRuleIsNeutral(g: GameState, rule: string, password: string)
    requires g.collectedRules != []
    requires Classify(rule) == Unchecked
    ensures IsPasswordValid(AddRule(g, rule, None), password) == IsPasswordValid(g, password)
  {
  }
}

=== FILE: interactables.dfy ===
/** The objects a player can use in a level: notes that hand out a password rule once,
    doors that ask for a password, and the manager that builds them from the level's
    "interactables" layer and finds them by tile. The session's rule book is passed in
    and returned explicitly. */
module Interactables {
  import opened Text
  import opened Seqs
  import opened GameRules
  import opened LevelLoader

  const InteractablesLayer := "interactables"
  const DefaultRequiredRules := 4
  const DefaultNearDistance := 20

  datatype Interactable =
    | Note(x: int, y: int, tileId: string, rule: string, collected: bool)
    | Door(x: int, y: int, tileId: string, requiredRules: int, isOpen: bool, metadata: Metadata)

  /** The dictionaries `interact` returns, by their "type" entry. */
  datatype InteractResult =
    | NothingHere
    | NoteCollected(rule: string, message: string)
    | NoteAlreadyCollected(message: string)
    | DoorAlreadyOpen(message: string)
    | PasswordPrompt(message: string, rules: seq<string>, collectedRules: seq<string>, missingCount: int)

  /** The dictionary try_password returns. */
  datatype PasswordOutcome = PasswordOutcome(success: bool, message: string, results: map<string, bool>)

  const AlreadyCollectedMessage := "You already collected this note."
  const DoorOpenMessage := "The door is already open. You can pass through."
  const DoorOpenedMessage := "Correct! The door opens."
  const DoorFailedMessage := "Password doesn't meet all the requirements."


  /** is_near_player: the player lies in the square of half-side `distance` centred on the
      object (empty for a negative distance). */
  function IsNearPlayer(obj: Interactable, px: int, py: int, distance: int): (b: bool)
    ensures b <==> obj.x - distance <= px <= obj.x + distance && obj.y - distance <= py <= obj.y + distance
  {
    Abs(obj.x - px) <= distance && Abs(obj.y - py) <= distance
  }

  // ---------------------------------------------------------------- notes

  /** The key under which a collected note is remembered: "note_<x>_<y>". */
  function NoteId(x: int, y: int): string {
    "note_" + IntToString(x) + "_" + IntToString(y)
  }

  /** Note.interact: the first use of an uncollected note whose id the session does not
      know hands over the rule; every other use reports the note as already collected
      and changes nothing. */
  function NoteInteract(note: Interactable, g: GameState): (r: (Interactable, GameState, InteractResult))
    requires note.Note?
    ensures r.2.NoteCollected? <==> !note.collected && !HasNote(g, NoteId(note.x, note.y))
    ensures r.2.NoteCollected? ==>
              r.0 == note.(collected := true) &&
              r.1 == AddRule(g, note.rule, Some(NoteId(note.x, note.y))) &&
              r.2.rule == note.rule && r.2.message == "You found a rule: " + note.rule
    ensures !r.2.NoteCollected? ==> r.0 == note && r.1 == g && r.2 == NoteAlreadyCollected(AlreadyCollectedMessage)
    ensures HasRule(r.1, note.rule) || r.1 == g
  {
    if !note.collected && !HasNote(g, NoteId(note.x, note.y)) then
      var id := NoteId(note.x, note.y);
      (note.(collected := true), AddRule(g, note.rule, Some(id)),
       NoteCollected(note.rule, "You found a rule: " + note.rule))
    else (note, g, NoteAlreadyCollected(AlreadyCollectedMessage))
  }

  /** A note hands out its rule at most once: using it again reports it as collected
      and leaves the note and the session as they were. */
  lemma NoteCollectsOnce(note: Interactable, g: GameState)
    requires note.Note?
    ensures var (n1, g1, _) := NoteInteract(note, g);
            var (n2, g2, res2) := NoteInteract(n1, g1);
            res2 == NoteAlreadyCollected(AlreadyCollectedMessage) && n2 == n1 && g2 == g1
  {
  }

  // ---------------------------------------------------------------- doors

  /** The rule list a closed door shows: one entry per rule of the level, the i-th
      collected rule where there is one and the placeholder otherwise. */
  function DisplayRules(levelRules: seq<string>, collected: seq<string>): (r: seq<string>)
    ensures |r| == |levelRules|
    ensures forall i | 0 <= i < |r| :: r[i] == if i < |collected| then collected[i] else Unknown
  {
    DisplayFrom(levelRules, collected, 0)
  }

  /** The loop over `enumerate(all_rules)` from position `i` on. */
  function DisplayFrom(levelRules: seq<string>, collected: seq<string>, i: nat): (r: seq<string>)
    requires i <= |levelRules|
    ensures |r| == |levelRules| - i
    ensures forall k | 0 <= k < |r| :: r[k] == if i + k < |collected| then collected[i + k] else Unknown
    decreases |levelRules| - i
  {
    if i == |levelRules| then []
    else [if i < |collected| then collected[i] else Unknown] + DisplayFrom(levelRules, collected, i + 1)
  }

  function PromptMessage(count: int, required: int): string {
    "Password required. You have " + IntToString(count) + "/" + IntToString(required) + " rules."
  }

  /** Door.interact: an open door only says so; a closed one always asks for the
      password, whatever the number of rules collected. */
  function DoorInteract(door: Interactable, g: GameState): (r: InteractResult)
    requires door.Door?
    ensures door.isOpen <==> r.DoorAlreadyOpen?
    ensures door.isOpen ==> r == DoorAlreadyOpen(DoorOpenMessage)
    ensures !door.isOpen ==>
              r.PasswordPrompt? &&
              r.rules == DisplayRules(door.metadata.rules.GetOr([]), g.collectedRules) &&
              r.collectedRules == g.collectedRules &&
              r.missingCount == door.requiredRules - |g.collectedRules| &&
              r.message == PromptMessage(|g.collectedRules|, door.requiredRules)
  {
    if door.isOpen then DoorAlreadyOpen(DoorOpenMessage)
    else
      var count := RulesCount(g);
      var collected := Rules(g);
      var levelRules := door.metadata.rules.GetOr([]);
      PasswordPrompt(PromptMessage(count, door.requiredRules), DisplayRules(levelRules, collected),
                     collected, door.requiredRules - count)
  }

  /** Door.try_password: opens exactly when the whole rule book accepts the password;
      the door's own required count plays no part, and an open door never closes. */
  function TryPassword(door: Interactable, g: GameState, password: string): (r: (Interactable, PasswordOutcome))
    requires door.Door?
    ensures r.1.success <==> IsPasswordValid(g, password)
    ensures r.0 == door.(isOpen := door.isOpen || r.1.success)
    ensures r.1.results == ValidatePassword(g, password)
    ensures r.1.message == if r.1.success then DoorOpenedMessage else DoorFailedMessage
  {
    var results := ValidatePassword(g, password);
    if IsPasswordValid(g, password) then
      (door.(isOpen := true), PasswordOutcome(true, DoorOpenedMessage, results))
    else (door, PasswordOutcome(false, DoorFailedMessage, results))
  }

  /** The door's required rule count does not influence the verdict. */
  lemma RequiredRulesIgnored(door: Interactable, g: GameState, password: string, required: int)
    requires door.Door?
    ensures TryPassword(door.(requiredRules := required), g, password).1 == TryPassword(door, g, password).1
  {
  }

  /** A series of password attempts against the same rule book. */
  function Attempts(door: Interactable, g: GameState, passwords: seq<string>): Interactable
    requires door.Door?
    ensures Attempts(door, g, passwords).Door?
    decreases |passwords|
  {
    if passwords == [] then door
    else Attempts(TryPassword(door, g, passwords[0]).0, g, passwords[1..])
  }

  /** Some password of the series is accepted by the rule book. */
  predicate SomeAccepted(g: GameState, passwords: seq<string>) {
    exists k | 0 <= k < |passwords| :: IsPasswordValid(g, passwords[k])
  }

  lemma SomeAcceptedStep(g: GameState, passwords: seq<string>)
    requires passwords != []
    ensures SomeAccepted(g, passwords) <==> IsPasswordValid(g, passwords[0]) || SomeAccepted(g, passwords[1..])
  {
    if SomeAccepted(g, passwords[1..]) {
      var k :| 0 <= k < |passwords[1..]| && IsPasswordValid(g, passwords[1..][k]);
      assert passwords[1..][k] == passwords[k + 1];
    }
    if SomeAccepted(g, passwords) && !IsPasswordValid(g, passwords[0]) {
      var k :| 0 <= k < |passwords| && IsPasswordValid(g, passwords[k]);
      assert passwords[1..][k - 1] == passwords[k];
    }
  }

  /** After any series of attempts the door is open exactly when it was open already or
      some attempt was accepted: it opens monotonically and never closes. */
  lemma {:induction false} AttemptsOpen(door: Interactable, g: GameState, passwords: seq<string>)
    requires door.Door?
    ensures Attempts(door, g, passwords).isOpen <==> door.isOpen || SomeAccepted(g, passwords)
    decreases |passwords|
  {
    if passwords != [] {
      var next := TryPassword(door, g, passwords[0]).0;
      AttemptsOpen(next, g, passwords[1..]);
      SomeAcceptedStep(g, passwords);
    }
  }

  // ---------------------------------------------------------------- manager

  datatype Manager = Manager(objects: seq<Interactable>, metadata: Metadata)

  const EmptyManager := Manager([], Metadata(None))

  /** _create_interactable: missing fields default to 0, "" and 4; a tile of any type
      other than "note" or "door" yields nothing. */
  function Create(tile: TileData, metadata: Metadata): (r: Option<Interactable>)
    ensures r.Some? <==> tile.kind == Some("note") || tile.kind == Some("door")
    ensures r.Some? ==> r.value.x == tile.x.GetOr(0) && r.value.y == tile.y.GetOr(0) && r.value.tileId == tile.id.GetOr("")
    ensures r.Some? && r.value.Note? ==> tile.kind == Some("note") && r.value.rule == tile.rule.GetOr("") && !r.value.collected
    ensures r.Some? && r.value.Door? ==>
              tile.kind == Some("door") && r.value.requiredRules == tile.requiresRules.GetOr(DefaultRequiredRules) &&
              !r.value.isOpen && r.value.metadata == metadata
  {
    var x := tile.x.GetOr(0);
    var y := tile.y.GetOr(0);
    var id := tile.id.GetOr("");
    var kind := tile.kind.GetOr("");
    if kind == "note" then Some(Note(x, y, id, tile.rule.GetOr(""), false))
    else if kind == "door" then Some(Door(x, y, id, tile.requiresRules.GetOr(DefaultRequiredRules), false, metadata))
    else None
  }

  /** The values present in a sequence of options, in order. */
  function Somes<T>(s: seq<Option<T>>): seq<T> {
    if s == [] then [] else (if s[0].Some? then [s[0].value] else []) + Somes(s[1..])
  }

  lemma {:induction false} SomesAppend<T>(a: seq<Option<T>>, b: seq<Option<T>>)
    ensures Somes(a + b) == Somes(a) + Somes(b)
  {
    if a == [] {
      assert a + b == b;
    } else {
      assert (a + b)[0] == a[0];
      assert (a + b)[1..] == a[1..] + b;
      SomesAppend(a[1..], b);
    }
  }

  /** `_create_interactable` applied to each tile, position by position. */
  function Created(tiles: seq<TileData>, metadata: Metadata): (r: seq<Option<Interactable>>)
    ensures |r| == |tiles| && forall i | 0 <= i < |tiles| :: r[i] == Create(tiles[i], metadata)
  {
    seq(|tiles|, i requires 0 <= i < |tiles| => Create(tiles[i], metadata))
  }

  lemma CreatedAppend(a: seq<TileData>, b: seq<TileData>, metadata: Metadata)
    ensures Created(a + b, metadata) == Created(a, metadata) + Created(b, metadata)
  {
  }

  /** The objects built from one layer's tiles: one per tile that makes an object, in
      tile order. */
  function CreateAll(tiles: seq<TileData>, metadata: Metadata): (r: seq<Interactable>)
    ensures r == Somes(Created(tiles, metadata))
    ensures |r| <= |tiles|
    ensures forall o | o in r :: exists t | t in tiles :: Create(t, metadata) == Some(o)
    ensures forall t | t in tiles && Create(t, metadata).Some? :: Create(t, metadata).value in r
  {
    if tiles == [] then []
    else
      var rest := CreateAll(tiles[1..], metadata);
      assert Created(tiles, metadata)[1..] == Created(tiles[1..], metadata);
      assert forall t | t in tiles[1..] :: t in tiles;
      assert forall t | t in tiles :: t == tiles[0] || t in tiles[1..];
      match Create(tiles[0], metadata)
      case Some(o) => [o] + rest
      case None => rest
  }

  predicate IsInteractablesLayer(layer: LayerData) {
    layer.name == Some(InteractablesLayer)
  }

  /** The tiles of one layer record if it is called "interactables", else none. */
  function LayerTiles(layer: LayerData): seq<TileData> {
    if IsInteractablesLayer(layer) then layer.tiles.GetOr([]) else []
  }

  /** The tiles of the layers called "interactables", layer by layer, each layer's in
      its own order. */
  function InteractableTiles(layers: seq<LayerData>): seq<TileData> {
    Flatten(seq(|layers|, i requires 0 <= i < |layers| => LayerTiles(layers[i])))
  }

  lemma InteractableTilesStep(layers: seq<LayerData>)
    requires layers != []
    ensures InteractableTiles(layers) == LayerTiles(layers[0]) + InteractableTiles(layers[1..])
  {
    var all := seq(|layers|, i requires 0 <= i < |layers| => LayerTiles(layers[i]));
    assert all[1..] == seq(|layers[1..]|, i requires 0 <= i < |layers[1..]| => LayerTiles(layers[1..][i]));
  }

  /** The nested loops of load_from_level_data over the layers and their tiles. */
  function LoadLayers(layers: seq<LayerData>, metadata: Metadata): (r: seq<Interactable>)
    ensures r == Somes(Created(InteractableTiles(layers), metadata))
    ensures forall o | o in r :: exists l | l in layers && IsInteractablesLayer(l) ::
              exists t | t in l.tiles.GetOr([]) :: Create(t, metadata) == Some(o)
    ensures forall l, t | l in layers && IsInteractablesLayer(l) && t in l.tiles.GetOr([]) && Create(t, metadata).Some? ::
              Create(t, metadata).value in r
  {
    if layers == [] then []
    else
      var first := if IsInteractablesLayer(layers[0]) then CreateAll(layers[0].tiles.GetOr([]), metadata) else [];
      var rest := LoadLayers(layers[1..], metadata);
      assert forall l | l in layers[1..] :: l in layers;
      assert forall l | l in layers :: l == layers[0] || l in layers[1..];
      InteractableTilesStep(layers);
      CreatedAppend(LayerTiles(layers[0]), InteractableTiles(layers[1..]), metadata);
      SomesAppend(Created(LayerTiles(layers[0]), metadata), Created(InteractableTiles(layers[1..]), metadata));
      first + rest
  }

  /** load_from_level_data: the previous objects are dropped; the new ones are the notes
      and doors built from the tiles of the layers called "interactables", layer by layer
      and in tile order, one per tile that makes an object, each door carrying the
      level's metadata. */
  function Load(m: Manager, data: LevelData): (r: Manager)
    ensures r.metadata == data.metadata.GetOr(Metadata(None))
    ensures r.objects == Somes(Created(InteractableTiles(data.layers.GetOr([])), r.metadata))
    ensures forall o | o in r.objects :: exists l | l in data.layers.GetOr([]) && IsInteractablesLayer(l) ::
              exists t | t in l.tiles.GetOr([]) :: Create(t, r.metadata) == Some(o)
    ensures forall l, t | l in data.layers.GetOr([]) && IsInteractablesLayer(l) && t in l.tiles.GetOr([]) &&
                          Create(t, r.metadata).Some? :: Create(t, r.metadata).value in r.objects
  {
    var metadata := data.metadata.GetOr(Metadata(None));
    Manager(LoadLayers(data.layers.GetOr([]), metadata), metadata)
  }

  /** get_interactable_at: the position in the list of the first object on the tile. */
  function GetAt(m: Manager, x: int, y: int): (r: Option<nat>)
    ensures r.None? <==> forall i | 0 <= i < |m.objects| :: !(m.objects[i].x == x && m.objects[i].y == y)
    ensures r.Some? ==>
              && r.value < |m.objects| && m.objects[r.value].x == x && m.objects[r.value].y == y
              && forall j | 0 <= j < r.value :: !(m.objects[j].x == x && m.objects[j].y == y)
  {
    FindFrom(m.objects, x, y, 0)
  }

  function FindFrom(objects: seq<Interactable>, x: int, y: int, i: nat): (r: Option<nat>)
    requires i <= |objects|
    requires forall j | 0 <= j < i :: !(objects[j].x == x && objects[j].y == y)
    ensures r.None? <==> forall j | 0 <= j < |objects| :: !(objects[j].x == x && objects[j].y == y)
    ensures r.Some? ==>
              && i <= r.value < |objects| && objects[r.value].x == x && objects[r.value].y == y
              && forall j | 0 <= j < r.value :: !(objects[j].x == x && objects[j].y == y)
    decreases |objects| - i
  {
    if i == |objects| then None
    else if objects[i].x == x && objects[i].y == y then Some(i)
    else FindFrom(objects, x, y, i + 1)
  }

  /** interact_at: use the first object on the tile; an empty tile answers "none". A
      note's new state is stored back in the list. */
  function InteractAt(m: Manager, g: GameState, x: int, y: int): (r: (Manager, GameState, InteractResult))
    ensures GetAt(m, x, y).None? ==> r == (m, g, NothingHere)
    ensures GetAt(m, x, y).Some? ==> r.2 != NothingHere
    ensures |r.0.objects| == |m.objects| && r.0.metadata == m.metadata
    ensures forall i | 0 <= i < |m.objects| && Some(i) != GetAt(m, x, y) :: r.0.objects[i] == m.objects[i]
    ensures r.0 == m || r.2.NoteCollected?
    ensures GetAt(m, x, y).Some? && m.objects[GetAt(m, x, y).value].Note? ==>
              var i := GetAt(m, x, y).value;
              (r.0.objects[i], r.1, r.2) == NoteInteract(m.objects[i], g)
    ensures GetAt(m, x, y).Some? && m.objects[GetAt(m, x, y).value].Door? ==>
              r.0 == m && r.1 == g && r.2 == DoorInteract(m.objects[GetAt(m, x, y).value], g)
  {
    match GetAt(m, x, y)
    case None => (m, g, NothingHere)
    case Some(i) =>
      match m.objects[i]
      case Note(_, _, _, _, _) =>
        var (note, g', res) := NoteInteract(m.objects[i], g);
        (m.(objects := m.objects[i := note]), g', res)
      case Door(_, _, _, _, _, _) =>
        (m, g, DoorInteract(m.objects[i], g))
  }

  /** Using a note's tile a second time finds the same note, now collected: the answer
      is "already collected" and neither the objects nor the rule book change. */
  lemma InteractTwiceAtNote(m: Manager, g: GameState, x: int, y: int)
    requires GetAt(m, x, y).Some? && m.objects[GetAt(m, x, y).value].Note?
    ensures var (m1, g1, _) := InteractAt(m, g, x, y);
            InteractAt(m1, g1, x, y) == (m1, g1, NoteAlreadyCollected(AlreadyCollectedMessage))
  {
    var i := GetAt(m, x, y).value;
    var (m1, g1, _) := InteractAt(m, g, x, y);
    assert m1.objects[i].Note? && m1.objects[i].x == x && m1.objects[i].y == y;
    assert forall j | 0 <= j < i :: m1.objects[j] == m.objects[j];
    assert GetAt(m1, x, y) == Some(i);
    NoteCollectsOnce(m.objects[i], g);
  }

  /** A password typed at the prompt of the door at list position `i`. */
  function TryPasswordAt(m: Manager, i: nat, g: GameState, password: string): (r: (Manager, PasswordOutcome))
    requires i < |m.objects| && m.objects[i].Door?
    ensures r.1 == TryPassword(m.objects[i], g, password).1
    ensures r.0.objects == m.objects[i := TryPassword(m.objects[i], g, password).0]
    ensures r.0.metadata == m.metadata
  {
    var (door, outcome) := TryPassword(m.objects[i], g, password);
    (m.(objects := m.objects[i := door]), outcome)
  }
}

=== FILE: level_loader.dfy ===
/** The level description as read from a level file, and the `Level` built from it:
    named tile layers (a later layer of the same name replaces an earlier one in the
    lookup table, while the layer order keeps every occurrence), collision queries,
    tile/pixel conversion, the validation report and the collision map. */
module LevelLoader {
  import opened Text
  import opened Seqs

  /** One tile record of a layer; every field is optional in the file. */
  datatype TileData = TileData(
    x: Option<int>,
    y: Option<int>,
    id: Option<string>,
    kind: Option<string>,
    rule: Option<string>,
    requiresRules: Option<int>)

  datatype LayerData = LayerData(name: Option<string>, tiles: Option<seq<TileData>>, collider: Option<bool>)

  /** The part of a level's "metadata" object the game reads: the list of the level's rules. */
  datatype Metadata = Metadata(rules: Option<seq<string>>)

  datatype LevelData = LevelData(
    tileSize: Option<int>,
    mapWidth: Option<int>,
    mapHeight: Option<int>,
    layers: Option<seq<LayerData>>,
    metadata: Option<Metadata>)

  const DefaultTileSize := 16

  datatype TileLayer = TileLayer(name: string, tiles: seq<TileData>, collider: bool)

  datatype Level = Level(
    tileSize: int,
    mapWidth: int,
    mapHeight: int,
    layers: map<string, TileLayer>,
    layerOrder: seq<string>)

  /** The tile record sits at tile coordinates (x, y). */
  predicate At(t: TileData, x: int, y: int) {
    t.x == Some(x) && t.y == Some(y)
  }

  predicate HasCoordinates(t: TileData) {
    t.x.Some? && t.y.Some?
  }

  /** What the constructor guarantees: names recorded in order are exactly the table's
      keys, each layer is filed under its own name, and every tile has coordinates. */
  ghost predicate Valid(level: Level) {
    && (forall n :: n in level.layerOrder <==> n in level.layers)
    && (forall n | n in level.layers :: level.layers[n].name == n)
    && (forall n | n in level.layers :: forall t | t in level.layers[n].tiles :: HasCoordinates(t))
  }

  // ---------------------------------------------------------------- TileLayer

  /** The lookup table `_build_tile_dict` fills: a later tile at the same position
      replaces an earlier one. */
  function TileDict(tiles: seq<TileData>): (d: map<(int, int), TileData>)
    requires forall t | t in tiles :: HasCoordinates(t)
    ensures forall x: int, y: int :: (x, y) in d <==> exists i | 0 <= i < |tiles| :: At(tiles[i], x, y)
    ensures forall x: int, y: int | (x, y) in d :: exists i | 0 <= i < |tiles| ::
              tiles[i] == d[(x, y)] && At(tiles[i], x, y) &&
              forall j | i < j < |tiles| :: !At(tiles[j], x, y)
  {
    if tiles == [] then map[]
    else
      var front := tiles[..|tiles| - 1];
      assert forall t | t in front :: t in tiles;
      var d := TileDict(front);
      var t := tiles[|tiles| - 1];
      assert t in tiles && HasCoordinates(t);
      TileDictStep(tiles, d);
      d[(t.x.value, t.y.value) := t]
  }

  /** Entering the last tile into the table of the tiles before it gives the table of all. */
  lemma TileDictStep(tiles: seq<TileData>, d: map<(int, int), TileData>)
    requires tiles != [] && HasCoordinates(tiles[|tiles| - 1])
    requires forall x: int, y: int :: (x, y) in d <==> exists i | 0 <= i < |tiles| - 1 :: At(tiles[i], x, y)
    requires forall x: int, y: int | (x, y) in d :: exists i | 0 <= i < |tiles| - 1 ::
               tiles[i] == d[(x, y)] && At(tiles[i], x, y) &&
               forall j | i < j < |tiles| - 1 :: !At(tiles[j], x, y)
    ensures var t := tiles[|tiles| - 1];
            var e := d[(t.x.value, t.y.value) := t];
            && (forall x: int, y: int :: (x, y) in e <==> exists i | 0 <= i < |tiles| :: At(tiles[i], x, y))
            && (forall x: int, y: int | (x, y) in e :: exists i | 0 <= i < |tiles| ::
                  tiles[i] == e[(x, y)] && At(tiles[i], x, y) &&
                  forall j | i < j < |tiles| :: !At(tiles[j], x, y))
  {
    var last := |tiles| - 1;
    var t := tiles[last];
    var e := d[(t.x.value, t.y.value) := t];
    forall x: int, y: int ensures (x, y) in e <==> exists i | 0 <= i < |tiles| :: At(tiles[i], x, y) {
      if At(t, x, y) {
        assert At(tiles[last], x, y);
      }
    }
    forall x: int, y: int | (x, y) in e ensures exists i | 0 <= i < |tiles| ::
        tiles[i] == e[(x, y)] && At(tiles[i], x, y) && forall j | i < j < |tiles| :: !At(tiles[j], x, y) {
      if At(t, x, y) {
        assert tiles[last] == e[(x, y)] && At(tiles[last], x, y);
      } else {
        var i :| 0 <= i < last && tiles[i] == d[(x, y)] && At(tiles[i], x, y) &&
                 forall j | i < j < last :: !At(tiles[j], x, y);
        assert tiles[i] == e[(x, y)];
      }
    }
  }

  /** TileLayer.has_tile_at */
  function HasTileAt(layer: TileLayer, x: int, y: int): (b: bool)
    requires forall t | t in layer.tiles :: HasCoordinates(t)
    ensures b <==> exists i | 0 <= i < |layer.tiles| :: At(layer.tiles[i], x, y)
  {
    (x, y) in TileDict(layer.tiles)
  }

  /** TileLayer.get_tile_at: the LAST tile record at that position. */
  function GetTileAt(layer: TileLayer, x: int, y: int): (r: Option<TileData>)
    requires forall t | t in layer.tiles :: HasCoordinates(t)
    ensures r.None? <==> !HasTileAt(layer, x, y)
    ensures r.Some? ==> exists i | 0 <= i < |layer.tiles| ::
              layer.tiles[i] == r.value && At(layer.tiles[i], x, y) &&
              forall j | i < j < |layer.tiles| :: !At(layer.tiles[j], x, y)
  {
    var d := TileDict(layer.tiles);
    if (x, y) in d then Some(d[(x, y)]) else None
  }

  // ---------------------------------------------------------------- Level construction

  /** `layer_data['name']`, `layer_data['tiles']` and `tile['x']`, `tile['y']` are read
      with indexing, so a record missing any of them makes the load fail. */
  predicate Loadable(layer: LayerData) {
    layer.name.Some? && layer.tiles.Some? && forall t | t in layer.tiles.value :: HasCoordinates(t)
  }

  function MakeLayer(layer: LayerData): (r: TileLayer)
    requires Loadable(layer)
  {
    TileLayer(layer.name.value, layer.tiles.value, layer.collider.GetOr(false))
  }

  /** The index of the last layer record carrying `name`. */
  predicate IsLastNamed(records: seq<LayerData>, i: int, name: string) {
    0 <= i < |records| && records[i].name == Some(name) &&
    forall j | i < j < |records| :: records[j].name != Some(name)
  }

  /** The loop of Level.__init__ over the layer records: the table is keyed by exactly
      the recorded names, and the order records every record's name. */
  function AddLayers(records: seq<LayerData>): (r: (map<string, TileLayer>, seq<string>))
    requires forall k | 0 <= k < |records| :: Loadable(records[k])
    ensures |r.1| == |records|
    ensures forall k | 0 <= k < |records| :: records[k].name.Some? && r.1[k] == records[k].name.value
    ensures forall n :: n in r.0 <==> n in r.1
  {
    if records == [] then (map[], [])
    else
      var front := records[..|records| - 1];
      assert forall k | 0 <= k < |front| :: front[k] == records[k];
      var rest := AddLayers(front);
      var last := records[|records| - 1];
      assert Loadable(last);
      var layer := MakeLayer(last);
      var order' := rest.1 + [layer.name];
      assert forall n :: n in order' <==> n in rest.1 || n == layer.name;
      (rest.0[layer.name := layer], order')
  }

  /** Each name's entry in the table is the LAST record carrying that name. */
  lemma {:induction false} AddLayersKeepsLast(records: seq<LayerData>, n: string)
    requires forall k | 0 <= k < |records| :: Loadable(records[k])
    requires n in AddLayers(records).0
    ensures exists i :: IsLastNamed(records, i, n) && AddLayers(records).0[n] == MakeLayer(records[i])
  {
    var front := records[..|records| - 1];
    assert forall k | 0 <= k < |front| :: front[k] == records[k];
    var last := records[|records| - 1];
    assert Loadable(last);
    if n == last.name.value {
      assert IsLastNamed(records, |records| - 1, n);
    } else {
      assert n in AddLayers(front).0;
      AddLayersKeepsLast(front, n);
      var i :| IsLastNamed(front, i, n) && AddLayers(front).0[n] == MakeLayer(front[i]);
      assert IsLastNamed(records, i, n);
    }
  }

  /** Level(data): None where the constructor raises (a layer without a name or tiles, a
      tile without coordinates). Missing sizes default to 16, 0 and 0. */
  function BuildLevel(data: LevelData): (r: Option<Level>)
    ensures var records := data.layers.GetOr([]);
            r.Some? <==> forall k | 0 <= k < |records| :: Loadable(records[k])
    ensures r.Some? ==> Valid(r.value)
    ensures r.Some? ==> r.value.tileSize == data.tileSize.GetOr(DefaultTileSize)
    ensures r.Some? ==> r.value.mapWidth == data.mapWidth.GetOr(0) && r.value.mapHeight == data.mapHeight.GetOr(0)
    ensures r.Some? ==> |r.value.layerOrder| == |data.layers.GetOr([])|
  {
    var records := data.layers.GetOr([]);
    if forall k | 0 <= k < |records| :: Loadable(records[k]) then
      var (m, order) := AddLayers(records);
      var level := Level(data.tileSize.GetOr(DefaultTileSize), data.mapWidth.GetOr(0), data.mapHeight.GetOr(0), m, order);
      assert Valid(level) by {
        forall n | n in m ensures m[n].name == n && forall t | t in m[n].tiles :: HasCoordinates(t) {
          AddLayersKeepsLast(records, n);
          var i :| IsLastNamed(records, i, n) && m[n] == MakeLayer(records[i]);
        }
      }
      Some(level)
    else None
  }

  /** For layers named twice, the table keeps the last definition while the order
      records both occurrences. */
  lemma DuplicateLayerNames(data: LevelData, i: nat, j: nat)
    requires data.layers.Some? && i < j < |data.layers.value|
    requires BuildLevel(data).Some?
    requires data.layers.value[i].name == data.layers.value[j].name
    requires forall k | j < k < |data.layers.value| :: data.layers.value[k].name != data.layers.value[j].name
    ensures var level := BuildLevel(data).value;
            var n := data.layers.value[j].name.value;
            level.layers[n] == MakeLayer(data.layers.value[j]) &&
            level.layerOrder[i] == n && level.layerOrder[j] == n
  {
    var records := data.layers.value;
    var (m, order) := AddLayers(records);
    var n := records[j].name.value;
    assert order[j] == n;
    AddLayersKeepsLast(records, n);
    var k :| IsLastNamed(records, k, n) && m[n] == MakeLayer(records[k]);
    assert k == j;
  }

  // ---------------------------------------------------------------- queries

  function GetLayer(level: Level, name: string): Option<TileLayer> {
    if name in level.layers then Some(level.layers[name]) else None
  }

  /** Layer `a` was first recorded before layer `b`. */
  predicate Before(order: seq<string>, a: TileLayer, b: TileLayer) {
    a.name in order && b.name in order && IndexOf(order, a.name) < IndexOf(order, b.name)
  }

  /** The layers are listed in the order their names were first recorded; since that
      order is strict, no name is listed twice. */
  predicate ByFirstRecord(order: seq<string>, ls: seq<TileLayer>) {
    forall i, j | 0 <= i < j < |ls| :: Before(order, ls[i], ls[j])
  }

  /** `self.layers.values()`: one entry per distinct name, in the order the name first
      appeared, as an insertion-ordered `dict` keeps its keys. */
  function LayerValues(level: Level): (r: seq<TileLayer>)
    requires Valid(level)
    ensures forall n | n in level.layers :: level.layers[n] in r
    ensures forall l | l in r :: l.name in level.layers && level.layers[l.name] == l
    ensures ByFirstRecord(level.layerOrder, r)
  {
    var names := FirstOccurrences(level.layerOrder);
    var r := seq(|names|, k requires 0 <= k < |names| => level.layers[names[k]]);
    ValuesCoverTable(level, names, r);
    ValuesByFirstRecord(level, names, r);
    r
  }

  /** Looking up every first-recorded name yields every value of the table. */
  lemma ValuesCoverTable(level: Level, names: seq<string>, r: seq<TileLayer>)
    requires Valid(level) && names == FirstOccurrences(level.layerOrder)
    requires |r| == |names| && forall k | 0 <= k < |r| :: names[k] in level.layers && r[k] == level.layers[names[k]]
    ensures forall n | n in level.layers :: level.layers[n] in r
  {
    forall n | n in level.layers ensures level.layers[n] in r {
      var k := IndexOf(names, n);
      assert r[k] == level.layers[n];
    }
  }

  /** Looking up the first-recorded names in order keeps that order. */
  lemma ValuesByFirstRecord(level: Level, names: seq<string>, r: seq<TileLayer>)
    requires Valid(level) && names == FirstOccurrences(level.layerOrder)
    requires |r| == |names| && forall k | 0 <= k < |r| :: names[k] in level.layers && r[k] == level.layers[names[k]]
    ensures ByFirstRecord(level.layerOrder, r)
  {
    FirstOccurrencesOrdered(level.layerOrder);
    assert forall k | 0 <= k < |r| :: r[k].name == names[k];
  }

  /** get_collision_layers: the collider layers of the table. */
  function CollisionLayers(level: Level): (r: seq<TileLayer>)
    requires Valid(level)
    ensures forall l | l in r :: l.collider && l.name in level.layers && level.layers[l.name] == l
    ensures forall n | n in level.layers && level.layers[n].collider :: level.layers[n] in r
    ensures ByFirstRecord(level.layerOrder, r)
  {
    FilterKeepsOrder(level.layerOrder, LayerValues(level));
    FilterColliders(LayerValues(level))
  }

  function FilterColliders(ls: seq<TileLayer>): (r: seq<TileLayer>)
    ensures forall l | l in r :: l in ls && l.collider
    ensures forall l | l in ls && l.collider :: l in r
  {
    if ls == [] then []
    else (if ls[0].collider then [ls[0]] else []) + FilterColliders(ls[1..])
  }

  /** Filtering keeps the relative order of the layers it keeps. */
  lemma {:induction false} FilterKeepsOrder(order: seq<string>, ls: seq<TileLayer>)
    requires ByFirstRecord(order, ls)
    ensures ByFirstRecord(order, FilterColliders(ls))
  {
    if ls != [] {
      var tail := ls[1..];
      assert ByFirstRecord(order, tail) by {
        forall i, j | 0 <= i < j < |tail| ensures Before(order, tail[i], tail[j]) {
          assert tail[i] == ls[i + 1] && tail[j] == ls[j + 1];
        }
      }
      FilterKeepsOrder(order, tail);
      var rest := FilterColliders(tail);
      if ls[0].collider {
        forall l | l in rest ensures Before(order, ls[0], l) {
          var k :| 0 <= k < |tail| && tail[k] == l;
          assert ls[k + 1] == l;
        }
        ConsOrdered(order, ls[0], rest);
      }
    }
  }

  lemma ConsOrdered(order: seq<string>, a: TileLayer, rest: seq<TileLayer>)
    requires ByFirstRecord(order, rest) && forall l | l in rest :: Before(order, a, l)
    ensures ByFirstRecord(order, [a] + rest)
  {
    var r := [a] + rest;
    forall i, j | 0 <= i < j < |r| ensures Before(order, r[i], r[j]) {
      assert r[j] == rest[j - 1];
      if i > 0 {
        assert r[i] == rest[i - 1];
      }
    }
  }

  /** is_collision_at: scans the collision layers in order. */
  function IsCollisionAt(level: Level, x: int, y: int): (b: bool)
    requires Valid(level)
    ensures b <==> exists l | l in CollisionLayers(level) :: HasTileAt(l, x, y)
  {
    AnyHasTileIff(CollisionLayers(level), x, y);
    AnyHasTile(CollisionLayers(level), x, y)
  }

  /** A position collides exactly when some collider layer of the table has a tile there. */
  lemma CollisionAtIff(level: Level, x: int, y: int)
    requires Valid(level)
    ensures IsCollisionAt(level, x, y) <==>
              exists n | n in level.layers :: level.layers[n].collider && HasTileAt(level.layers[n], x, y)
  {
    var ls := CollisionLayers(level);
    AnyHasTileIff(ls, x, y);
    if IsCollisionAt(level, x, y) {
      var l :| l in ls && HasTileAt(l, x, y);
      assert level.layers[l.name] == l;
    } else {
      forall n | n in level.layers && level.layers[n].collider ensures !HasTileAt(level.layers[n], x, y) {
        assert level.layers[n] in ls;
      }
    }
  }

  function AnyHasTile(ls: seq<TileLayer>, x: int, y: int): bool
    requires forall l | l in ls :: forall t | t in l.tiles :: HasCoordinates(t)
  {
    if ls == [] then false
    else HasTileAt(ls[0], x, y) || AnyHasTile(ls[1..], x, y)
  }

  /** The scan finds a tile exactly when some layer of the list has one there. */
  lemma {:induction false} AnyHasTileIff(ls: seq<TileLayer>, x: int, y: int)
    requires forall l | l in ls :: forall t | t in l.tiles :: HasCoordinates(t)
    ensures AnyHasTile(ls, x, y) <==> exists l | l in ls :: HasTileAt(l, x, y)
  {
    if ls != [] {
      assert forall l | l in ls[1..] :: l in ls;
      AnyHasTileIff(ls[1..], x, y);
      assert forall l | l in ls :: l == ls[0] || l in ls[1..];
    }
  }

  /** get_render_layers: the recorded order reversed, duplicates included. */
  function RenderLayers(level: Level): (r: seq<TileLayer>)
    requires Valid(level)
    ensures |r| == |level.layerOrder|
    ensures forall k | 0 <= k < |r| :: r[k] == level.layers[level.layerOrder[|level.layerOrder| - 1 - k]]
  {
    var order := level.layerOrder;
    seq(|order|, k requires 0 <= k < |order| => level.layers[order[|order| - 1 - k]])
  }

  function PixelSize(level: Level): (int, int) {
    (level.mapWidth * level.tileSize, level.mapHeight * level.tileSize)
  }

  /** tile_to_pixel: the tile's top-left corner. pixel_to_tile maps it back to the same
      tile for any non-zero size; a zero size raises on the way back. */
  function TileToPixel(level: Level, tx: int, ty: int): (p: (int, int))
    ensures PixelToTile(level, p.0, p.1) == if level.tileSize == 0 then None else Some((tx, ty))
  {
    if level.tileSize != 0 then
      FloorDivExact(tx, level.tileSize);
      FloorDivExact(ty, level.tileSize);
      (tx * level.tileSize, ty * level.tileSize)
    else (tx * level.tileSize, ty * level.tileSize)
  }

  /** Python's `//`, which rounds toward negative infinity for either sign of divisor. */
  function FloorDiv(a: int, b: int): (q: int)
    requires b != 0
    ensures b > 0 ==> q * b <= a < (q + 1) * b
    ensures b < 0 ==> q * b >= a > (q + 1) * b
  {
    if b > 0 then a / b else (-a) / (-b)
  }

  /** pixel_to_tile; None where a zero tile size makes `//` raise ZeroDivisionError. */
  function PixelToTile(level: Level, px: int, py: int): (t: Option<(int, int)>)
    ensures t.None? <==> level.tileSize == 0
    ensures level.tileSize > 0 ==>
              t.value.0 * level.tileSize <= px < (t.value.0 + 1) * level.tileSize &&
              t.value.1 * level.tileSize <= py < (t.value.1 + 1) * level.tileSize
    ensures level.tileSize < 0 ==>
              t.value.0 * level.tileSize >= px > (t.value.0 + 1) * level.tileSize &&
              t.value.1 * level.tileSize >= py > (t.value.1 + 1) * level.tileSize
  {
    if level.tileSize == 0 then None
    else Some((FloorDiv(px, level.tileSize), FloorDiv(py, level.tileSize)))
  }

  lemma MulMono(x: int, y: int, c: int)
    requires x <= y && c > 0
    ensures x * c <= y * c
  {
    assert y * c == x * c + (y - x) * c;
  }

  /** Floor division has exactly one answer: the q with q * c <= a < (q + 1) * c. */
  lemma DivUnique(a: int, c: int, q: int)
    requires c > 0 && q * c <= a < (q + 1) * c
    ensures a / c == q
  {
    var d := a / c;
    assert d * c <= a < d * c + c;
    if d < q {
      MulMono(d + 1, q, c);
    } else if d > q {
      MulMono(q + 1, d, c);
    }
  }

  lemma FloorDivExact(a: int, b: int)
    requires b != 0
    ensures FloorDiv(a * b, b) == a
  {
    if b > 0 {
      DivUnique(a * b, b, a);
    } else {
      assert -(a * b) == a * (-b);
      DivUnique(a * (-b), -b, a);
    }
  }

  // ---------------------------------------------------------------- validation

  datatype Issue = InvalidTileSize | InvalidDimensions | NoLayers | OutOfBounds(layer: string, x: int, y: int)

  /** The text validate_level_data appends for each issue. */
  function Message(issue: Issue): string {
    match issue
    case InvalidTileSize => "Invalid tile size"
    case InvalidDimensions => "Invalid map dimensions"
    case NoLayers => "No layers found"
    case OutOfBounds(layer, x, y) =>
      "Tile out of bounds in layer '" + layer + "': (" + IntToString(x) + ", " + IntToString(y) + ")"
  }

  /** `tile.get('x', -1)`, `tile.get('y', -1)` */
  function TileX(t: TileData): int { t.x.GetOr(-1) }
  function TileY(t: TileData): int { t.y.GetOr(-1) }

  predicate OutOfMap(level: Level, t: TileData) {
    TileX(t) < 0 || TileX(t) >= level.mapWidth || TileY(t) < 0 || TileY(t) >= level.mapHeight
  }

  /** Some tile of `tiles` lies outside the map and is reported at (x, y). */
  predicate StrayAt(level: Level, tiles: seq<TileData>, x: int, y: int) {
    exists t | t in tiles :: OutOfMap(level, t) && TileX(t) == x && TileY(t) == y
  }

  function TileIssues(level: Level, name: string, tiles: seq<TileData>): (r: seq<Issue>)
    ensures forall k | 0 <= k < |r| :: r[k].OutOfBounds? && r[k].layer == name
    ensures forall x, y :: OutOfBounds(name, x, y) in r <==> StrayAt(level, tiles, x, y)
  {
    if tiles == [] then []
    else
      var t := tiles[0];
      var rest := TileIssues(level, name, tiles[1..]);
      assert forall x, y :: StrayAt(level, tiles, x, y) <==>
               (OutOfMap(level, t) && TileX(t) == x && TileY(t) == y) || StrayAt(level, tiles[1..], x, y) by {
        assert forall u | u in tiles[1..] :: u in tiles;
        assert forall u | u in tiles :: u == t || u in tiles[1..];
      }
      (if OutOfMap(level, t) then [OutOfBounds(name, TileX(t), TileY(t))] else []) + rest
  }

  /** Some layer of `ls` called `n` has a stray tile reported at (x, y). */
  predicate LayerStrayAt(level: Level, ls: seq<TileLayer>, n: string, x: int, y: int) {
    exists l | l in ls :: l.name == n && StrayAt(level, l.tiles, x, y)
  }

  function LayerIssues(level: Level, ls: seq<TileLayer>): (r: seq<Issue>)
    ensures forall k | 0 <= k < |r| :: r[k].OutOfBounds?
    ensures forall n, x, y :: OutOfBounds(n, x, y) in r <==> LayerStrayAt(level, ls, n, x, y)
  {
    if ls == [] then []
    else
      var first := TileIssues(level, ls[0].name, ls[0].tiles);
      var rest := LayerIssues(level, ls[1..]);
      assert forall n, x, y :: LayerStrayAt(level, ls, n, x, y) <==>
               (ls[0].name == n && StrayAt(level, ls[0].tiles, x, y)) || LayerStrayAt(level, ls[1..], n, x, y) by {
        assert forall l | l in ls[1..] :: l in ls;
        assert forall l | l in ls :: l == ls[0] || l in ls[1..];
      }
      first + rest
  }

  lemma LayerValuesStray(level: Level)
    requires Valid(level)
    ensures forall n, x, y :: LayerStrayAt(level, LayerValues(level), n, x, y) <==>
              n in level.layers && StrayAt(level, level.layers[n].tiles, x, y)
  {
    var values := LayerValues(level);
    forall n, x, y ensures LayerStrayAt(level, values, n, x, y) <==>
                           n in level.layers && StrayAt(level, level.layers[n].tiles, x, y) {
      if n in level.layers {
        assert level.layers[n] in values;
      }
    }
  }

  /** The three checks on the level's shape, in the order validate_level_data makes them. */
  function ShapeIssues(level: Level): (r: seq<Issue>)
    ensures InvalidTileSize in r <==> level.tileSize <= 0
    ensures InvalidDimensions in r <==> level.mapWidth <= 0 || level.mapHeight <= 0
    ensures NoLayers in r <==> level.layers == map[]
    ensures forall i | 0 <= i < |r| :: !r[i].OutOfBounds?
  {
    (if level.tileSize <= 0 then [InvalidTileSize] else []) +
    (if level.mapWidth <= 0 || level.mapHeight <= 0 then [InvalidDimensions] else []) +
    (if level.layers == map[] then [NoLayers] else [])
  }

  /** validate_level_data: the three shape checks, then one issue per tile outside the
      map, layer by layer. */
  function ValidateLevel(level: Level): (r: seq<Issue>)
    requires Valid(level)
    ensures InvalidTileSize in r <==> level.tileSize <= 0
    ensures InvalidDimensions in r <==> level.mapWidth <= 0 || level.mapHeight <= 0
    ensures NoLayers in r <==> level.layers == map[]
    ensures forall n, x, y :: OutOfBounds(n, x, y) in r <==>
              n in level.layers && StrayAt(level, level.layers[n].tiles, x, y)
  {
    var shape := ShapeIssues(level);
    var oob := LayerIssues(level, LayerValues(level));
    LayerValuesStray(level);
    ConcatIssues(shape, oob);
    shape + oob
  }

  /** Shape issues before out-of-bounds issues: each kind is found in its own part. */
  lemma ConcatIssues(shape: seq<Issue>, oob: seq<Issue>)
    requires forall i | 0 <= i < |shape| :: !shape[i].OutOfBounds?
    requires forall k | 0 <= k < |oob| :: oob[k].OutOfBounds?
    ensures forall e: Issue | !e.OutOfBounds? :: e in shape + oob <==> e in shape
    ensures forall n, x, y :: OutOfBounds(n, x, y) in shape + oob <==> OutOfBounds(n, x, y) in oob
  {
  }

  /** One row of the collision map: cell x tells whether (x, y) collides. */
  method CollisionRow(level: Level, y: int, w: nat) returns (row: seq<bool>)
    requires Valid(level)
    ensures |row| == w
    ensures forall x | 0 <= x < w :: row[x] == IsCollisionAt(level, x, y)
  {
    row := seq(w, x => IsCollisionAt(level, x, y));
  }

  /** Row `j` of `grid` is the collision row at height `j`, `w` cells wide, for every j. */
  ghost predicate CollisionRows(level: Level, grid: seq<seq<bool>>, w: int)
    requires Valid(level)
  {
    forall j | 0 <= j < |grid| :: |grid[j]| == w && forall x | 0 <= x < w :: grid[j][x] == IsCollisionAt(level, x, j)
  }

  lemma AppendCollisionRow(level: Level, grid: seq<seq<bool>>, row: seq<bool>, w: nat)
    requires Valid(level) && CollisionRows(level, grid, w)
    requires |row| == w && forall x | 0 <= x < w :: row[x] == IsCollisionAt(level, x, |grid|)
    ensures CollisionRows(level, grid + [row], w)
  {
    var g := grid + [row];
    forall j | 0 <= j < |g| ensures |g[j]| == w && forall x | 0 <= x < w :: g[j][x] == IsCollisionAt(level, x, j) {
      if j < |grid| {
        assert g[j] == grid[j];
      } else {
        assert g[j] == row;
      }
    }
  }

  /** get_collision_map: `mapHeight` rows of `mapWidth` cells, cell [y][x] telling
      whether (x, y) collides (an empty range for a non-positive size, as with `range`). */
  method CollisionMap(level: Level) returns (grid: seq<seq<bool>>)
    requires Valid(level)
    ensures |grid| == if level.mapHeight > 0 then level.mapHeight else 0
    ensures forall y | 0 <= y < |grid| ::
              |grid[y]| == (if level.mapWidth > 0 then level.mapWidth else 0) &&
              forall x | 0 <= x < |grid[y]| :: grid[y][x] == IsCollisionAt(level, x, y)
  {
    var h := if level.mapHeight > 0 then level.mapHeight else 0;
    var w := if level.mapWidth > 0 then level.mapWidth else 0;
    grid := [];
    var y := 0;
    while y < h
      invariant 0 <= y <= h
      invariant |grid| == y
      invariant CollisionRows(level, grid, w)
    {
      var row := CollisionRow(level, y, w);
      AppendCollisionRow(level, grid, row, w);
      grid := grid + [row];
      y := y + 1;
    }
  }
}

=== FILE: level_manager.dfy ===
/** The pure parts of the layered level manager: which sprite sheet a level uses, where
    a tile id sits on its sheet, the draw depth of each layer, the non-smooth camera,
    cyclic navigation through the available levels, and pixel collision. */
module LevelManager {
  import opened Text
  import opened Seqs
  import opened LevelLoader

  // ---------------------------------------------------------------- sprite sheets

  const DefaultSheet := "level-1.png"

  /** get_sprite_sheet_for_level: "level-<n>-<anything>" uses "level-<n>.png"; every other
      name, the empty one and None included, falls back to the first sheet. */
  function SpriteSheetForLevel(name: Option<string>): (r: string)
    ensures name.Some? && StartsWith(name.value, "level-") ==>
              r == "level-" + TakeUntil(name.value[6..], '-') + ".png"
    ensures !(name.Some? && StartsWith(name.value, "level-")) ==> r == DefaultSheet
  {
    if name.Some? && name.value != "" && StartsWith(name.value, "level-") then
      var parts := Split(name.value, '-');
      SheetParts(name.value);
      if |parts| >= 2 then parts[0] + "-" + parts[1] + ".png"
      else DefaultSheet
    else DefaultSheet
  }

  /** For a name "level-" + rest, the first two '-'-separated pieces are "level" and
      the part of rest before its first '-'. */
  lemma SheetParts(name: string)
    requires StartsWith(name, "level-")
    ensures |Split(name, '-')| >= 2
    ensures Split(name, '-')[0] == "level"
    ensures Split(name, '-')[1] == TakeUntil(name[6..], '-')
  {
    var rest := name[6..];
    assert name == "level" + ['-'] + rest;
    assert '-' !in "level" by {
      var p := "level";
      assert p[0] == 'l' && p[1] == 'e' && p[2] == 'v' && p[3] == 'e' && p[4] == 'l';
    }
    TakeUntilAfter("level", '-', rest);
    SplitHead(name, '-');
    SplitHead(rest, '-');
    assert name[|TakeUntil(name, '-')| + 1..] == rest;
  }

  // ---------------------------------------------------------------- tile offsets

  /** The outcomes of get_tile_surface's arithmetic. DivisionByZero stands for the
      ZeroDivisionError a tile size of 0 raises, which get_tile_surface does not catch. */
  datatype SheetTile = NoSheet | NonNumeric | DivisionByZero | BadSheet | OutsideSheet | Offset(x: int, y: int)

  /** Where tile `tileId` starts on a sheet of the given pixel size (None when the sheet
      failed to load). Tiles are numbered row by row, `width // tileSize` per row; the
      tile must end within the sheet's right and bottom edges. Only those two edges are
      tested, so a negative id yields an offset above the sheet. */
  function TileOffset(tileId: string, tileSize: int, sheet: Option<(nat, nat)>): (r: SheetTile)
    ensures r == NoSheet <==> sheet.None?
    ensures r == NonNumeric <==> sheet.Some? && ParseInt(tileId).None?
    ensures r == DivisionByZero <==> sheet.Some? && ParseInt(tileId).Some? && tileSize == 0
    ensures r == BadSheet <==>
              sheet.Some? && ParseInt(tileId).Some? && tileSize != 0 && FloorDiv(sheet.value.0, tileSize) <= 0
    ensures r == OutsideSheet <==>
              && sheet.Some? && ParseInt(tileId).Some? && tileSize != 0
              && var perRow := FloorDiv(sheet.value.0, tileSize);
                 var n := ParseInt(tileId).value;
                 perRow > 0 &&
                 !((n % perRow + 1) * tileSize <= sheet.value.0 && (n / perRow + 1) * tileSize <= sheet.value.1)
    ensures r.Offset? ==> tileSize > 0 && r.x % tileSize == 0 && r.y % tileSize == 0
    ensures r.Offset? ==> 0 <= r.x && r.x + tileSize <= sheet.value.0 && r.y + tileSize <= sheet.value.1
  {
    match sheet
    case None => NoSheet
    case Some((w, h)) =>
      match ParseInt(tileId)
      case None => NonNumeric
      case Some(n) =>
        if tileSize == 0 then DivisionByZero
        else
          var perRow := FloorDiv(w, tileSize);
          if perRow <= 0 then BadSheet
          else
            RowsNeedPositiveSize(w, tileSize);
            var tx := (n % perRow) * tileSize;
            var ty := (n / perRow) * tileSize;
            assert tx + tileSize == (n % perRow + 1) * tileSize;
            assert ty + tileSize == (n / perRow + 1) * tileSize;
            if tx + tileSize <= w && ty + tileSize <= h then
              MulMono(0, n % perRow, tileSize);
              OnGrid(n % perRow, tileSize);
              OnGrid(n / perRow, tileSize);
              Offset(tx, ty)
            else OutsideSheet
  }

  /** A multiple of the tile size sits on the tile grid. */
  lemma OnGrid(k: int, size: int)
    requires size > 0
    ensures (k * size) % size == 0
  {
    DivUnique(k * size, size, k);
  }

  /** Tile "-1" of a 32 by 32 sheet of 16-pixel tiles starts one tile above the sheet:
      the last column, row -1. */
  lemma NegativeIdAboveSheet()
    ensures TileOffset("-1", 16, Some((32, 32))) == Offset(16, -16)
  {
    ParseIntToString(-1);
    assert IntToString(-1) == "-1";
    assert FloorDiv(32, 16) == 2;
  }

  /** A sheet has a positive number of tiles per row only for a positive tile size. */
  lemma RowsNeedPositiveSize(w: nat, tileSize: int)
    requires tileSize != 0 && FloorDiv(w, tileSize) > 0
    ensures tileSize > 0
  {
  }

  /** Row-major numbering read back: (n / perRow) rows down and (n % perRow) columns in. */
  lemma RowMajor(n: int, perRow: int, size: int)
    requires perRow > 0 && size > 0
    ensures (((n / perRow) * size) / size) * perRow + ((n % perRow) * size) / size == n
  {
    DivUnique((n / perRow) * size, size, n / perRow);
    DivUnique((n % perRow) * size, size, n % perRow);
  }

  /** The offset determines the tile id: reading the sheet position back row by row
      gives the id again, negative ids included. */
  lemma TileOffsetRoundTrip(tileId: string, tileSize: int, w: nat, h: nat)
    requires TileOffset(tileId, tileSize, Some((w, h))).Offset?
    ensures var r := TileOffset(tileId, tileSize, Some((w, h)));
            (r.y / tileSize) * (w / tileSize) + r.x / tileSize == ParseInt(tileId).value
  {
    var n := ParseInt(tileId).value;
    var perRow := FloorDiv(w, tileSize);
    assert perRow == w / tileSize;
    RowMajor(n, perRow, tileSize);
  }

  // ---------------------------------------------------------------- layer depths

  const LayerDepths: map<string, int> := map[
    "ground" := 0,
    "walls" := 20,
    "objects-nocollision" := 40,
    "objects-collision" := 60,
    "interactables" := 80,
    "npc" := 100,
    "foreground" := 120]

  const DefaultDepth := 50

  /** get_layer_depth */
  function LayerDepth(name: string): (d: int)
    ensures name in LayerDepths ==> d == LayerDepths[name]
    ensures name !in LayerDepths ==> d == DefaultDepth
  {
    if name in LayerDepths then LayerDepths[name] else DefaultDepth
  }

  /** Layers draw ground first and foreground last; a layer of unknown name draws
      between the non-colliding and the colliding objects. */
  lemma DepthOrder(unknown: string)
    requires unknown !in LayerDepths
    ensures LayerDepth("ground") < LayerDepth("walls") < LayerDepth("objects-nocollision")
    ensures LayerDepth("objects-nocollision") < LayerDepth(unknown) < LayerDepth("objects-collision")
    ensures LayerDepth("objects-collision") < LayerDepth("interactables") < LayerDepth("npc") < LayerDepth("foreground")
  {
  }

  // ---------------------------------------------------------------- camera

  datatype Camera = Camera(x: int, y: int, screenWidth: int, screenHeight: int)

  function NewCamera(screenWidth: int, screenHeight: int): Camera {
    Camera(0, 0, screenWidth, screenHeight)
  }

  /** `max(0, min(v, limit))` */
  function ClampOrigin(v: int, limit: int): (r: int)
    ensures 0 <= r <= Max(0, limit)
    ensures 0 <= v <= limit ==> r == v
    ensures v < 0 ==> r == 0
    ensures limit < v ==> r == Max(0, limit)
  {
    Max(0, Min(v, limit))
  }

  /** Camera.update without smoothing: centre the target, then keep the view inside the level. */
  function UpdateCamera(cam: Camera, targetX: int, targetY: int, levelWidth: int, levelHeight: int): (r: Camera)
    ensures r.screenWidth == cam.screenWidth && r.screenHeight == cam.screenHeight
    ensures 0 <= r.x <= Max(0, levelWidth - cam.screenWidth)
    ensures 0 <= r.y <= Max(0, levelHeight - cam.screenHeight)
    ensures 0 <= targetX - FloorDiv(cam.screenWidth, 2) <= levelWidth - cam.screenWidth ==>
              r.x == targetX - FloorDiv(cam.screenWidth, 2)
    ensures 0 <= targetY - FloorDiv(cam.screenHeight, 2) <= levelHeight - cam.screenHeight ==>
              r.y == targetY - FloorDiv(cam.screenHeight, 2)
  {
    cam.(x := ClampOrigin(targetX - FloorDiv(cam.screenWidth, 2), levelWidth - cam.screenWidth),
         y := ClampOrigin(targetY - FloorDiv(cam.screenHeight, 2), levelHeight - cam.screenHeight))
  }

  /** Camera.apply: world to screen coordinates. */
  function Apply(cam: Camera, x: int, y: int): (r: (int, int))
    ensures r.0 + cam.x == x && r.1 + cam.y == y
  {
    (x - cam.x, y - cam.y)
  }

  /** In a level at least as large as the screen, the followed target always lands on
      the screen. */
  lemma TargetOnScreen(cam: Camera, tx: int, ty: int, levelWidth: int, levelHeight: int)
    requires 0 <= cam.screenWidth <= levelWidth && 0 <= cam.screenHeight <= levelHeight
    requires 0 <= tx <= levelWidth && 0 <= ty <= levelHeight
    ensures var p := Apply(UpdateCamera(cam, tx, ty, levelWidth, levelHeight), tx, ty);
            0 <= p.0 <= cam.screenWidth && 0 <= p.1 <= cam.screenHeight
  {
  }

  // ---------------------------------------------------------------- navigation

  /** A level the manager holds: built by the Level constructor, so its invariant holds. */
  type LoadedLevel = l: Level | Valid(l) witness Level(DefaultTileSize, 0, 0, map[], [])

  /** The level loader's file access: the parsed document for a level name, None where
      the file is missing or not JSON. */
  type Source = string -> Option<LevelData>

  datatype Navigator = Navigator(
    available: seq<string>,
    index: int,
    current: Option<LoadedLevel>,
    currentName: Option<string>)

  /** LevelLoader.load_level: read the document, then construct the Level (None where
      the constructor raises). */
  function Fetch(source: Source, name: string): (r: Option<LoadedLevel>)
    ensures r.Some? <==> source(name).Some? && BuildLevel(source(name).value).Some?
  {
    match source(name)
    case None => None
    case Some(data) =>
      match BuildLevel(data)
      case None => None
      case Some(level) => Some(level)
  }

  /** The sprite-sheet loader: the pixel size of the named sheet, None where it fails
      to load. */
  type Sheets = string -> Option<(nat, nat)>

  /** How load_level ends: False returned, True returned, or an exception raised while
      the tile sprites were being built. */
  datatype LoadResult = NotLoaded | Loaded | SpritesRaised

  /** _create_tile_sprites raises for some tile of the level's layer records: indexing a
      tile without an "id" raises KeyError, and a numeric id on a loaded sheet with a
      tile size of 0 raises ZeroDivisionError in get_tile_surface. */
  predicate SpritesRaise(records: seq<LayerData>, tileSize: int, sheet: Option<(nat, nat)>) {
    exists l, t | l in records && t in l.tiles.GetOr([]) ::
      t.id.None? || TileOffset(t.id.value, tileSize, sheet) == DivisionByZero
  }

  /** load_level: once the level loads it becomes current, even when building its
      sprites raises afterwards; the index follows the name only when the load returns
      True and the name is listed. */
  function LoadLevel(nav: Navigator, name: string, source: Source, sheets: Sheets): (r: (Navigator, LoadResult))
    ensures r.0.available == nav.available
    ensures r.1 == NotLoaded <==> Fetch(source, name).None?
    ensures r.1 == NotLoaded ==> r.0 == nav
    ensures r.1 != NotLoaded ==> r.0.current == Fetch(source, name) && r.0.currentName == Some(name)
    ensures r.1 == SpritesRaised <==>
              Fetch(source, name).Some? &&
              SpritesRaise(source(name).value.layers.GetOr([]), Fetch(source, name).value.tileSize,
                           sheets(SpriteSheetForLevel(Some(name))))
    ensures r.1 == Loaded && name in nav.available ==>
              0 <= r.0.index < |nav.available| && nav.available[r.0.index] == name &&
              forall j | 0 <= j < r.0.index :: nav.available[j] != name
    ensures !(r.1 == Loaded && name in nav.available) ==> r.0.index == nav.index
  {
    match Fetch(source, name)
    case None => (nav, NotLoaded)
    case Some(level) =>
      var nav' := nav.(current := Some(level), currentName := Some(name));
      if SpritesRaise(source(name).value.layers.GetOr([]), level.tileSize, sheets(SpriteSheetForLevel(Some(name)))) then
        (nav', SpritesRaised)
      else
        var index := if name in nav.available then IndexOf(nav.available, name) else nav.index;
        (nav'.(index := index), Loaded)
  }

  /** load_next_level: the index moves on cyclically before the load is attempted, so
      it moves even when that load fails. */
  function LoadNext(nav: Navigator, source: Source, sheets: Sheets): (r: (Navigator, LoadResult))
    ensures r.0.available == nav.available
    ensures nav.available == [] ==> r == (nav, NotLoaded)
    ensures nav.available != [] ==> 0 <= r.0.index < |nav.available|
    ensures nav.available != [] && NoDuplicates(nav.available) ==>
              r.0.index == (nav.index + 1) % |nav.available|
    ensures nav.available != [] ==>
              var name := nav.available[(nav.index + 1) % |nav.available|];
              && (r.1 == NotLoaded <==> Fetch(source, name).None?)
              && (r.1 == NotLoaded ==> r.0 == nav.(index := (nav.index + 1) % |nav.available|))
              && (r.1 != NotLoaded ==> r.0.current == Fetch(source, name) && r.0.currentName == Some(name))
  {
    if nav.available == [] then (nav, NotLoaded)
    else
      var n := |nav.available|;
      var i := (nav.index + 1) % n;
      UniqueIndex(nav.available, i);
      LoadLevel(nav.(index := i), nav.available[i], source, sheets)
  }

  /** load_previous_level */
  function LoadPrevious(nav: Navigator, source: Source, sheets: Sheets): (r: (Navigator, LoadResult))
    ensures r.0.available == nav.available
    ensures nav.available == [] ==> r == (nav, NotLoaded)
    ensures nav.available != [] ==> 0 <= r.0.index < |nav.available|
    ensures nav.available != [] && NoDuplicates(nav.available) ==>
              r.0.index == (nav.index - 1) % |nav.available|
    ensures nav.available != [] ==>
              var name := nav.available[(nav.index - 1) % |nav.available|];
              && (r.1 == NotLoaded <==> Fetch(source, name).None?)
              && (r.1 == NotLoaded ==> r.0 == nav.(index := (nav.index - 1) % |nav.available|))
              && (r.1 != NotLoaded ==> r.0.current == Fetch(source, name) && r.0.currentName == Some(name))
  {
    if nav.available == [] then (nav, NotLoaded)
    else
      var n := |nav.available|;
      var i := (nav.index - 1) % n;
      UniqueIndex(nav.available, i);
      LoadLevel(nav.(index := i), nav.available[i], source, sheets)
  }

  /** load_first_level */
  function LoadFirst(nav: Navigator, source: Source, sheets: Sheets): (r: (Navigator, LoadResult))
    ensures nav.available == [] ==> r == (nav, NotLoaded)
    ensures nav.available != [] && r.1 == Loaded ==> r.0.index == 0 && r.0.currentName == Some(nav.available[0])
    ensures nav.available != [] ==>
              && (r.1 == NotLoaded <==> Fetch(source, nav.available[0]).None?)
              && (r.1 == NotLoaded ==> r.0 == nav)
              && (r.1 != NotLoaded ==>
                    r.0.current == Fetch(source, nav.available[0]) && r.0.currentName == Some(nav.available[0]))
  {
    if nav.available == [] then (nav, NotLoaded)
    else LoadLevel(nav, nav.available[0], source, sheets)
  }

  /** A manager holding no level yet has the first listed level current after
      load_first_level exactly when that level can be read and built, and then it holds
      exactly that level. */
  lemma FirstLevelCurrent(nav: Navigator, source: Source, sheets: Sheets)
    requires nav.available != [] && nav.current.None? && nav.currentName.None?
    ensures var r := LoadFirst(nav, source, sheets).0;
            && (r.currentName == Some(nav.available[0]) <==> Fetch(source, nav.available[0]).Some?)
            && (r.current.Some? <==> Fetch(source, nav.available[0]).Some?)
            && (r.current.Some? ==> r.current == Fetch(source, nav.available[0]))
  {
  }

  lemma UniqueIndex(s: seq<string>, i: int)
    requires 0 <= i < |s|
    ensures NoDuplicates(s) ==> IndexOf(s, s[i]) == i
  {
  }

  lemma ModSmall(a: int, n: int)
    requires 0 <= a < n
    ensures a % n == a
  {
    DivUnique(a, n, 0);
  }

  /** Stepping forward and then back returns to the level index one started from. */
  lemma NextThenPrevious(nav: Navigator, source: Source, sheets: Sheets)
    requires NoDuplicates(nav.available) && 0 <= nav.index < |nav.available|
    ensures LoadPrevious(LoadNext(nav, source, sheets).0, source, sheets).0.index == nav.index
  {
    StepBack(LoadNext(nav, source, sheets).0, nav.index, source, sheets);
  }

  /** Stepping back from the index just after k returns to k. */
  lemma StepBack(nav: Navigator, k: int, source: Source, sheets: Sheets)
    requires NoDuplicates(nav.available) && 0 <= k < |nav.available|
    requires nav.index == (k + 1) % |nav.available|
    ensures LoadPrevious(nav, source, sheets).0.index == k
  {
    CyclicBack(k, |nav.available|);
  }

  /** One step forward and one back, modulo n, is no step. */
  lemma CyclicBack(k: int, n: int)
    requires 0 <= k < n
    ensures ((k + 1) % n - 1) % n == k
  {
    if k + 1 < n {
      ModSmall(k + 1, n);
      ModSmall(k, n);
    } else {
      DivUnique(n, n, 1);
      DivUnique(-1, n, -1);
    }
  }

  /** check_collision: a pixel collides when the tile containing it does. None where a
      tile size of 0 makes pixel_to_tile raise ZeroDivisionError. */
  function CheckCollision(nav: Navigator, px: int, py: int): (b: Option<bool>)
    ensures nav.current.None? ==> b == Some(false)
    ensures nav.current.Some? ==> (b.None? <==> nav.current.value.tileSize == 0)
    ensures nav.current.Some? && b.Some? ==>
              var level := nav.current.value;
              var t := PixelToTile(level, px, py).value;
              (b.value <==> exists n | n in level.layers :: level.layers[n].collider && HasTileAt(level.layers[n], t.0, t.1))
  {
    match nav.current
    case None => Some(false)
    case Some(level) =>
      match PixelToTile(level, px, py)
      case None => None
      case Some(t) =>
        CollisionAtIff(level, t.0, t.1);
        Some(IsCollisionAt(level, t.0, t.1))
  }

  /** Every pixel inside a tile of a collider layer collides. */
  lemma ColliderTileBlocksItsPixels(nav: Navigator, name: string, tx: int, ty: int, px: int, py: int)
    requires nav.current.Some? && nav.current.value.tileSize > 0
    requires name in nav.current.value.layers
    requires nav.current.value.layers[name].collider && HasTileAt(nav.current.value.layers[name], tx, ty)
    requires var ts := nav.current.value.tileSize;
             tx * ts <= px < (tx + 1) * ts && ty * ts <= py < (ty + 1) * ts
    ensures CheckCollision(nav, px, py) == Some(true)
  {
    var level := nav.current.value;
    DivUnique(px, level.tileSize, tx);
    DivUnique(py, level.tileSize, ty);
    assert PixelToTile(level, px, py) == Some((tx, ty));
  }
}

=== FILE: loading_menu.dfy ===
/** The loading screen of the menu: one stage every `LoadingDelay` milliseconds, the
    terminal rebuilt each time with the stages so far, the current one animated. */
module LoadingMenu {
  import opened Text
  import opened Constants
  import Terminal

  datatype Loading = Loading(stage: int, stageStart: int, term: Terminal.Term)

  predicate Inv(l: Loading) {
    l.stage >= 0 && Terminal.Inv(l.term)
  }

  /** The lines shown at stage `k`: every earlier stage's text, still, and stage `k`'s
      text with animated dots. These are written straight into the line list, without
      colour and without positions. */
  function StageLines(k: nat): (r: seq<Terminal.Line>)
    requires k < |LoadingStages|
    ensures |r| == k + 1
  {
    seq(k, i requires 0 <= i < k => Terminal.Line(LoadingStages[i].0, false, Terminal.DefaultColor))
      + [Terminal.Line(LoadingStages[k].0, true, Terminal.DefaultColor)]
  }

  /** Stage `k` lists the stage texts in order, uncoloured, only the last one animated. */
  lemma StageLinesShape(k: nat)
    requires k < |LoadingStages|
    ensures forall i | 0 <= i <= k :: StageLines(k)[i].text == LoadingStages[i].0 && StageLines(k)[i].color == Terminal.DefaultColor
    ensures forall i | 0 <= i <= k :: StageLines(k)[i].animateDots <==> i == k
  {
  }

  /** advance_stage at time `now`: past the last stage the menu state is returned and the
      terminal is left alone; otherwise the terminal is cleared and refilled. */
  function AdvanceStage(l: Loading, now: int): (r: (Loading, Option<int>))
    requires l.stage >= -1
    ensures r.0.stage == l.stage + 1
    ensures l.stage + 1 >= |LoadingStages| ==> r.1 == Some(StateMenu) && r.0.term == l.term && r.0.stageStart == l.stageStart
    ensures l.stage + 1 < |LoadingStages| ==>
              && r.1.None? && r.0.stageStart == now
              && r.0.term.lines == StageLines(l.stage + 1)
              && r.0.term.targets == [] && r.0.term.currents == []
              && r.0.term.dotCount == l.term.dotCount
    ensures Terminal.Inv(l.term) ==> Inv(r.0)
  {
    var stage := l.stage + 1;
    if stage >= |LoadingStages| then (l.(stage := stage), Some(StateMenu))
    else
      var cleared := Terminal.Clear(l.term);
      (Loading(stage, now, cleared.(lines := cleared.lines + StageLines(stage))), None)
  }

  /** The constructor: the first stage is shown at once. */
  function New(term: Terminal.Term, now: int): (l: Loading)
    requires Terminal.Inv(term)
    ensures Inv(l) && l.stage == 0 && l.term.lines == StageLines(0)
  {
    AdvanceStage(Loading(-1, now, term), now).0
  }

  /** update at time `now`: the terminal's dots move, and once more than the delay has
      passed since the stage began the next stage follows. */
  function Update(l: Loading, now: int): (r: (Loading, Option<int>))
    requires Inv(l)
    ensures Inv(r.0)
    ensures now - l.stageStart <= LoadingDelay ==> r.1.None? && r.0.stage == l.stage && r.0.term.lines == l.term.lines
    ensures now - l.stageStart > LoadingDelay ==> r.0.stage == l.stage + 1
    ensures r.1.Some? <==> now - l.stageStart > LoadingDelay && l.stage + 1 >= |LoadingStages|
  {
    var l1 := l.(term := Terminal.Update(l.term, now));
    if now - l.stageStart > LoadingDelay then AdvanceStage(l1, now) else (l1, None)
  }

  /** `k` timely updates. */
  function Run(l: Loading, k: nat, step: int): (r: (Loading, Option<int>))
    requires Inv(l)
    ensures Inv(r.0) && r.0.stage >= l.stage
    ensures r.1.Some? ==> r.1 == Some(StateMenu)
    decreases k
  {
    var u := Update(l, l.stageStart + step);
    if k <= 1 || u.1.Some? then u else Run(u.0, k - 1, step)
  }

  /** With each update coming more than the delay after the last stage began, the
      screen shows stages 0 .. k after k updates and hands over to the menu on the
      update after the last stage. */
  lemma {:induction false} RunShowsStages(l: Loading, k: nat, step: int)
    requires Inv(l) && step > LoadingDelay && k >= 1
    ensures l.stage + k < |LoadingStages| ==>
              && Run(l, k, step).1.None? && Run(l, k, step).0.stage == l.stage + k
              && Run(l, k, step).0.term.lines == StageLines(l.stage + k)
    ensures l.stage + k >= |LoadingStages| ==> Run(l, k, step).1 == Some(StateMenu)
    decreases k
  {
    var l1 := Update(l, l.stageStart + step).0;
    if l.stage + 1 < |LoadingStages| && k > 1 {
      RunUnfolds(l, k, step);
      RunShowsStages(l1, k - 1, step);
    } else {
      RunFirst(l, k, step);
    }
  }

  /** Before the last stage, a run of several updates is one update then the rest. */
  lemma RunUnfolds(l: Loading, k: nat, step: int)
    requires Inv(l) && step > LoadingDelay && k > 1 && l.stage + 1 < |LoadingStages|
    ensures var l1 := Update(l, l.stageStart + step).0;
            Inv(l1) && l1.stage == l.stage + 1 && Run(l, k, step) == Run(l1, k - 1, step)
  {
  }

  /** A run of one update, or one that reaches the end of the stages, stops there. */
  lemma RunFirst(l: Loading, k: nat, step: int)
    requires Inv(l) && step > LoadingDelay && k >= 1
    requires k == 1 || l.stage + 1 >= |LoadingStages|
    ensures l.stage + k < |LoadingStages| ==>
              && Run(l, k, step).1.None? && Run(l, k, step).0.stage == l.stage + k
              && Run(l, k, step).0.term.lines == StageLines(l.stage + k)
    ensures l.stage + k >= |LoadingStages| ==> Run(l, k, step).1 == Some(StateMenu)
  {
  }

  /** From a fresh loading screen, every stage is shown in turn and the menu follows
      after as many updates as there are stages. */
  lemma LoadingReachesMenu(term: Terminal.Term, now: int, step: int)
    requires Terminal.Inv(term) && step > LoadingDelay
    ensures Run(New(term, now), |LoadingStages|, step).1 == Some(StateMenu)
    ensures Run(New(term, now), |LoadingStages| - 1, step).0.term.lines == StageLines(|LoadingStages| - 1)
  {
    RunShowsStages(New(term, now), |LoadingStages|, step);
    RunShowsStages(New(term, now), |LoadingStages| - 1, step);
  }
}

=== FILE: menu_options.dfy ===
/** The main menu in terminal style: the selection moves between the five entries
    without wrapping, the terminal's menu lines are repainted in place, and Return picks
    the next state. Leaving the program on "Exit" is reported as a result here. */
module MenuOptions {
  import opened Text
  import opened Constants
  import opened Seqs
  import Terminal

  datatype Options = Options(selected: int, term: Terminal.Term)

  predicate Inv(o: Options) {
    0 <= o.selected < |MenuItems| && Terminal.Inv(o.term)
  }

  datatype Key = Up | KeyW | Down | KeyS | Return | OtherKey
  datatype Event = KeyDown(key: Key) | OtherEvent

  /** Where Return leads. */
  datatype Selection = Goto(state: int) | ExitGame

  /** The text of menu entry `i` when `selected` is selected. */
  function MenuText(i: nat, selected: int): string
    requires i < |MenuItems|
  {
    (if i == selected then "> " else "  ") + MenuItems[i]
  }

  function MenuColor(i: nat, selected: int): Color {
    if i == selected then TerminalYellow else TerminalGreen
  }

  /** _handle_selection: each entry's state; "Exit" leaves the program. */
  function HandleSelection(selected: int): (r: Selection)
    requires 0 <= selected < |MenuItems|
    ensures MenuItems[selected] == "Play" <==> r == Goto(StatePrelude)
    ensures MenuItems[selected] == "How To Play" <==> r == Goto(StateHowToPlay)
    ensures MenuItems[selected] == "Settings" <==> r == Goto(StateSettings)
    ensures MenuItems[selected] == "Credits" <==> r == Goto(StateCredits)
    ensures MenuItems[selected] == "Exit" <==> r == ExitGame
  {
    var item := MenuItems[selected];
    if item == "Play" then Goto(StatePrelude)
    else if item == "How To Play" then Goto(StateHowToPlay)
    else if item == "Settings" then Goto(StateSettings)
    else if item == "Credits" then Goto(StateCredits)
    else ExitGame
  }

  /** A line that names a menu entry, with or without its two-character prefix. */
  predicate IsMenuLine(line: Terminal.Line) {
    Strip(line.text) in MenuItems || Drop(Strip(line.text), 2) in MenuItems
  }

  /** The index of the first menu line, or 0 when there is none. */
  function MenuStart(lines: seq<Terminal.Line>): (r: nat)
    ensures (exists j | 0 <= j < |lines| :: IsMenuLine(lines[j])) ==>
              r < |lines| && IsMenuLine(lines[r]) && forall j | 0 <= j < r :: !IsMenuLine(lines[j])
    ensures (forall j | 0 <= j < |lines| :: !IsMenuLine(lines[j])) ==> r == 0
  {
    FirstMatchOrZero(lines, IsMenuLine)
  }

  /** Line `j` after the repaint of the menu starting at line `s`. */
  function Repaint(line: Terminal.Line, j: nat, s: nat, selected: int): Terminal.Line {
    if s <= j < s + |MenuItems|
    then line.(text := MenuText(j - s, selected), color := Terminal.Plain(MenuColor(j - s, selected)))
    else line
  }

  /** _update_menu_items: the five lines from the first menu line on are repainted with
      the current selection; lines beyond the end of the terminal are skipped. */
  function UpdateMenuItems(o: Options): (r: Options)
    requires Inv(o)
    ensures Inv(r) && r.selected == o.selected
    ensures r.term == o.term.(lines := r.term.lines) && |r.term.lines| == |o.term.lines|
    ensures forall j | 0 <= j < |o.term.lines| :: r.term.lines[j] == Repaint(o.term.lines[j], j, MenuStart(o.term.lines), o.selected)
  {
    var s := MenuStart(o.term.lines);
    var lines := seq(|o.term.lines|, j requires 0 <= j < |o.term.lines| => Repaint(o.term.lines[j], j, s, o.selected));
    o.(term := o.term.(lines := lines))
  }

  /** The repaint touches only the five menu lines, and only their text and colour. */
  lemma RepaintKeepsOthers(o: Options, j: nat)
    requires Inv(o) && j < |o.term.lines|
    ensures var s := MenuStart(o.term.lines);
            var line := UpdateMenuItems(o).term.lines[j];
            && (j < s || j >= s + |MenuItems| ==> line == o.term.lines[j])
            && line.animateDots == o.term.lines[j].animateDots
  {
  }

  /** After a repaint exactly the selected entry carries the "> " mark and the yellow
      colour. */
  lemma OnlySelectedMarked(o: Options, i: nat)
    requires Inv(o) && i < |MenuItems| && MenuStart(o.term.lines) + i < |o.term.lines|
    ensures var line := UpdateMenuItems(o).term.lines[MenuStart(o.term.lines) + i];
            && (StartsWith(line.text, "> ") <==> i == o.selected)
            && (line.color == Terminal.Plain(TerminalYellow) <==> i == o.selected)
            && Drop(line.text, 2) == MenuItems[i]
  {
    var line := UpdateMenuItems(o).term.lines[MenuStart(o.term.lines) + i];
    assert line == Repaint(o.term.lines[MenuStart(o.term.lines) + i], MenuStart(o.term.lines) + i, MenuStart(o.term.lines), o.selected);
    assert line.text == MenuText(i, o.selected);
    assert line.text[..2] == if i == o.selected then "> " else "  ";
    assert line.text[2..] == MenuItems[i];
  }

  /** handle_event: Up/W and Down/S move the selection within the menu, without wrapping,
      and repaint; Return gives the chosen state; everything else gives nothing. */
  function HandleEvent(o: Options, ev: Event): (r: (Options, Option<Selection>))
    requires Inv(o)
    ensures Inv(r.0)
    ensures ev == KeyDown(Return) ==> r.0 == o && r.1 == Some(HandleSelection(o.selected))
    ensures ev != KeyDown(Return) ==> r.1.None?
    ensures ev in {KeyDown(Up), KeyDown(KeyW)} ==> r.0.selected == if o.selected > 0 then o.selected - 1 else o.selected
    ensures ev in {KeyDown(Down), KeyDown(KeyS)} ==> r.0.selected == if o.selected < |MenuItems| - 1 then o.selected + 1 else o.selected
    ensures ev in {KeyDown(Up), KeyDown(KeyW)} ==>
              r.0 == if o.selected > 0 then UpdateMenuItems(o.(selected := o.selected - 1)) else o
    ensures ev in {KeyDown(Down), KeyDown(KeyS)} ==>
              r.0 == if o.selected < |MenuItems| - 1 then UpdateMenuItems(o.(selected := o.selected + 1)) else o
    ensures ev.OtherEvent? || ev == KeyDown(OtherKey) ==> r.0 == o
  {
    match ev
    case OtherEvent => (o, None)
    case KeyDown(k) =>
      if k == Up || k == KeyW then
        (if o.selected > 0 then UpdateMenuItems(o.(selected := o.selected - 1)) else o, None)
      else if k == Down || k == KeyS then
        (if o.selected < |MenuItems| - 1 then UpdateMenuItems(o.(selected := o.selected + 1)) else o, None)
      else if k == Return then (o, Some(HandleSelection(o.selected)))
      else (o, None)
  }

  /** Up then Down, away from the top, returns to the same entry. */
  lemma UpThenDown(o: Options)
    requires Inv(o) && o.selected > 0
    ensures HandleEvent(HandleEvent(o, KeyDown(Up)).0, KeyDown(Down)).0.selected == o.selected
  {
  }

  /** The lines enter writes: the loading stages, the title with its highlighted name,
      the creators, the menu with the current selection, and the controls. */
  function EnterLines(selected: int): (r: seq<Terminal.Line>)
    ensures |r| == 16
  {
    PageHead() + MenuBlock(selected) + PageTail()
  }

  /** The page above the menu: the stages, the title and the creators. */
  function PageHead(): (r: seq<Terminal.Line>)
    ensures |r| == 9
  {
    var green := Terminal.Plain(TerminalGreen);
    seq(|LoadingStages|, i requires 0 <= i < |LoadingStages| => Terminal.Line(LoadingStages[i].0, false, green))
    + [Terminal.Line("", false, green),
       Terminal.Line(Title, false, Terminal.Segments([("The Final String:", TerminalYellow)])),
       Terminal.Line("", false, green),
       Terminal.Line("Created by: " + Join(Creators, ", "), false, green),
       Terminal.Line("", false, green)]
  }

  /** The five menu lines for a selection. */
  function MenuBlock(selected: int): (r: seq<Terminal.Line>)
    ensures |r| == |MenuItems|
    ensures forall i | 0 <= i < |MenuItems| :: r[i] == Terminal.Line(MenuText(i, selected), false, Terminal.Plain(MenuColor(i, selected)))
  {
    seq(|MenuItems|, i requires 0 <= i < |MenuItems| => Terminal.Line(MenuText(i, selected), false, Terminal.Plain(MenuColor(i, selected))))
  }

  /** The page below the menu: a blank line and the controls. */
  function PageTail(): (r: seq<Terminal.Line>)
    ensures |r| == 2
  {
    var green := Terminal.Plain(TerminalGreen);
    [Terminal.Line("", false, green), Terminal.Line(ControlsText, false, green)]
  }

  /** Adding lines one after another. */
  function AddLines(t: Terminal.Term, ls: seq<Terminal.Line>): (r: Terminal.Term)
    ensures Terminal.Inv(t) ==> Terminal.Inv(r)
    decreases |ls|
  {
    if ls == [] then t else AddLines(Terminal.AddLine(t, ls[0].text, ls[0].animateDots, ls[0].color), ls[1..])
  }

  lemma {:induction false} AddLinesAppends(t: Terminal.Term, ls: seq<Terminal.Line>)
    ensures AddLines(t, ls).lines == t.lines + ls
    ensures |AddLines(t, ls).targets| == |t.targets| + |ls|
    decreases |ls|
  {
    if ls != [] {
      var t1 := Terminal.AddLine(t, ls[0].text, ls[0].animateDots, ls[0].color);
      AddLinesAppends(t1, ls[1..]);
      assert t.lines + [ls[0]] + ls[1..] == t.lines + ls;
    } else {
      assert t.lines + ls == t.lines;
    }
  }

  /** enter: the terminal is cleared and the whole menu page is written. */
  function Enter(o: Options): (r: Options)
    requires Inv(o)
    ensures Inv(r) && r.selected == o.selected
    ensures r.term.lines == EnterLines(o.selected)
    ensures |r.term.targets| == |r.term.lines|
  {
    AddLinesAppends(Terminal.Clear(o.term), EnterLines(o.selected));
    o.(term := AddLines(Terminal.Clear(o.term), EnterLines(o.selected)))
  }

  /** The menu page's entries sit at lines 9 .. 13, each with the selection mark only
      on the selected one. */
  lemma EnterShowsMenu(o: Options, i: nat)
    requires Inv(o) && i < |MenuItems|
    ensures Enter(o).term.lines[9 + i].text == MenuText(i, o.selected)
    ensures Enter(o).term.lines[9 + i].color == Terminal.Plain(MenuColor(i, o.selected))
  {
    var ls := EnterLines(o.selected);
    assert ls[9 + i] == Terminal.Line(MenuText(i, o.selected), false, Terminal.Plain(MenuColor(i, o.selected)));
  }

  /** A line whose last character is not blank and which holds a non-blank character at
      least fourteen places from its end is not a menu line: stripping leaves at least
      fourteen characters, and every entry has at most eleven. */
  lemma LongTextNotMenu(line: Terminal.Line, k: nat)
    requires k + 14 <= |line.text| && !IsSpace(line.text[k]) && !IsSpace(line.text[|line.text| - 1])
    ensures !IsMenuLine(line)
  {
    StripKeepsFrom(line.text, k);
    MenuItemsShort();
  }

  /** No menu entry is longer than eleven characters. */
  lemma MenuItemsShort()
    ensures forall x | x in MenuItems :: |x| <= 11
  {
  }

  lemma BlankNotMenu(line: Terminal.Line)
    requires line.text == ""
    ensures !IsMenuLine(line)
  {
    assert Strip(line.text) == "";
  }

  lemma CreatorsLine()
    ensures "Created by: " + Join(Creators, ", ") == "Created by: [name1], [name2], [name3], [name4]"
  {
    CreatorsJoin();
  }

  /** The names joined one separator at a time. */
  lemma CreatorsJoin()
    ensures Join(Creators, ", ") == "[name1]" + ", " + ("[name2]" + ", " + ("[name3]" + ", " + "[name4]"))
  {
    assert Creators[1..][1..][1..] == ["[name4]"];
    assert Creators[1..][1..] == ["[name3]", "[name4]"];
    assert Creators[1..] == ["[name2]", "[name3]", "[name4]"];
  }

  /** No line of the page above the menu names a menu entry. */
  lemma HeadNotMenu(j: nat)
    requires j < 9
    ensures !IsMenuLine(PageHead()[j])
  {
    var line := PageHead()[j];
    if j == 4 || j == 6 || j == 8 {
      BlankNotMenu(line);
    } else if j < 4 {
      StageNotMenu(line, j);
    } else if j == 5 {
      TitleNotMenu(line);
    } else {
      CreatorsNotMenu(line);
    }
  }

  lemma StageNotMenu(line: Terminal.Line, j: nat)
    requires j < |LoadingStages| && line.text == LoadingStages[j].0
    ensures !IsMenuLine(line)
  {
    LongTextNotMenu(line, |line.text| - 14);
  }

  lemma TitleNotMenu(line: Terminal.Line)
    requires line.text == Title
    ensures !IsMenuLine(line)
  {
    assert |Title| == 48 && Title[34] == 't' && Title[47] == 's';
    LongTextNotMenu(line, 34);
  }

  lemma CreatorsNotMenu(line: Terminal.Line)
    requires line.text == "Created by: " + Join(Creators, ", ")
    ensures !IsMenuLine(line)
  {
    CreatorsLine();
    LongTextNotMenu(line, 32);
  }

  /** The first line of the menu block names the first entry. */
  lemma FirstEntryIsMenu(selected: int)
    ensures IsMenuLine(MenuBlock(selected)[0])
  {
    var first := MenuBlock(selected)[0];
    assert first.text == MenuText(0, selected);
    if selected == 0 {
      MarkedEntryIsMenu(first);
    } else {
      PlainEntryIsMenu(first);
    }
  }

  lemma MarkedEntryIsMenu(line: Terminal.Line)
    requires line.text == "> " + MenuItems[0]
    ensures IsMenuLine(line)
  {
    StripOfDigits(line.text);
    assert Drop(Strip(line.text), 2) == MenuItems[0];
  }

  lemma PlainEntryIsMenu(line: Terminal.Line)
    requires line.text == "  " + MenuItems[0]
    ensures IsMenuLine(line)
  {
    StripPadded("  ", MenuItems[0]);
  }

  /** The page enter writes has its first menu line at index 9. */
  lemma EnterMenuStart(selected: int)
    ensures MenuStart(EnterLines(selected)) == 9
  {
    var ls := EnterLines(selected);
    forall j | 0 <= j < 9
      ensures !IsMenuLine(ls[j])
    {
      assert ls[j] == PageHead()[j];
      HeadNotMenu(j);
    }
    assert ls[9] == MenuBlock(selected)[0];
    FirstEntryIsMenu(selected);
  }

  /** Lines added to the same terminal place the same positions, whatever they say. */
  lemma {:induction false} AddLinesSameShape(t: Terminal.Term, ls: seq<Terminal.Line>, ms: seq<Terminal.Line>)
    requires |ls| == |ms|
    ensures AddLines(t, ms) == AddLines(t, ls).(lines := t.lines + ms)
    decreases |ls|
  {
    AddLinesAppends(t, ls);
    AddLinesAppends(t, ms);
    if ls != [] {
      var t1 := Terminal.AddLine(t, ls[0].text, ls[0].animateDots, ls[0].color);
      var u1 := Terminal.AddLine(t, ms[0].text, ms[0].animateDots, ms[0].color);
      assert u1 == t1.(lines := t.lines + [ms[0]]);
      AddLinesSameShape(t1, ls[1..], ms[1..]);
      AddLinesSameShape(u1, ms[1..], ms[1..]);
      assert AddLines(u1, ms[1..]) == AddLines(t1, ms[1..]).(lines := u1.lines + ms[1..]) by {
        AddLinesFrom(t1, u1, ms[1..]);
      }
      assert t.lines + [ms[0]] + ms[1..] == t.lines + ms;
    }
  }

  /** Only the line list differs between two terminals, so adding the same lines keeps
      it that way. */
  lemma {:induction false} AddLinesFrom(t: Terminal.Term, u: Terminal.Term, ms: seq<Terminal.Line>)
    requires u == t.(lines := u.lines) && |u.lines| == |t.lines|
    ensures AddLines(u, ms) == AddLines(t, ms).(lines := u.lines + ms)
    decreases |ms|
  {
    AddLinesAppends(t, ms);
    AddLinesAppends(u, ms);
    if ms != [] {
      var t1 := Terminal.AddLine(t, ms[0].text, ms[0].animateDots, ms[0].color);
      var u1 := Terminal.AddLine(u, ms[0].text, ms[0].animateDots, ms[0].color);
      AddLinesFrom(t1, u1, ms[1..]);
      assert u.lines + [ms[0]] + ms[1..] == u.lines + ms;
    } else {
      assert u.lines + ms == u.lines;
    }
  }

  /** Repainting one line of the page for one selection gives that line of the page for
      another. */
  lemma RepaintEnterLine(a: int, b: int, j: nat)
    requires j < 16
    ensures Repaint(EnterLines(a)[j], j, 9, b) == EnterLines(b)[j]
  {
    var ls, ms := EnterLines(a), EnterLines(b);
    if j < 9 {
      assert ls[j] == PageHead()[j] == ms[j];
    } else if j < 14 {
      assert ls[j] == MenuBlock(a)[j - 9];
      assert ms[j] == MenuBlock(b)[j - 9];
    } else {
      assert ls[j] == PageTail()[j - 14] == ms[j];
    }
  }

  /** On the page enter drew, moving down repaints it into the page enter would draw for
      the entry below. */
  lemma DownOnEnteredPage(o: Options)
    requires Inv(o) && o.selected < |MenuItems| - 1
    ensures HandleEvent(Enter(o), KeyDown(Down)).0.term == Enter(o.(selected := o.selected + 1)).term
  {
    RepaintMatchesEnter(o, o.selected + 1);
  }

  /** Repainting the menu after a move draws exactly the page enter would draw for the
      new selection. */
  lemma RepaintMatchesEnter(o: Options, selected: int)
    requires Inv(o) && 0 <= selected < |MenuItems|
    ensures UpdateMenuItems(Enter(o).(selected := selected)).term == Enter(o.(selected := selected)).term
  {
    var ls := EnterLines(o.selected);
    var ms := EnterLines(selected);
    EnterMenuStart(o.selected);
    var r := UpdateMenuItems(Enter(o).(selected := selected));
    forall j | 0 <= j < 16
      ensures r.term.lines[j] == ms[j]
    {
      RepaintEnterLine(o.selected, selected, j);
    }
    assert r.term.lines == ms;
    var c := Terminal.Clear(o.term);
    AddLinesAppends(c, ls);
    AddLinesSameShape(c, ls, ms);
  }
}

=== FILE: menu_state.dfy ===
/** The stand-alone menu program: a terminal that keeps only its last few lines, and the
    loading / menu / playing state machine of its main loop. The clock is an argument;
    the shader, drawing and the event queue are not modelled. */
module MenuState {
  import opened Seqs
  import Terminal

  datatype BLine = BLine(text: string, animateDots: bool, startTime: int)

  datatype Bounded = Bounded(lines: seq<BLine>, maxLines: int, dotCount: nat, lastUpdate: int, updateInterval: int)

  const DefaultMaxLines := 5

  predicate BInv(t: Bounded) {
    t.maxLines >= 1 && |t.lines| <= t.maxLines && t.dotCount < 4
  }

  /** The constructor. */
  function NewBounded(maxLines: int): (t: Bounded)
    ensures maxLines >= 1 ==> BInv(t)
    ensures t.lines == [] && t.maxLines == maxLines
  {
    Bounded([], maxLines, 0, 0, Terminal.UpdateInterval)
  }

  /** add_line at time `now`: when the terminal is full the oldest line is dropped first.
      Popping from an empty list raises, so a terminal with no room and no lines cannot
      take a line. */
  function AddLine(t: Bounded, line: BLine): (r: Bounded)
    requires t.lines != [] || t.maxLines >= 1
    ensures BInv(t) ==> BInv(r)
    ensures r.lines != [] && r.lines[|r.lines| - 1] == line
    ensures IsSuffix(r.lines[..|r.lines| - 1], t.lines)
    ensures |r.lines| == if |t.lines| < t.maxLines then |t.lines| + 1 else |t.lines|
    ensures r.maxLines == t.maxLines && r.dotCount == t.dotCount
  {
    var kept := if |t.lines| >= t.maxLines then t.lines[1..] else t.lines;
    assert (kept + [line])[..|kept|] == kept;
    t.(lines := kept + [line])
  }

  /** update at time `now`: only the dot counter moves. */
  function Update(t: Bounded, now: int): (r: Bounded)
    ensures BInv(t) ==> BInv(r)
    ensures r.lines == t.lines
    ensures now - t.lastUpdate > t.updateInterval ==> r.dotCount == (t.dotCount + 1) % 4
    ensures now - t.lastUpdate <= t.updateInterval ==> r == t
  {
    var (d, l) := Terminal.StepDots(t.dotCount, t.lastUpdate, t.updateInterval, now);
    t.(dotCount := d, lastUpdate := l)
  }

  /** Adding lines one after another. */
  function AddAll(t: Bounded, news: seq<BLine>): Bounded
    requires BInv(t)
    decreases |news|
  {
    if news == [] then t else AddAll(AddLine(t, news[0]), news[1..])
  }

  lemma LastNAppend<T>(s: seq<T>, x: T, n: nat)
    requires n >= 1 && |s| <= n
    ensures LastN(s + [x], n) == (if |s| >= n then s[1..] else s) + [x]
  {
    if |s| >= n {
      assert (s + [x])[|s + [x]| - n..] == s[1..] + [x];
    }
  }

  lemma LastNTwice<T>(a: seq<T>, b: seq<T>, n: nat)
    ensures LastN(LastN(a, n) + b, n) == LastN(a + b, n)
  {
    if |a| > n {
      var k := |a| - n;
      assert a + b == a[..k] + (a[k..] + b);
      assert (a + b)[k..] == a[k..] + b;
    }
  }

  /** A bounded terminal shows exactly the last `maxLines` lines ever added, oldest
      first: dropping one line at a time keeps the same window as cutting at the end. */
  lemma {:induction false} KeepsLastLines(t: Bounded, news: seq<BLine>)
    requires BInv(t)
    ensures AddAll(t, news).lines == LastN(t.lines + news, t.maxLines)
    decreases |news|
  {
    if news == [] {
      assert t.lines + news == t.lines;
    } else {
      var t1 := AddLine(t, news[0]);
      KeepsLastLines(t1, news[1..]);
      WindowStep(t, news);
    }
  }

  /** One addition, then the window of the rest, is the window of everything. */
  lemma WindowStep(t: Bounded, news: seq<BLine>)
    requires BInv(t) && news != []
    ensures var t1 := AddLine(t, news[0]);
            LastN(t1.lines + news[1..], t.maxLines) == LastN(t.lines + news, t.maxLines)
  {
    var t1 := AddLine(t, news[0]);
    LastNAppend(t.lines, news[0], t.maxLines);
    LastNTwice(t.lines + [news[0]], news[1..], t.maxLines);
    assert t.lines + [news[0]] + news[1..] == t.lines + news;
  }

  // ---------------------------------------------------------------- main loop

  const StateLoading := 0
  const StateMenu := 1
  const StatePlaying := 2

  const MenuItems: seq<string> := ["Play", "Exit"]
  const Stages: seq<(string, bool)> := [
    ("Initializing systems", true),
    ("Generating levels", true),
    ("Loading assets", true),
    ("Finalizing setup", true)
  ]
  /** Milliseconds each loading stage stays on screen. */
  const StageDelay := 2000

  datatype Main = Main(state: int, selected: int, running: bool, stage: int, stageStart: int, term: Bounded)

  predicate MInv(m: Main) {
    0 <= m.selected < |MenuItems| && m.stage >= 0 && BInv(m.term)
  }

  /** The loop's starting values at time `now`. */
  function Start(now: int): (m: Main)
    ensures MInv(m) && m.state == StateLoading && m.running && m.stage == 0 && m.term.lines == []
  {
    Main(StateLoading, 0, true, 0, now, NewBounded(DefaultMaxLines))
  }

  datatype Key = Down | Up | Return | OtherKey
  datatype Event = Quit | KeyDown(key: Key) | OtherEvent

  /** One event: quitting stops the loop; in the menu, Down and Up move the selection
      cyclically and Return starts the game or stops the loop. */
  function HandleEvent(m: Main, ev: Event, now: int): (r: Main)
    requires MInv(m)
    ensures MInv(r)
    ensures ev == Quit ==> !r.running && r.state == m.state
    ensures m.state != StateMenu && ev != Quit ==> r == m
    ensures m.state == StateMenu && ev == KeyDown(Down) ==> r.selected == (m.selected + 1) % |MenuItems|
    ensures m.state == StateMenu && ev == KeyDown(Up) ==> r.selected == (m.selected - 1) % |MenuItems|
    ensures m.state == StateMenu && ev == KeyDown(Return) && MenuItems[m.selected] == "Play" ==>
              r.state == StatePlaying && r.running == m.running && |r.term.lines| >= 1 &&
              r.term.lines[|r.term.lines| - 1].text == "> Starting game..."
    ensures m.state == StateMenu && ev == KeyDown(Return) && MenuItems[m.selected] == "Exit" ==>
              !r.running && r.state == StateMenu
  {
    var m1 := if ev == Quit then m.(running := false) else m;
    if m1.state == StateMenu && ev.KeyDown? then
      match ev.key
      case Down => m1.(selected := (m1.selected + 1) % |MenuItems|)
      case Up => m1.(selected := (m1.selected - 1) % |MenuItems|)
      case Return =>
        if MenuItems[m1.selected] == "Play" then
          m1.(state := StatePlaying, term := AddLine(m1.term, BLine("> Starting game...", false, now)))
        else m1.(running := false)
      case OtherKey => m1
    else m1
  }

  /** The per-frame update at time `now`: the dots move, and while loading, once the
      stage delay has passed the next stage's text is added; past the last stage the
      menu opens with two ready lines. */
  function Step(m: Main, now: int): (r: Main)
    requires MInv(m)
    ensures MInv(r)
    ensures m.state != StateLoading || now - m.stageStart <= StageDelay ==>
              r == m.(term := Update(m.term, now))
    ensures m.state == StateLoading && now - m.stageStart > StageDelay ==>
              r.stage == m.stage + 1 && r.stageStart == now
    ensures m.state == StateLoading && now - m.stageStart > StageDelay ==>
              (r.state == StateMenu <==> m.stage + 1 >= |Stages|) && r.running == m.running && r.selected == m.selected
  {
    var t := Update(m.term, now);
    if m.state == StateLoading && now - m.stageStart > StageDelay then
      var stage := m.stage + 1;
      if stage >= |Stages| then
        var t1 := AddLine(t, BLine("> System ready", false, now));
        m.(stage := stage, stageStart := now, state := StateMenu,
           term := AddLine(t1, BLine("> Welcome to THE FINAL STRING", false, now)))
      else
        m.(stage := stage, stageStart := now, term := AddLine(t, BLine(Stages[stage].0, Stages[stage].1, now)))
    else m.(term := t)
  }

  /** Moving down then up in the menu returns to the same entry. */
  lemma DownThenUp(m: Main, now: int)
    requires MInv(m) && m.state == StateMenu
    ensures HandleEvent(HandleEvent(m, KeyDown(Down), now), KeyDown(Up), now).selected == m.selected
  {
  }

  function Texts(lines: seq<BLine>): (r: seq<string>)
    ensures |r| == |lines| && forall k | 0 <= k < |lines| :: r[k] == lines[k].text
  {
    seq(|lines|, k requires 0 <= k < |lines| => lines[k].text)
  }

  /** A loading step that reaches a stage adds that stage's text as the newest line. */
  lemma StageStep(m: Main, now: int)
    requires MInv(m) && m.state == StateLoading && now - m.stageStart > StageDelay
    requires m.stage + 1 < |Stages| && |m.term.lines| < m.term.maxLines
    ensures var r := Step(m, now);
            && r.state == StateLoading && r.stage == m.stage + 1 && r.stageStart == now
            && Texts(r.term.lines) == Texts(m.term.lines) + [Stages[m.stage + 1].0]
  {
  }

  /** The step past the last stage opens the menu and adds the two ready lines. */
  lemma ReadyStep(m: Main, now: int)
    requires MInv(m) && m.state == StateLoading && now - m.stageStart > StageDelay
    requires m.stage + 1 >= |Stages| && |m.term.lines| + 2 <= m.term.maxLines
    ensures var r := Step(m, now);
            && r.state == StateMenu
            && Texts(r.term.lines) == Texts(m.term.lines) + ["> System ready", "> Welcome to THE FINAL STRING"]
  {
  }

  /** Four stage delays after the start the menu is open, showing the later three stage
      texts and the two ready lines; the first stage's text was never shown. */
  lemma LoadingSequence(t0: int)
    ensures var d := StageDelay + 1;
            var m := Step(Step(Step(Step(Start(t0), t0 + d), t0 + 2 * d), t0 + 3 * d), t0 + 4 * d);
            && m.state == StateMenu
            && Texts(m.term.lines) == [Stages[1].0, Stages[2].0, Stages[3].0,
                                       "> System ready", "> Welcome to THE FINAL STRING"]
            && Stages[0].0 !in Texts(m.term.lines)
  {
    var d := StageDelay + 1;
    var m0 := Start(t0);
    assert Texts(m0.term.lines) == [];
    StageStep(m0, t0 + d);
    var m1 := Step(m0, t0 + d);
    StageStep(m1, t0 + 2 * d);
    var m2 := Step(m1, t0 + 2 * d);
    StageStep(m2, t0 + 3 * d);
    var m3 := Step(m2, t0 + 3 * d);
    ReadyStep(m3, t0 + 4 * d);
  }
}

=== FILE: password_ui.dfy ===
/** The older password prompt shown at a door, and the queue of temporary messages.
    The game's rule book and the door are explicit values; the clock is an argument;
    the result callback is an effect outside the model. */
module PasswordUI {
  import opened Text
  import opened Seqs
  import opened GameRules
  import opened Interactables

  const PromptMessage := "Enter a password that follows all the rules:"
  const DefaultDuration := 3000

  datatype Prompt = Prompt(
    visible: bool,
    input: string,
    rules: seq<string>,
    results: map<string, bool>,
    message: string,
    door: Option<Interactable>,
    hasCallback: bool,
    collected: seq<string>)

  /** The constructor: hidden, with nothing typed and no door. */
  function New(): Prompt {
    Prompt(false, "", [], map[], "", None, false, [])
  }

  /** show: visible with an empty input and no results; a missing (or empty) list of
      collected rules becomes the empty list. */
  function Show(p: Prompt, rules: seq<string>, door: Option<Interactable>, hasCallback: bool, collected: Option<seq<string>>): (r: Prompt)
    ensures r.visible && r.input == "" && r.results == map[] && r.message == PromptMessage
    ensures r.rules == rules && r.door == door && r.hasCallback == hasCallback
    ensures collected.Some? ==> r.collected == collected.value
    ensures collected.None? ==> r.collected == []
  {
    Prompt(true, "", rules, map[], PromptMessage, door, hasCallback, collected.GetOr([]))
  }

  /** hide: invisible, input and results emptied; everything else kept. */
  function Hide(p: Prompt): (r: Prompt)
    ensures !r.visible && r.input == "" && r.results == map[]
    ensures r == p.(visible := false, input := "", results := map[])
  {
    p.(visible := false, input := "", results := map[])
  }

  /** _update_validation: with a door, every listed rule is checked against the input
      ("????" never holds); without one the results stay as they were. */
  function UpdateValidation(p: Prompt): (r: Prompt)
    ensures r == p.(results := r.results)
    ensures p.door.Some? ==> r.results.Keys == (set x | x in p.rules)
    ensures p.door.Some? ==> forall x | x in p.rules && x != Unknown :: r.results[x] == CheckRule(p.input, x)
    ensures p.door.None? ==> r == p
  {
    if p.door.Some? then p.(results := ValidateAgainstAll(p.input, p.rules)) else p
  }

  datatype Event = Escape | Return | Backspace | KeyChar(unicode: string) | NotKeyDown

  /** _submit_password against rule book `g`: without a door or a callback nothing
      happens; on success the prompt hides, otherwise it shows the door's message and
      per-rule results. The door itself opens on success. */
  function Submit(p: Prompt, g: GameState): (r: Prompt)
    requires p.door.Some? ==> p.door.value.Door?
    ensures p.door.None? || !p.hasCallback ==> r == p
    ensures p.door.Some? && p.hasCallback ==>
      && (IsPasswordValid(g, p.input) ==> !r.visible && r.input == "")
      && (!IsPasswordValid(g, p.input) ==> r.visible == p.visible && r.input == p.input)
      && r.door.Some? && r.door.value.Door?
      && r.door.value == p.door.value.(isOpen := p.door.value.isOpen || IsPasswordValid(g, p.input))
      && (!IsPasswordValid(g, p.input) ==> r.message == DoorFailedMessage && r.results == ValidatePassword(g, p.input))
    ensures p.door.Some? && p.hasCallback && IsPasswordValid(g, p.input) ==> r == Hide(p.(door := r.door))
    ensures p.door.Some? && p.hasCallback && !IsPasswordValid(g, p.input) ==>
              r == p.(door := r.door, message := r.message, results := r.results)
  {
    if p.door.Some? && p.hasCallback then
      var (door, outcome) := TryPassword(p.door.value, g, p.input);
      var q := p.(door := Some(door));
      if outcome.success then Hide(q)
      else q.(message := outcome.message, results := outcome.results)
    else p
  }

  /** handle_event: hidden prompts and non-key events are not consumed; every key is. */
  function HandleEvent(p: Prompt, ev: Event, g: GameState): (r: (Prompt, bool))
    requires p.door.Some? ==> p.door.value.Door?
    ensures r.1 <==> p.visible && !ev.NotKeyDown?
    ensures !r.1 ==> r.0 == p
    ensures p.visible && ev == Escape ==> r.0 == Hide(p)
    ensures p.visible && ev == Backspace && p.input != "" ==> r.0.input == p.input[..|p.input| - 1]
    ensures p.visible && ev == Backspace && p.input == "" ==> r.0.input == ""
    ensures p.visible && ev.KeyChar? && AllPrintable(ev.unicode) ==> r.0.input == p.input + ev.unicode
    ensures p.visible && ev.KeyChar? && !AllPrintable(ev.unicode) ==> r.0 == p
    ensures p.visible && ev == Return ==> r.0 == Submit(p, g)
    ensures p.visible && ev == Backspace ==>
              r.0 == UpdateValidation(p.(input := if p.input == "" then "" else p.input[..|p.input| - 1]))
    ensures p.visible && ev.KeyChar? && AllPrintable(ev.unicode) ==>
              r.0 == UpdateValidation(p.(input := p.input + ev.unicode))
  {
    if !p.visible then (p, false)
    else
      match ev
      case Escape => (Hide(p), true)
      case Return => (Submit(p, g), true)
      case Backspace =>
        var input := if p.input == "" then "" else p.input[..|p.input| - 1];
        (UpdateValidation(p.(input := input)), true)
      case KeyChar(u) =>
        if AllPrintable(u) then (UpdateValidation(p.(input := p.input + u)), true) else (p, true)
      case NotKeyDown => (p, false)
  }

  /** Typing a character and deleting it gives back the input. */
  lemma TypeThenBackspace(p: Prompt, c: char, g: GameState)
    requires p.visible && IsPrintable(c)
    requires p.door.Some? ==> p.door.value.Door?
    ensures var (q, _) := HandleEvent(p, KeyChar([c]), g);
            HandleEvent(q, Backspace, g).0.input == p.input
  {
    var (q, _) := HandleEvent(p, KeyChar([c]), g);
    assert q.input == p.input + [c];
    assert (p.input + [c])[..|p.input|] == p.input;
  }

  /** After an edit at a door, every listed rule shows whether the new input meets it. */
  lemma EditsRevalidate(p: Prompt, ev: Event, g: GameState)
    requires p.visible && p.door.Some? && p.door.value.Door?
    requires ev == Backspace || (ev.KeyChar? && AllPrintable(ev.unicode))
    ensures var q := HandleEvent(p, ev, g).0;
            && q.results.Keys == (set x | x in p.rules)
            && forall x | x in p.rules && x != Unknown :: q.results[x] == CheckRule(q.input, x)
  {
  }

  /** A correct password opens the door and closes the prompt; a wrong one leaves the
      door as it was and the prompt open. */
  lemma SubmitOpensOnlyWhenValid(p: Prompt, g: GameState)
    requires p.visible && p.door.Some? && p.door.value.Door? && p.hasCallback
    ensures var q := HandleEvent(p, Return, g).0;
            && (IsPasswordValid(g, p.input) ==> !q.visible && q.door.value.isOpen)
            && (!IsPasswordValid(g, p.input) ==> q.visible && q.door.value.isOpen == p.door.value.isOpen)
  {
  }

  // ---------------------------------------------------------------- messages

  /** A queued message: text, time shown, duration, all in milliseconds. */
  type Message = (string, int, int)

  predicate Alive(m: Message, now: int) { now - m.1 < m.2 }

  /** MessageUI.show_message: the message joins the end of the queue. */
  function ShowMessage(ms: seq<Message>, text: string, now: int, duration: int): (r: seq<Message>)
    ensures |r| == |ms| + 1 && r[..|ms|] == ms && r[|ms|] == (text, now, duration)
  {
    ms + [(text, now, duration)]
  }

  /** MessageUI.update: the messages still alive at `now`, in their order. */
  function UpdateMessages(ms: seq<Message>, now: int): (r: seq<Message>)
    ensures IsSubsequence(r, ms)
    ensures forall k | 0 <= k < |r| :: Alive(r[k], now)
    ensures forall m | m in ms && Alive(m, now) :: m in r
    ensures forall m :: multiset(r)[m] == if Alive(m, now) then multiset(ms)[m] else 0
    decreases |ms|
  {
    if ms == [] then []
    else
      var rest := UpdateMessages(ms[1..], now);
      assert ms == [ms[0]] + ms[1..];
      if Alive(ms[0], now) then
        assert ([ms[0]] + rest)[1..] == rest;
        [ms[0]] + rest
      else
        SubsequenceSkip(rest, ms);
        rest
  }

  /** Dropping the head of the longer sequence keeps a subsequence one. */
  lemma SubsequenceSkip<T>(sub: seq<T>, s: seq<T>)
    requires s != [] && IsSubsequence(sub, s[1..])
    ensures IsSubsequence(sub, s)
    decreases |s|, 0
  {
    if sub != [] && sub[0] == s[0] {
      SubsequenceTail(sub, s[1..]);
    }
  }

  lemma SubsequenceTail<T>(sub: seq<T>, s: seq<T>)
    requires sub != [] && IsSubsequence(sub, s)
    ensures IsSubsequence(sub[1..], s)
    decreases |s|, 1
  {
    if s != [] {
      if sub[0] == s[0] {
        SubsequenceSkip(sub[1..], s);
      } else {
        SubsequenceTail(sub, s[1..]);
        SubsequenceSkip(sub[1..], s);
      }
    }
  }

  /** A message alive at a later time was alive earlier, so updating at an earlier time
      first changes nothing. */
  lemma {:induction false} UpdateLaterAbsorbs(ms: seq<Message>, t1: int, t2: int)
    requires t1 <= t2
    ensures UpdateMessages(UpdateMessages(ms, t1), t2) == UpdateMessages(ms, t2)
    decreases |ms|
  {
    if ms != [] {
      UpdateLaterAbsorbs(ms[1..], t1, t2);
      var rest := UpdateMessages(ms[1..], t1);
      if Alive(ms[0], t1) {
        assert ([ms[0]] + rest)[0] == ms[0] && ([ms[0]] + rest)[1..] == rest;
      }
    }
  }

  /** Updating twice at the same time is updating once. */
  lemma UpdateIdempotent(ms: seq<Message>, now: int)
    ensures UpdateMessages(UpdateMessages(ms, now), now) == UpdateMessages(ms, now)
  {
    UpdateLaterAbsorbs(ms, now, now);
  }

  /** A message shown now with a positive duration survives an update at the same time. */
  lemma FreshMessageSurvives(ms: seq<Message>, text: string, now: int, duration: int)
    requires duration > 0
    ensures (text, now, duration) in UpdateMessages(ShowMessage(ms, text, now, duration), now)
  {
    assert ShowMessage(ms, text, now, duration)[|ms|] == (text, now, duration);
  }
}

=== FILE: rule_count_patch.dfy ===
/** The maintenance script that stamps a level document's metadata with its rule count.
    Reading and writing the file are left out; the document is a JSON value and the
    script's result is None where Python raises and the script reports failure. */
module RuleCountPatch {
  import opened Text

  datatype Json =
    | JNull
    | JBool(b: bool)
    | JNum(n: int)
    | JStr(s: string)
    | JArr(items: seq<Json>)
    | JObj(fields: map<string, Json>)

  const MetadataKey := "metadata"
  const RuleCountKey := "rule_count"

  /** The patch applies to a top-level object whose metadata, if present, is an object. */
  predicate Patchable(doc: Json) {
    doc.JObj? && (MetadataKey in doc.fields ==> doc.fields[MetadataKey].JObj?)
  }

  /** add_rule_count_to_level on the parsed document: a missing "metadata" becomes an
      empty object, and then its "rule_count" is set. Anything else fails with a
      TypeError, which the script catches. */
  function AddRuleCount(doc: Json, count: int): (r: Option<Json>)
    ensures r.Some? <==> Patchable(doc)
  {
    if !doc.JObj? then None
    else
      var meta := if MetadataKey in doc.fields then doc.fields[MetadataKey] else JObj(map[]);
      if !meta.JObj? then None
      else Some(JObj(doc.fields[MetadataKey := JObj(meta.fields[RuleCountKey := JNum(count)])]))
  }

  /** After the patch, the rule count is the given one and nothing else changed: the
      other top-level keys and the other metadata keys keep their values. */
  lemma PatchSetsOnlyRuleCount(doc: Json, count: int)
    requires Patchable(doc)
    ensures var r := AddRuleCount(doc, count).value;
            && r.JObj? && r.fields.Keys == doc.fields.Keys + {MetadataKey}
            && r.fields[MetadataKey].JObj?
            && RuleCountKey in r.fields[MetadataKey].fields
            && r.fields[MetadataKey].fields[RuleCountKey] == JNum(count)
            && (forall k | k in doc.fields && k != MetadataKey :: r.fields[k] == doc.fields[k])
            && (MetadataKey in doc.fields ==>
                  forall k | k in doc.fields[MetadataKey].fields && k != RuleCountKey ::
                    k in r.fields[MetadataKey].fields && r.fields[MetadataKey].fields[k] == doc.fields[MetadataKey].fields[k])
            && (MetadataKey !in doc.fields ==> r.fields[MetadataKey] == JObj(map[RuleCountKey := JNum(count)]))
  {
  }

  /** Patching twice with the same count is patching once. */
  lemma PatchIdempotent(doc: Json, count: int)
    requires Patchable(doc)
    ensures AddRuleCount(doc, count).Some?
    ensures AddRuleCount(AddRuleCount(doc, count).value, count) == AddRuleCount(doc, count)
  {
    var r := AddRuleCount(doc, count).value;
    var meta := r.fields[MetadataKey];
    assert meta.fields[RuleCountKey := JNum(count)] == meta.fields;
    assert r.fields[MetadataKey := JObj(meta.fields)] == r.fields;
  }

  /** The last patch wins: patching with one count and then another is patching with
      the second. */
  lemma PatchOverwrites(doc: Json, c1: int, c2: int)
    requires Patchable(doc)
    ensures AddRuleCount(doc, c1).Some?
    ensures AddRuleCount(AddRuleCount(doc, c1).value, c2) == AddRuleCount(doc, c2)
  {
    var m0 := if MetadataKey in doc.fields then doc.fields[MetadataKey].fields else map[];
    assert m0[RuleCountKey := JNum(c1)][RuleCountKey := JNum(c2)] == m0[RuleCountKey := JNum(c2)];
    var f1 := doc.fields[MetadataKey := JObj(m0[RuleCountKey := JNum(c1)])];
    assert f1[MetadataKey := JObj(m0[RuleCountKey := JNum(c2)])] == doc.fields[MetadataKey := JObj(m0[RuleCountKey := JNum(c2)])];
  }
}

=== FILE: selectable_text.dfy ===
/** The read-only, scrollable, selectable text view of the password judge: the text is
    split into lines at '\n', a window of lines is visible, and a mouse selection is kept
    as two character indices into the text. Fonts give the line height and the widths of
    line prefixes; both are inputs. */
module SelectableText {
  import opened Text

  type Color = (int, int, int)

  datatype View = View(
    text: string,
    lines: seq<string>,
    colors: seq<Color>,
    defaultColor: Color,
    selStart: Option<nat>,
    selEnd: Option<nat>,
    selecting: bool,
    scroll: int,
    maxVisible: nat,
    maxScroll: nat,
    height: int,
    lineHeight: int)

  /** How many lines fit: at least one. Python's `//` is floor division, as Dafny's `/`
      is for a positive divisor. */
  function VisibleLines(height: int, lineHeight: int): nat
    requires lineHeight > 0
  {
    Max(1, height / lineHeight)
  }

  function MaxScroll(lines: seq<string>, maxVisible: nat): nat {
    Max(0, |lines| - maxVisible)
  }

  /** The lines are the text's '\n'-separated pieces, the scroll bounds follow from them,
      and the offset lies within the bounds. */
  predicate Inv(v: View) {
    && v.lineHeight > 0
    && v.lines == Split(v.text, '\n')
    && v.maxVisible == VisibleLines(v.height, v.lineHeight)
    && v.maxScroll == MaxScroll(v.lines, v.maxVisible)
    && 0 <= v.scroll <= v.maxScroll
  }

  /** `[d] * n` */
  function Repeat(d: Color, n: nat): (r: seq<Color>)
    ensures |r| == n && forall k | 0 <= k < n :: r[k] == d
  {
    if n == 0 then [] else Repeat(d, n - 1) + [d]
  }

  /** The constructor: one default colour per line, no selection, scrolled to the top. */
  function Create(text: string, color: Color, height: int, lineHeight: int): (v: View)
    requires lineHeight > 0
    ensures Inv(v)
    ensures v.scroll == 0 && v.selStart.None? && v.selEnd.None? && !v.selecting
    ensures |v.colors| == |v.lines| && forall k | 0 <= k < |v.colors| :: v.colors[k] == color
    ensures Join(v.lines, "\n") == text
  {
    var lines := Split(text, '\n');
    var mv := VisibleLines(height, lineHeight);
    View(text, lines, Repeat(color, |lines|), color, None, None, false, 0, mv, MaxScroll(lines, mv), height, lineHeight)
  }

  /** set_line_colors: the given colours, padded with the default up to one per line. */
  function SetLineColors(v: View, colors: seq<Color>): (r: View)
    ensures r == v.(colors := r.colors)
    ensures |r.colors| == Max(|colors|, |v.lines|)
    ensures r.colors[..|colors|] == colors
    ensures forall k | |colors| <= k < |r.colors| :: r.colors[k] == v.defaultColor
  {
    v.(colors := colors + Repeat(v.defaultColor, Max(0, |v.lines| - |colors|)))
  }

  /** update_content as written: the offset jumps to the bottom only when the new text
      overflows the view, and is otherwise left as it was. */
  function UpdateContentAsWritten(v: View, text: string): (r: View)
    requires v.lineHeight > 0
    ensures r.lines == Split(text, '\n') && r.text == text
    ensures r.maxScroll > 0 ==> r.scroll == r.maxScroll
    ensures r.maxScroll == 0 ==> r.scroll == v.scroll
  {
    var lines := Split(text, '\n');
    var mv := VisibleLines(v.height, v.lineHeight);
    var ms := MaxScroll(lines, mv);
    v.(text := text, lines := lines, colors := Repeat(v.defaultColor, |lines|), maxVisible := mv, maxScroll := ms,
       scroll := if ms > 0 then ms else v.scroll)
  }

  /** update_content with the offset kept in bounds: to the bottom, which is the top when
      the new text fits. Every line colour is reset to the default. */
  function UpdateContent(v: View, text: string): (r: View)
    requires v.lineHeight > 0
    ensures Inv(r)
    ensures r.text == text && r.scroll == r.maxScroll
    ensures |r.colors| == |r.lines| && forall k | 0 <= k < |r.colors| :: r.colors[k] == v.defaultColor
    ensures r.selStart == v.selStart && r.selEnd == v.selEnd && r.selecting == v.selecting
  {
    var lines := Split(text, '\n');
    var mv := VisibleLines(v.height, v.lineHeight);
    var ms := MaxScroll(lines, mv);
    v.(text := text, lines := lines, colors := Repeat(v.defaultColor, |lines|), maxVisible := mv, maxScroll := ms,
       scroll := ms)
  }

  function ScrollToTop(v: View): (r: View)
    ensures Inv(v) ==> Inv(r)
    ensures r == v.(scroll := 0)
  {
    v.(scroll := 0)
  }

  function ScrollToBottom(v: View): (r: View)
    ensures Inv(v) ==> Inv(r)
    ensures r == v.(scroll := v.maxScroll)
  {
    v.(scroll := v.maxScroll)
  }

  /** handle_scroll: move by `d` lines, clamped to [0, max_scroll]; report a change. */
  function HandleScroll(v: View, d: int): (r: (View, bool))
    ensures r.0 == v.(scroll := r.0.scroll)
    ensures 0 <= r.0.scroll <= v.maxScroll
    ensures 0 <= v.scroll + d <= v.maxScroll ==> r.0.scroll == v.scroll + d
    ensures v.scroll + d < 0 ==> r.0.scroll == 0
    ensures v.scroll + d > v.maxScroll ==> r.0.scroll == v.maxScroll
    ensures r.1 <==> r.0.scroll != v.scroll
    ensures Inv(v) ==> Inv(r.0)
  {
    var s := Max(0, Min(v.maxScroll, v.scroll + d));
    (v.(scroll := s), s != v.scroll)
  }

  /** The number of lines the view draws: from the offset to the end of the window or
      of the text, whichever comes first. */
  function VisibleCount(v: View): int {
    Max(0, Min(|v.lines|, v.scroll + v.maxVisible) - v.scroll)
  }

  // ---------------------------------------------------------------- positions

  /** The index in the text of line `k`'s first character: each earlier line and its '\n'. */
  function LineStart(lines: seq<string>, k: nat): nat
    requires k <= |lines|
  {
    if k == 0 then 0 else |lines[0]| + 1 + LineStart(lines[1..], k - 1)
  }

  /** The first `n` characters of `line` are no wider than `relX`. */
  predicate PrefixFits(line: string, measure: string -> int, relX: int, n: nat)
    requires n <= |line|
  {
    measure(line[..n]) <= relX
  }

  /** The loop over a line's characters: the first `i` whose prefix of `i + 1` characters
      is wider than `relX`, or the line's length when none is. */
  function CharIndexFrom(line: string, measure: string -> int, relX: int, i: nat): (r: nat)
    requires i <= |line|
    ensures i <= r <= |line|
    ensures forall n | i < n <= r :: PrefixFits(line, measure, relX, n)
    ensures r < |line| ==> !PrefixFits(line, measure, relX, r + 1)
    decreases |line| - i
  {
    if i == |line| then |line|
    else if measure(line[..i + 1]) > relX then i
    else CharIndexFrom(line, measure, relX, i + 1)
  }

  /** The line a window row falls on, clamped to the text's lines. */
  function RowLine(v: View, row: int): (li: nat)
    requires v.lines != []
    ensures li < |v.lines|
  {
    Min(Max(0, row + v.scroll), |v.lines| - 1)
  }

  /** _pos_to_char_index once the mouse is turned into a window row and an x offset.
      _pos_to_char_index's fallback for a line index past the end cannot be taken:
      splitting always yields a line. */
  function PosToCharIndex(v: View, row: int, relX: int, measure: string -> int): (r: nat)
    requires v.lines != []
    ensures r <= |v.text|
  {
    var li := RowLine(v, row);
    Min(LineStart(v.lines, li) + CharIndexFrom(v.lines[li], measure, relX, 0), |v.text|)
  }

  /** get_selected_text: the text between the two ends, "" unless both are set. */
  function SelectedText(v: View): (r: string)
    ensures v.selStart.None? || v.selEnd.None? ==> r == ""
    ensures v.selStart.Some? && v.selEnd.Some? ==>
              && r == Slice(v.text, Min(v.selStart.value, v.selEnd.value), Max(v.selStart.value, v.selEnd.value))
              && |r| <= Max(v.selStart.value, v.selEnd.value) - Min(v.selStart.value, v.selEnd.value)
    ensures v.selStart.Some? && v.selEnd.Some? && Max(v.selStart.value, v.selEnd.value) <= |v.text| ==>
              r == v.text[Min(v.selStart.value, v.selEnd.value)..Max(v.selStart.value, v.selEnd.value)]
  {
    if v.selStart.Some? && v.selEnd.Some? then
      Slice(v.text, Min(v.selStart.value, v.selEnd.value), Max(v.selStart.value, v.selEnd.value))
    else ""
  }

  // ---------------------------------------------------------------- mouse

  /** handle_mouse_down: inside the view a selection starts with both ends at the point. */
  function MouseDown(v: View, inside: bool, row: int, relX: int, measure: string -> int): (r: (View, bool))
    requires v.lines != []
    ensures r.1 == inside
    ensures !inside ==> r.0 == v
    ensures inside ==> r.0.selecting && r.0.selStart == r.0.selEnd && r.0.selStart.Some? &&
                       r.0.selStart.value <= |v.text| && SelectedText(r.0) == ""
    ensures inside ==> r.0.selStart == Some(PosToCharIndex(v, row, relX, measure))
    ensures Inv(v) ==> Inv(r.0)
  {
    if inside then
      var p := PosToCharIndex(v, row, relX, measure);
      (v.(selStart := Some(p), selEnd := Some(p), selecting := true), true)
    else (v, false)
  }

  /** handle_mouse_drag: only while selecting, the free end follows the mouse. */
  function MouseDrag(v: View, row: int, relX: int, measure: string -> int): (r: (View, bool))
    requires v.lines != []
    ensures r.1 == v.selecting
    ensures !v.selecting ==> r.0 == v
    ensures v.selecting ==> r.0.selStart == v.selStart && r.0.selEnd.Some? && r.0.selEnd.value <= |v.text|
    ensures v.selecting ==> r.0.selEnd == Some(PosToCharIndex(v, row, relX, measure))
    ensures Inv(v) ==> Inv(r.0)
  {
    if v.selecting then (v.(selEnd := Some(PosToCharIndex(v, row, relX, measure))), true)
    else (v, false)
  }

  /** handle_mouse_up: ends a selection in progress, keeping its ends. */
  function MouseUp(v: View): (r: (View, bool))
    ensures r.1 == v.selecting
    ensures !r.0.selecting && r.0 == v.(selecting := false)
  {
    (v.(selecting := false), v.selecting)
  }

  // ---------------------------------------------------------------- lemmas

  /** Each line sits in the text at its start index. */
  lemma {:induction false} LineInText(lines: seq<string>, text: string, k: nat)
    requires Join(lines, "\n") == text && k < |lines|
    ensures LineStart(lines, k) + |lines[k]| <= |text|
    ensures text[LineStart(lines, k)..LineStart(lines, k) + |lines[k]|] == lines[k]
  {
    if k > 0 {
      var rest := Join(lines[1..], "\n");
      assert |lines| > 1;
      assert text == lines[0] + "\n" + rest;
      LineInText(lines[1..], rest, k - 1);
      var s := LineStart(lines[1..], k - 1);
      assert text[|lines[0]| + 1..] == rest;
      assert text[|lines[0]| + 1 + s..|lines[0]| + 1 + s + |lines[k]|] == rest[s..s + |lines[k]|];
    } else {
      if |lines| > 1 {
        assert text == lines[0] + ("\n" + Join(lines[1..], "\n"));
      }
    }
  }

  /** A mouse position resolves to the character it points at: the index is the line's
      start plus the column, and the text holds the line's character there. */
  lemma PointsAtCharacter(v: View, row: int, relX: int, measure: string -> int)
    requires v.lines != [] && Join(v.lines, "\n") == v.text
    ensures var li := RowLine(v, row);
            var ci := CharIndexFrom(v.lines[li], measure, relX, 0);
            && PosToCharIndex(v, row, relX, measure) == LineStart(v.lines, li) + ci
            && (ci < |v.lines[li]| ==>
                  LineStart(v.lines, li) + ci < |v.text| && v.text[LineStart(v.lines, li) + ci] == v.lines[li][ci])
  {
    var li := RowLine(v, row);
    var line := v.lines[li];
    var st := LineStart(v.lines, li);
    LineInText(v.lines, v.text, li);
    var ci := CharIndexFrom(line, measure, relX, 0);
    if ci < |line| {
      assert v.text[st..st + |line|][ci] == line[ci];
    }
  }

  /** The selected text does not depend on which end is the anchor. */
  lemma SelectionSymmetric(v: View)
    ensures SelectedText(v) == SelectedText(v.(selStart := v.selEnd, selEnd := v.selStart))
  {
  }

  /** In a view that keeps its invariant, at least one line is drawn. */
  lemma SomeLineVisible(v: View)
    requires Inv(v)
    ensures VisibleCount(v) >= 1
  {
  }

  /** update_content as written can leave the offset past the new text: once a long text
      has been scrolled, a one-line text is drawn as no lines at all. The bounded update
      draws it. */
  lemma StaleScrollHidesText(v: View, text: string)
    requires Inv(v) && v.scroll >= 1 && '\n' !in text
    ensures |UpdateContentAsWritten(v, text).lines| == 1
    ensures VisibleCount(UpdateContentAsWritten(v, text)) == 0
    ensures VisibleCount(UpdateContent(v, text)) == 1
  {
    var lines := Split(text, '\n');
    SplitCount(text, '\n');
    assert Count(text, '\n') == 0 by { NoSepNoCount(text, '\n'); }
  }

  lemma {:induction false} NoSepNoCount(s: string, c: char)
    requires c !in s
    ensures Count(s, c) == 0
  {
    if s != [] {
      NoSepNoCount(s[1..], c);
    }
  }

  /** A long text scrolled to its bottom, then replaced by a one-line text. */
  lemma StaleScrollExample()
    ensures var v := UpdateContent(Create("", (0, 0, 0), 10, 10), "a\nb");
            v.scroll == 1 && VisibleCount(UpdateContentAsWritten(v, "c")) == 0
  {
    var v := UpdateContent(Create("", (0, 0, 0), 10, 10), "a\nb");
    SplitCount("a\nb", '\n');
    assert Count("a\nb", '\n') == 1;
    StaleScrollHidesText(v, "c");
  }
}

=== FILE: seqs.dfy ===
/** Generic sequence helpers: duplicate-freedom and the first-occurrence order that
    Python's insertion-ordered `dict` and the "append if absent" idiom both produce. */
module Seqs {

  predicate NoDuplicates<T(==)>(s: seq<T>) {
    forall i, j | 0 <= i < j < |s| :: s[i] != s[j]
  }

  /** The elements of `s` in the order they first appear, each once. */
  function FirstOccurrences<T(==,!new)>(s: seq<T>): (r: seq<T>)
    ensures NoDuplicates(r)
    ensures forall x :: x in r <==> x in s
    ensures |r| <= |s|
  {
    if s == [] then []
    else
      var front := FirstOccurrences(s[..|s| - 1]);
      var last := s[|s| - 1];
      assert s == s[..|s| - 1] + [last];
      if last in front then front else front + [last]
  }

  lemma FirstOccurrencesOfUnique<T(!new)>(s: seq<T>)
    requires NoDuplicates(s)
    ensures FirstOccurrences(s) == s
  {
    if s != [] {
      FirstOccurrencesOfUnique(s[..|s| - 1]);
      assert s == s[..|s| - 1] + [s[|s| - 1]];
    }
  }

  /** Index of the first occurrence of `x` in `s` (Python's `list.index`). */
  function IndexOf<T(==)>(s: seq<T>, x: T): (r: nat)
    requires x in s
    ensures r < |s| && s[r] == x
    ensures forall j | 0 <= j < r :: s[j] != x
  {
    if s[0] == x then 0 else 1 + IndexOf(s[1..], x)
  }

  /** Where a prefix holds `x`, searching the longer sequence stops in the prefix. */
  lemma {:induction false} IndexOfInPrefix<T>(p: seq<T>, q: seq<T>, x: T)
    requires x in p
    ensures IndexOf(p + q, x) == IndexOf(p, x)
  {
    if p[0] != x {
      assert (p + q)[1..] == p[1..] + q;
      IndexOfInPrefix(p[1..], q, x);
    }
  }

  /** Where a prefix lacks `x`, the search passes the whole prefix. */
  lemma {:induction false} IndexOfPastPrefix<T>(p: seq<T>, q: seq<T>, x: T)
    requires x !in p && x in q
    ensures IndexOf(p + q, x) == |p| + IndexOf(q, x)
  {
    if p == [] {
      assert p + q == q;
    } else {
      assert (p + q)[0] == p[0] != x;
      assert (p + q)[1..] == p[1..] + q;
      IndexOfPastPrefix(p[1..], q, x);
    }
  }

  /** The first-occurrence list is ordered by where each element first appears: it is
      the order in which an insertion-ordered `dict` lists its keys. */
  lemma {:induction false} FirstOccurrencesOrdered<T(!new)>(s: seq<T>)
    ensures forall i, j | 0 <= i < j < |FirstOccurrences(s)| ::
              IndexOf(s, FirstOccurrences(s)[i]) < IndexOf(s, FirstOccurrences(s)[j])
  {
    if s != [] {
      var p := s[..|s| - 1];
      var last := s[|s| - 1];
      assert s == p + [last];
      var front := FirstOccurrences(p);
      FirstOccurrencesOrdered(p);
      forall x | x in p ensures IndexOf(s, x) == IndexOf(p, x) {
        IndexOfInPrefix(p, [last], x);
      }
      if last !in front {
        IndexOfPastPrefix(p, [last], last);
        assert IndexOf(s, last) == |p|;
      }
    }
  }

  /** The sequences of `ss` one after another. */
  function Flatten<T>(ss: seq<seq<T>>): seq<T> {
    if ss == [] then [] else ss[0] + Flatten(ss[1..])
  }

  predicate IsPrefix<T(==)>(p: seq<T>, s: seq<T>) {
    |p| <= |s| && s[..|p|] == p
  }

  predicate IsSuffix<T(==)>(s: seq<T>, t: seq<T>) {
    |s| <= |t| && t[|t| - |s|..] == s
  }

  /** The index of the first element satisfying `p`, or 0 when none does: a `for` loop
      that breaks at the first match, with 0 as its starting value. */
  function FirstMatchOrZero<T>(s: seq<T>, p: T -> bool): (r: nat)
    ensures (exists j | 0 <= j < |s| :: p(s[j])) ==> r < |s| && p(s[r]) && forall j | 0 <= j < r :: !p(s[j])
    ensures (forall j | 0 <= j < |s| :: !p(s[j])) ==> r == 0
  {
    if s == [] then 0
    else if p(s[0]) then 0
    else
      var rest := FirstMatchOrZero(s[1..], p);
      if exists j | 0 <= j < |s| - 1 :: p(s[1..][j]) then
        assert p(s[1..][rest]);
        1 + rest
      else
        assert forall j | 0 <= j < |s| :: !p(s[j]) by {
          forall j | 1 <= j < |s| ensures !p(s[j]) { assert s[j] == s[1..][j - 1]; }
        }
        0
  }

  /** The last `n` elements of `s`, or all of it when it is shorter. */
  function LastN<T>(s: seq<T>, n: nat): (r: seq<T>)
    ensures |r| == if |s| < n then |s| else n
  {
    if |s| <= n then s else s[|s| - n..]
  }

  /** `sub` is `s` with some elements removed, the rest kept in order. */
  predicate IsSubsequence<T(==)>(sub: seq<T>, s: seq<T>)
    decreases |s|
  {
    if sub == [] then true
    else if s == [] then false
    else if sub[0] == s[0] then IsSubsequence(sub[1..], s[1..])
    else IsSubsequence(sub, s[1..])
  }
}

=== FILE: shapes.dfy ===
/** The coordinate generators used to place multi-tile objects: filled rectangles
    (row by row), straight or diagonal lines, and plus-shaped crosses. */
module Shapes {
  import opened Text
  import opened Seqs

  type Coord = (int, int)

  function Max0(v: int): nat { if v > 0 then v else 0 }

  // ---------------------------------------------------------------- rectangle

  /** Row `y` from `sx` on, `w` cells long, left to right. */
  function Row(sx: int, y: int, w: int): (r: seq<Coord>)
    ensures |r| == Max0(w)
    ensures forall k | 0 <= k < |r| :: r[k] == (sx + k, y)
    decreases Max0(w)
  {
    if w <= 0 then [] else Row(sx, y, w - 1) + [(sx + w - 1, y)]
  }

  /** The reference rectangle: `h` rows from `sy` down, each a Row. */
  function Rect(sx: int, sy: int, w: int, h: int): seq<Coord>
    decreases Max0(h)
  {
    if h <= 0 then [] else Rect(sx, sy, w, h - 1) + Row(sx, sy + h - 1, w)
  }

  /** The rectangle holds width * height cells, exactly the cells inside it, each once. */
  lemma RectShape(sx: int, sy: int, w: int, h: int)
    ensures |Rect(sx, sy, w, h)| == Max0(w) * Max0(h)
    ensures forall c :: c in Rect(sx, sy, w, h) <==> sx <= c.0 < sx + w && sy <= c.1 < sy + h
    ensures NoDuplicates(Rect(sx, sy, w, h))
  {
    RectSize(sx, sy, w, h);
    RectCells(sx, sy, w, h);
    RectDistinct(sx, sy, w, h);
  }

  lemma {:induction false} RectSize(sx: int, sy: int, w: int, h: int)
    ensures |Rect(sx, sy, w, h)| == Max0(w) * Max0(h)
    decreases Max0(h)
  {
    if h > 0 {
      RectSize(sx, sy, w, h - 1);
      assert Max0(h) == Max0(h - 1) + 1;
      assert Max0(w) * Max0(h) == Max0(w) * Max0(h - 1) + Max0(w);
    }
  }

  lemma {:induction false} RectCells(sx: int, sy: int, w: int, h: int)
    ensures forall c :: c in Rect(sx, sy, w, h) <==> sx <= c.0 < sx + w && sy <= c.1 < sy + h
    decreases Max0(h)
  {
    if h > 0 {
      RectCells(sx, sy, w, h - 1);
      RowCells(sx, sy + h - 1, w);
    }
  }

  lemma {:induction false} RectDistinct(sx: int, sy: int, w: int, h: int)
    ensures NoDuplicates(Rect(sx, sy, w, h))
    decreases Max0(h)
  {
    if h > 0 {
      RectDistinct(sx, sy, w, h - 1);
      RectCells(sx, sy, w, h - 1);
      RowCells(sx, sy + h - 1, w);
      DistinctAppend(Rect(sx, sy, w, h - 1), Row(sx, sy + h - 1, w));
    }
  }

  /** A row holds exactly the cells of its line segment. */
  lemma RowCells(sx: int, y: int, w: int)
    ensures forall c :: c in Row(sx, y, w) <==> sx <= c.0 < sx + w && c.1 == y
  {
    forall c: Coord | sx <= c.0 < sx + w && c.1 == y ensures c in Row(sx, y, w) {
      assert Row(sx, y, w)[c.0 - sx] == c;
    }
  }

  /** Two duplicate-free sequences with nothing in common join without duplicates. */
  lemma DistinctAppend<T>(a: seq<T>, b: seq<T>)
    requires NoDuplicates(a) && NoDuplicates(b)
    requires forall x | x in a :: x !in b
    ensures NoDuplicates(a + b)
  {
    var all := a + b;
    forall i, j | 0 <= i < j < |all| ensures all[i] != all[j] {
      if j < |a| {
        assert all[i] == a[i] && all[j] == a[j];
      } else if i >= |a| {
        assert all[i] == b[i - |a|] && all[j] == b[j - |a|];
      } else {
        assert all[i] == a[i] && a[i] in a && all[j] == b[j - |a|] && b[j - |a|] in b;
      }
    }
  }

  /** create_rectangle_coords: rows (y) outer, columns (x) inner. */
  method RectangleCoords(sx: int, sy: int, width: int, height: int) returns (coords: seq<Coord>)
    ensures coords == Rect(sx, sy, width, height)
    ensures |coords| == Max0(width) * Max0(height)
    ensures forall c :: c in coords <==> sx <= c.0 < sx + width && sy <= c.1 < sy + height
    ensures NoDuplicates(coords)
  {
    coords := [];
    var y := sy;
    while y < sy + height
      invariant height > 0 ==> sy <= y <= sy + height
      invariant height <= 0 ==> y == sy
      invariant coords == Rect(sx, sy, width, y - sy)
      decreases sy + height - y
    {
      var x := sx;
      var row := [];
      while x < sx + width
        invariant width > 0 ==> sx <= x <= sx + width
        invariant width <= 0 ==> x == sx
        invariant row == Row(sx, y, x - sx)
        decreases sx + width - x
      {
        row := row + [(x, y)];
        x := x + 1;
      }
      coords := coords + row;
      y := y + 1;
    }
    RectShape(sx, sy, width, height);
  }

  // ---------------------------------------------------------------- line

  function Sign(v: int): int { if v > 0 then 1 else if v < 0 then -1 else 0 }

  /** k steps of size Sign(d): k, -k or 0. */
  function Steps(k: int, d: int): int { if d > 0 then k else if d < 0 then -k else 0 }

  /** The loop of create_line_coords ends only when the end point lies on a row, a
      column or a 45-degree diagonal through the start. */
  predicate Reachable(sx: int, sy: int, ex: int, ey: int) {
    sx == ex || sy == ey || Abs(ex - sx) == Abs(ey - sy)
  }

  /** create_line_coords: from the start, one step of (sign dx, sign dy) at a time,
      up to and including the end point. */
  method LineCoords(sx: int, sy: int, ex: int, ey: int) returns (coords: seq<Coord>)
    requires Reachable(sx, sy, ex, ey)
    ensures |coords| == (if Abs(ex - sx) >= Abs(ey - sy) then Abs(ex - sx) else Abs(ey - sy)) + 1
    ensures coords[0] == (sx, sy) && coords[|coords| - 1] == (ex, ey)
    ensures forall k | 0 <= k < |coords| :: coords[k] == (sx + Steps(k, ex - sx), sy + Steps(k, ey - sy))
    ensures NoDuplicates(coords)
  {
    var dx := Sign(ex - sx);
    var dy := Sign(ey - sy);
    var n := if Abs(ex - sx) >= Abs(ey - sy) then Abs(ex - sx) else Abs(ey - sy);
    var x, y := sx, sy;
    coords := [(x, y)];
    var k := 0;
    while !(x == ex && y == ey)
      invariant 0 <= k <= n
      invariant x == sx + Steps(k, ex - sx) && y == sy + Steps(k, ey - sy)
      invariant |coords| == k + 1
      invariant forall i | 0 <= i <= k :: coords[i] == (sx + Steps(i, ex - sx), sy + Steps(i, ey - sy))
      invariant (x == ex && y == ey) <==> k == n
      decreases n - k
    {
      x := x + dx;
      y := y + dy;
      k := k + 1;
      coords := coords + [(x, y)];
    }
    assert forall i, j | 0 <= i < j < |coords| :: coords[i] != coords[j] by {
      forall i, j | 0 <= i < j < |coords| ensures coords[i] != coords[j] {
        if ex != sx {
          assert coords[i].0 != coords[j].0;
        } else {
          assert ey != sy;
          assert coords[i].1 != coords[j].1;
        }
      }
    }
  }

  /** Where the loop of create_line_coords stands after `k` steps. */
  function LinePoint(sx: int, sy: int, ex: int, ey: int, k: nat): Coord {
    (sx + Steps(k, ex - sx), sy + Steps(k, ey - sy))
  }

  /** For any other end point the loop never stands on the end, so it never breaks. */
  lemma LineNeverEnds(sx: int, sy: int, ex: int, ey: int, k: nat)
    requires !Reachable(sx, sy, ex, ey)
    ensures LinePoint(sx, sy, ex, ey, k) != (ex, ey)
  {
  }

  /** From (0, 0) towards (2, 1) the walk runs (0, 0), (1, 1), (2, 2), ... and passes
      the end point by. */
  lemma LineFromOriginToTwoOne(k: nat)
    ensures LinePoint(0, 0, 2, 1, k) == (k, k) && LinePoint(0, 0, 2, 1, k) != (2, 1)
  {
    LineNeverEnds(0, 0, 2, 1, k);
  }

  /** create_line_coords with the documented shapes checked first: None for an end point
      off the start's row, column and diagonals, where the loop would run forever, and
      otherwise the line the loop produces. */
  method LineCoordsChecked(sx: int, sy: int, ex: int, ey: int) returns (r: Option<seq<Coord>>)
    ensures r.None? <==> !Reachable(sx, sy, ex, ey)
    ensures r.Some? ==> r.value != [] && r.value[0] == (sx, sy) && r.value[|r.value| - 1] == (ex, ey)
    ensures r.Some? ==> forall k | 0 <= k < |r.value| :: r.value[k] == LinePoint(sx, sy, ex, ey, k)
    ensures r.Some? ==> NoDuplicates(r.value)
  {
    if !Reachable(sx, sy, ex, ey) {
      return None;
    }
    var coords := LineCoords(sx, sy, ex, ey);
    r := Some(coords);
  }

  // ---------------------------------------------------------------- cross

  /** The `i`-th pair of the horizontal arm sits at 2i-1 (left) and 2i (right); the
      vertical arm's pairs follow at 2*arm + 2i - 1 (up) and 2*arm + 2i (down). */
  predicate CrossLayout(coords: seq<Coord>, cx: int, cy: int, arm: int, horizontal: int, vertical: int)
    requires 0 <= horizontal && 0 <= vertical && |coords| == 1 + 2 * horizontal + 2 * vertical
  {
    && coords[0] == (cx, cy)
    && (forall i | 1 <= i <= horizontal :: coords[2 * i - 1] == (cx - i, cy) && coords[2 * i] == (cx + i, cy))
    && (forall i | 1 <= i <= vertical ::
          coords[2 * horizontal + 2 * i - 1] == (cx, cy - i) && coords[2 * horizontal + 2 * i] == (cx, cy + i))
  }

  /** create_cross_coords */
  method CrossCoords(cx: int, cy: int, arm: int) returns (coords: seq<Coord>)
    ensures |coords| == 1 + 4 * Max0(arm)
    ensures CrossLayout(coords, cx, cy, arm, Max0(arm), Max0(arm))
    ensures forall c | c in coords ::
              (c.1 == cy && Abs(c.0 - cx) <= Max0(arm)) || (c.0 == cx && Abs(c.1 - cy) <= Max0(arm))
    ensures NoDuplicates(coords)
  {
    var a := Max0(arm);
    coords := [(cx, cy)];
    var i := 1;
    while i <= arm
      invariant 1 <= i <= a + 1
      invariant |coords| == 1 + 2 * (i - 1)
      invariant CrossLayout(coords, cx, cy, arm, i - 1, 0)
    {
      coords := coords + [(cx - i, cy)] + [(cx + i, cy)];
      i := i + 1;
    }
    var j := 1;
    while j <= arm
      invariant 1 <= j <= a + 1
      invariant |coords| == 1 + 2 * a + 2 * (j - 1)
      invariant CrossLayout(coords, cx, cy, arm, a, j - 1)
    {
      coords := coords + [(cx, cy - j)] + [(cx, cy + j)];
      j := j + 1;
    }
    CrossFacts(coords, cx, cy, arm, a);
  }

  lemma CrossFacts(coords: seq<Coord>, cx: int, cy: int, arm: int, a: nat)
    requires |coords| == 1 + 4 * a
    requires CrossLayout(coords, cx, cy, arm, a, a)
    ensures forall c | c in coords :: (c.1 == cy && Abs(c.0 - cx) <= a) || (c.0 == cx && Abs(c.1 - cy) <= a)
    ensures NoDuplicates(coords)
  {
    // Each index names one cell: the centre, an arm and a distance.
    forall k | 0 <= k < |coords|
      ensures coords[k] == CrossCell(cx, cy, a, k)
    {
      if k > 0 && k <= 2 * a {
        var i := (k + 1) / 2;
        assert k == 2 * i - 1 || k == 2 * i;
      } else if k > 2 * a {
        var i := (k - 2 * a + 1) / 2;
        assert k == 2 * a + 2 * i - 1 || k == 2 * a + 2 * i;
      }
    }
    forall c | c in coords ensures (c.1 == cy && Abs(c.0 - cx) <= a) || (c.0 == cx && Abs(c.1 - cy) <= a) {
      var k :| 0 <= k < |coords| && coords[k] == c;
    }
    forall i, j | 0 <= i < j < |coords| ensures coords[i] != coords[j] {
      CrossCellsDiffer(cx, cy, a, i, j);
    }
  }

  lemma CrossCellsDiffer(cx: int, cy: int, a: nat, i: nat, j: nat)
    requires i < j < 1 + 4 * a
    ensures CrossCell(cx, cy, a, i) != CrossCell(cx, cy, a, j)
  {
  }

  /** The cell at position `k` of a cross with arms of length `a`. */
  function CrossCell(cx: int, cy: int, a: nat, k: nat): Coord {
    if k == 0 then (cx, cy)
    else if k <= 2 * a then
      (if k % 2 == 1 then (cx - (k + 1) / 2, cy) else (cx + k / 2, cy))
    else
      var m := k - 2 * a;
      if m % 2 == 1 then (cx, cy - (m + 1) / 2) else (cx, cy + m / 2)
  }
}

=== FILE: terminal.dfy ===
/** The menu terminal: a list of lines, an animated "..." counter, per-line target and
    current y positions, and the split of a line into coloured pieces for drawing.
    The clock is an argument; the font is reduced to its line height, and the pieces a
    line is drawn in are the model's picture of what gets blitted. */
module Terminal {
  import opened Text
  import opened Constants

  /** How a line is coloured: no colour given (the terminal's default), one colour, or
      a dictionary from segment text to colour, in insertion order. */
  datatype LineColor = DefaultColor | Plain(color: Color) | Segments(segs: seq<(string, Color)>)

  datatype Line = Line(text: string, animateDots: bool, color: LineColor)

  datatype Term = Term(
    lines: seq<Line>,
    dotCount: nat,
    lastUpdate: int,
    updateInterval: int,
    lineHeight: int,
    targets: seq<int>,
    currents: seq<real>,
    defaultColor: Color)

  const UpdateInterval := 300
  /** The easing factor applied to the remaining distance on each update. */
  const AnimationSpeed: real := 0.2

  /** The two position lists always have the same length and the dot counter is 0..3. */
  predicate Inv(t: Term) {
    |t.targets| == |t.currents| && t.dotCount < 4
  }

  /** The constructor, for a font `fontHeight` pixels high. */
  function New(fontHeight: int): (t: Term)
    ensures Inv(t) && t.lines == [] && t.targets == [] && t.dotCount == 0
    ensures t.lineHeight == fontHeight + 5 && t.defaultColor == TerminalGreen
  {
    Term([], 0, 0, UpdateInterval, fontHeight + 5, [], [], TerminalGreen)
  }

  /** add_line: the line joins the end; every existing target is reset to its index
      times the line height, and the new line starts and aims at the new line count
      times the line height. */
  function AddLine(t: Term, text: string, animateDots: bool, color: LineColor): (r: Term)
    ensures Inv(t) ==> Inv(r)
    ensures r.lines == t.lines + [Line(text, animateDots, color)]
    ensures |r.targets| == |t.targets| + 1 && |r.currents| == |t.currents| + 1
    ensures forall i | 0 <= i < |t.targets| :: r.targets[i] == i * t.lineHeight
    ensures r.targets[|t.targets|] == |r.lines| * t.lineHeight
    ensures r.currents == t.currents + [(|r.lines| * t.lineHeight) as real]
    ensures r.dotCount == t.dotCount && r.lineHeight == t.lineHeight
  {
    var bottom := (|t.lines| + 1) * t.lineHeight;
    t.(lines := t.lines + [Line(text, animateDots, color)],
       targets := seq(|t.targets|, i => i * t.lineHeight) + [bottom],
       currents := t.currents + [bottom as real])
  }

  /** clear: no lines and no positions. */
  function Clear(t: Term): (r: Term)
    ensures Inv(t) ==> Inv(r)
    ensures r.lines == [] && r.targets == [] && r.currents == []
    ensures r == t.(lines := [], targets := [], currents := [])
  {
    t.(lines := [], targets := [], currents := [])
  }

  /** One easing step toward the target. */
  function Ease(current: real, target: real): (r: real)
    ensures r - target == if current == target then 0.0 else (current - target) * (1.0 - AnimationSpeed)
    ensures current <= target ==> current <= r <= target
    ensures target <= current ==> target <= r <= current
  {
    if current != target then current + (target - current) * AnimationSpeed else current
  }

  /** The dot counter and the time of its last step after a clock reading `now`: one
      step mod 4 once more than `interval` milliseconds have passed. */
  function StepDots(dotCount: nat, lastUpdate: int, interval: int, now: int): (r: (nat, int))
    ensures dotCount < 4 ==> r.0 < 4
    ensures r.1 == now || r == (dotCount, lastUpdate)
  {
    if now - lastUpdate > interval then ((dotCount + 1) % 4, now) else (dotCount, lastUpdate)
  }

  /** update at time `now`: the dot counter steps mod 4 once more than the interval has
      passed, and every line moves a fifth of the way to its target. */
  function Update(t: Term, now: int): (r: Term)
    requires |t.currents| <= |t.targets|
    ensures Inv(t) ==> Inv(r)
    ensures |r.currents| == |t.currents| && r.lines == t.lines && r.targets == t.targets
    ensures now - t.lastUpdate > t.updateInterval ==> r.dotCount == (t.dotCount + 1) % 4 && r.lastUpdate == now
    ensures now - t.lastUpdate <= t.updateInterval ==> r.dotCount == t.dotCount && r.lastUpdate == t.lastUpdate
    ensures forall i | 0 <= i < |t.currents| :: r.currents[i] == Ease(t.currents[i], t.targets[i] as real)
  {
    var (d, l) := StepDots(t.dotCount, t.lastUpdate, t.updateInterval, now);
    t.(dotCount := d, lastUpdate := l, currents := seq(|t.currents|, i requires 0 <= i < |t.currents| => Ease(t.currents[i], t.targets[i] as real)))
  }

  /** Four updates, each more than the interval after the last, bring the dots back. */
  lemma DotsCycle(t: Term, step: int)
    requires Inv(t) && step > t.updateInterval
    ensures var t4 := Update(Update(Update(Update(t, t.lastUpdate + step), t.lastUpdate + 2 * step), t.lastUpdate + 3 * step), t.lastUpdate + 4 * step);
            t4.dotCount == t.dotCount
  {
  }

  /** "." repeated `n` times. */
  function Dots(n: nat): (r: string)
    ensures |r| == n && forall k | 0 <= k < n :: r[k] == '.'
  {
    seq(n, _ => '.')
  }

  /** The text a line shows: its own text, followed by the current dots if animated. */
  function DisplayText(line: Line, dotCount: nat): (r: string)
    ensures |line.text| <= |r| && r[..|line.text|] == line.text
    ensures line.animateDots ==> r == line.text + Dots(dotCount)
    ensures !line.animateDots ==> r == line.text
  {
    if line.animateDots then line.text + Dots(dotCount) else line.text
  }

  /** The y coordinate of line `i` of `n`: the newest line sits on the base line and
      each older one a line height above the next. */
  function LineY(baseY: int, n: nat, i: nat, lineHeight: int): (y: int)
    ensures i + 1 == n ==> y == baseY
    ensures 0 <= lineHeight && i < n ==> baseY - (n - 1) * lineHeight <= y <= baseY
  {
    if 0 <= lineHeight && i < n then
      RowsAboveBase(n, i, lineHeight);
      baseY - (n - 1 - i) * lineHeight
    else
      baseY - (n - 1 - i) * lineHeight
  }

  lemma RowsAboveBase(n: nat, i: nat, h: int)
    requires i < n && 0 <= h
    ensures 0 <= (n - 1 - i) * h <= (n - 1) * h
  {
    assert (n - 1) * h == (n - 1 - i) * h + i * h;
  }

  lemma LinesStackUp(baseY: int, n: nat, i: nat, lineHeight: int)
    requires 0 < n && i + 1 < n
    ensures LineY(baseY, n, n - 1, lineHeight) == baseY
    ensures LineY(baseY, n, i + 1, lineHeight) - LineY(baseY, n, i, lineHeight) == lineHeight
  {
  }

  /** A piece of text drawn in one colour. */
  type Piece = (string, Color)

  /** The text of the pieces, one after another. */
  function Concat(ps: seq<Piece>): string {
    if ps == [] then "" else ps[0].0 + Concat(ps[1..])
  }

  lemma {:induction false} ConcatAppend(a: seq<Piece>, b: seq<Piece>)
    ensures Concat(a + b) == Concat(a) + Concat(b)
    decreases |a|
  {
    if a != [] {
      assert (a + b)[0] == a[0] && (a + b)[1..] == a[1..] + b;
      ConcatAppend(a[1..], b);
    } else {
      assert a + b == b;
    }
  }

  /** The coloured-segment loop of render from position `pos`: each segment found at
      or after the position is drawn in its colour, preceded by any skipped text in the
      default colour; a segment not found is skipped; the rest of the text follows in
      the default colour. */
  function Pieces(text: string, segs: seq<(string, Color)>, pos: nat, dflt: Color): (r: seq<Piece>)
    requires pos <= |text|
    ensures |r| <= 2 * |segs| + 1
    decreases |segs|
  {
    if segs == [] then
      if pos < |text| then [(text[pos..], dflt)] else []
    else
      var (seg, color) := segs[0];
      var start := Find(text, seg, pos);
      if start == -1 then Pieces(text, segs[1..], pos, dflt)
      else
        var before: seq<Piece> := if start > pos then [(text[pos..start], dflt)] else [];
        before + [(seg, color)] + Pieces(text, segs[1..], start + |seg|, dflt)
  }

  lemma ConcatSingle(p: Piece)
    ensures Concat([p]) == p.0
  {
    assert Concat([p]) == p.0 + Concat([]);
  }

  /** The pieces spell exactly the rest of the text: nothing is lost or repeated. */
  lemma {:induction false} PiecesSpellText(text: string, segs: seq<(string, Color)>, pos: nat, dflt: Color)
    requires pos <= |text|
    ensures Concat(Pieces(text, segs, pos, dflt)) == text[pos..]
    decreases |segs|
  {
    if segs == [] {
      if pos < |text| {
        ConcatSingle((text[pos..], dflt));
      }
    } else {
      var start := Find(text, segs[0].0, pos);
      if start == -1 {
        PiecesSpellText(text, segs[1..], pos, dflt);
      } else {
        FoundSegmentSpells(text, segs, pos, dflt, start);
      }
    }
  }

  lemma {:induction false} FoundSegmentSpells(text: string, segs: seq<(string, Color)>, pos: nat, dflt: Color, start: int)
    requires pos <= |text| && segs != []
    requires start == Find(text, segs[0].0, pos) && start != -1
    ensures Concat(Pieces(text, segs, pos, dflt)) == text[pos..]
    decreases |segs|, 0
  {
    var seg := segs[0].0;
    var next := start + |seg|;
    var rest := Pieces(text, segs[1..], next, dflt);
    var before: seq<Piece> := if start > pos then [(text[pos..start], dflt)] else [];
    assert Pieces(text, segs, pos, dflt) == before + [segs[0]] + rest;
    PiecesSpellText(text, segs[1..], next, dflt);
    ConcatAppend(before + [segs[0]], rest);
    ConcatAppend(before, [segs[0]]);
    ConcatSingle(segs[0]);
    assert Concat(before) == text[pos..start] by {
      if start > pos {
        ConcatSingle((text[pos..start], dflt));
      }
    }
    ThreeWaySplit(text, pos, start, next);
  }

  lemma ThreeWaySplit(s: string, i: nat, j: nat, k: nat)
    requires i <= j <= k <= |s|
    ensures s[i..] == s[i..j] + s[j..k] + s[k..]
  {
  }

  /** When no segment occurs in the text at all, the line is one default-coloured piece. */
  lemma {:induction false} NoSegmentFound(text: string, segs: seq<(string, Color)>, dflt: Color)
    requires forall k | 0 <= k < |segs| :: !Contains(text, segs[k].0)
    ensures Pieces(text, segs, 0, dflt) == if text == "" then [] else [(text, dflt)]
    decreases |segs|
  {
    if segs != [] {
      var start := Find(text, segs[0].0, 0);
      if start != -1 {
        assert Contains(text, segs[0].0);
        assert false;
      }
      NoSegmentFound(text, segs[1..], dflt);
    }
  }

  /** How line `i` is drawn: its y coordinate and its coloured pieces. */
  function RenderLine(t: Term, i: nat, baseY: int): (r: (int, seq<Piece>))
    requires i < |t.lines|
    ensures r.0 == LineY(baseY, |t.lines|, i, t.lineHeight)
    ensures Concat(r.1) == DisplayText(t.lines[i], t.dotCount)
  {
    var line := t.lines[i];
    var text := DisplayText(line, t.dotCount);
    var y := LineY(baseY, |t.lines|, i, t.lineHeight);
    match line.color
    case Segments(segs) =>
      PiecesSpellText(text, segs, 0, t.defaultColor);
      (y, Pieces(text, segs, 0, t.defaultColor))
    case Plain(c) =>
      assert Concat([(text, c)]) == text + Concat([]);
      (y, [(text, c)])
    case DefaultColor =>
      assert Concat([(text, t.defaultColor)]) == text + Concat([]);
      (y, [(text, t.defaultColor)])
  }

  /** Targets set by add_line leave a one-line gap above the newest line: the newest
      aims at (n + 1) line heights while the line before it aims at (n - 1). */
  lemma AddLineLeavesGap(t: Term, text: string, animateDots: bool, color: LineColor)
    requires Inv(t) && |t.lines| == |t.targets| > 0
    ensures var r := AddLine(t, text, animateDots, color);
            r.targets[|t.targets|] - r.targets[|t.targets| - 1] == 2 * t.lineHeight
  {
  }
}

=== FILE: text.dfy ===
/** String helpers shared by the game model: ASCII character classes, Python-style
    `strip`, `split`, `join`, `find` and `in`, and decimal integer rendering.
    Python's character predicates are Unicode-wide; this model restricts them to ASCII. */
module Text {

  datatype Option<+T> = None | Some(value: T) {
    function GetOr(default: T): T {
      match this
      case Some(v) => v
      case None => default
    }
  }

  function Min(a: int, b: int): int { if a <= b then a else b }

  function Max(a: int, b: int): int { if a >= b then a else b }

  function Abs(v: int): nat { if v < 0 then -v else v }

  /** `s[:i]` for i >= 0: an index past the end is clamped. */
  function Take<T>(s: seq<T>, i: nat): seq<T> { s[..Min(i, |s|)] }

  /** `s[i:]` for i >= 0. */
  function Drop<T>(s: seq<T>, i: nat): seq<T> { s[Min(i, |s|)..] }

  /** `s[i:j]` for 0 <= i <= j. */
  function Slice<T>(s: seq<T>, i: nat, j: nat): seq<T>
    requires i <= j
  {
    s[Min(i, |s|)..Min(j, |s|)]
  }

  /** `str.isspace` on one ASCII character: space, \t \n \v \f \r and the separators 0x1c-0x1f. */
  predicate IsSpace(c: char) {
    c == ' ' || (9 <= c as int <= 13) || (28 <= c as int <= 31)
  }

  /** `s.strip() == ""`: the string holds whitespace only (or nothing). */
  predicate IsBlank(s: string) {
    forall i | 0 <= i < |s| :: IsSpace(s[i])
  }

  predicate IsDigit(c: char) { '0' <= c <= '9' }

  predicate IsUpper(c: char) { 'A' <= c <= 'Z' }

  /** `str.isprintable` on one ASCII character. */
  predicate IsPrintable(c: char) { 32 <= c as int <= 126 }

  /** `str.isprintable` on a whole string (true of the empty string, as in Python). */
  predicate AllPrintable(s: string) {
    forall i | 0 <= i < |s| :: IsPrintable(s[i])
  }

  function ToLower(c: char): (r: char)
    ensures IsUpper(c) ==> r as int == c as int + 32
    ensures !IsUpper(c) ==> r == c
  {
    if IsUpper(c) then (c as int + 32) as char else c
  }

  function Lower(s: string): (r: string)
    ensures |r| == |s|
    ensures forall i | 0 <= i < |s| :: r[i] == ToLower(s[i])
  {
    if s == [] then [] else [ToLower(s[0])] + Lower(s[1..])
  }

  /** `sub` occurs in `s` starting at index `i`. */
  predicate OccursAt(s: string, sub: string, i: nat) {
    i + |sub| <= |s| && s[i..i + |sub|] == sub
  }

  /** `s.startswith(p)` */
  predicate StartsWith(s: string, p: string) {
    |p| <= |s| && s[..|p|] == p
  }

  /** `sub in s` */
  predicate Contains(s: string, sub: string) {
    exists i | 0 <= i <= |s| :: OccursAt(s, sub, i)
  }

  /** `s.find(sub, from)` for 0 <= from: the first index at or after `from` where `sub`
      occurs, or -1. */
  function Find(s: string, sub: string, from: nat): (r: int)
    ensures r == -1 || (from <= r && OccursAt(s, sub, r))
    ensures r == -1 ==> forall i: nat | from <= i :: !OccursAt(s, sub, i)
    ensures r != -1 ==> forall i: nat | from <= i < r :: !OccursAt(s, sub, i)
    decreases |s| - from
  {
    if from + |sub| > |s| then -1
    else if s[from..from + |sub|] == sub then from
    else Find(s, sub, from + 1)
  }

  /** Remove leading whitespace. */
  function StripLeft(s: string): (r: string)
    ensures |r| <= |s| && r == s[|s| - |r|..]
    ensures r == [] || !IsSpace(r[0])
    ensures IsBlank(s[..|s| - |r|])
  {
    if s != [] && IsSpace(s[0]) then StripLeft(s[1..]) else s
  }

  /** Remove trailing whitespace. */
  function StripRight(s: string): (r: string)
    ensures |r| <= |s| && r == s[..|r|]
    ensures r == [] || !IsSpace(r[|r| - 1])
    ensures IsBlank(s[|r|..])
  {
    if s != [] && IsSpace(s[|s| - 1]) then
      assert s[|StripRight(s[..|s| - 1])|..] == s[..|s| - 1][|StripRight(s[..|s| - 1])|..] + [s[|s| - 1]];
      StripRight(s[..|s| - 1])
    else s
  }

  /** `str.strip()` */
  function Strip(s: string): string {
    StripRight(StripLeft(s))
  }

  lemma StripRightKeepsHead(s: string)
    requires s != [] && !IsSpace(s[0])
    ensures StripRight(s) != []
  {
  }

  lemma StripEmptyIffBlank(s: string)
    ensures Strip(s) == [] <==> IsBlank(s)
  {
    var l := StripLeft(s);
    if l != [] {
      StripRightKeepsHead(l);
      assert !IsSpace(s[|s| - |l|]);
    } else {
      assert s[..|s| - |l|] == s;
    }
  }

  /** `sep.join(parts)` */
  function Join(parts: seq<string>, sep: string): (r: string)
  {
    if |parts| == 0 then []
    else if |parts| == 1 then parts[0]
    else parts[0] + sep + Join(parts[1..], sep)
  }

  lemma JoinAppend(parts: seq<string>, last: string, sep: string)
    requires |parts| > 0
    ensures Join(parts + [last], sep) == Join(parts, sep) + sep + last
  {
    if |parts| == 1 {
      assert parts + [last] == [parts[0], last];
    } else {
      assert (parts + [last])[1..] == parts[1..] + [last];
      JoinAppend(parts[1..], last, sep);
    }
  }

  /** `s.split(sep)` with an explicit one-character separator: always at least one
      piece, and no piece contains the separator. */
  function Split(s: string, sep: char): (r: seq<string>)
    ensures |r| >= 1
    ensures forall k | 0 <= k < |r| :: sep !in r[k]
    ensures Join(r, [sep]) == s
  {
    SplitFrom(s, sep, [])
  }

  /** Splitting `s` where `acc` is the part of the current piece already scanned. */
  function SplitFrom(s: string, sep: char, acc: string): (r: seq<string>)
    requires sep !in acc
    ensures |r| >= 1
    ensures forall k | 0 <= k < |r| :: sep !in r[k]
    ensures Join(r, [sep]) == acc + s
    decreases |s|
  {
    if s == [] then [acc]
    else if s[0] == sep then
      var rest := SplitFrom(s[1..], sep, []);
      assert Join([acc] + rest, [sep]) == acc + [sep] + Join(rest, [sep]);
      assert acc + [sep] + s[1..] == acc + s;
      [acc] + rest
    else
      assert acc + s == (acc + [s[0]]) + s[1..];
      SplitFrom(s[1..], sep, acc + [s[0]])
  }

  /** The part of `s` before the first `c`; all of `s` when `c` does not occur. */
  function TakeUntil(s: string, c: char): (r: string)
    ensures c !in r
    ensures |r| <= |s| && r == s[..|r|]
    ensures |r| < |s| ==> s[|r|] == c
    ensures |r| == |s| <==> c !in s
  {
    if s == [] then []
    else if s[0] == c then []
    else [s[0]] + TakeUntil(s[1..], c)
  }

  lemma {:induction false} TakeUntilAfter(p: string, c: char, s: string)
    requires c !in p
    ensures TakeUntil(p + [c] + s, c) == p
  {
    if p != [] {
      assert (p + [c] + s)[1..] == p[1..] + [c] + s;
      TakeUntilAfter(p[1..], c, s);
    }
  }

  /** Splitting peels off the text up to the first separator, then splits the rest. */
  lemma {:induction false} SplitFromShape(s: string, sep: char, acc: string)
    requires sep !in acc
    ensures sep in s ==>
              SplitFrom(s, sep, acc) == [acc + TakeUntil(s, sep)] + Split(s[|TakeUntil(s, sep)| + 1..], sep)
    ensures sep !in s ==> SplitFrom(s, sep, acc) == [acc + s]
    decreases |s|
  {
    if s == [] {
    } else if s[0] == sep {
      assert TakeUntil(s, sep) == [];
      assert acc + TakeUntil(s, sep) == acc;
      assert s[|TakeUntil(s, sep)| + 1..] == s[1..];
      assert SplitFrom(s, sep, acc) == [acc] + Split(s[1..], sep);
    } else {
      assert SplitFrom(s, sep, acc) == SplitFrom(s[1..], sep, acc + [s[0]]);
      var t := TakeUntil(s[1..], sep);
      assert sep in s <==> sep in s[1..];
      SplitFromShape(s[1..], sep, acc + [s[0]]);
      assert acc + [s[0]] + s[1..] == acc + s;
      assert TakeUntil(s, sep) == [s[0]] + t;
      assert acc + TakeUntil(s, sep) == acc + [s[0]] + t;
      if sep in s {
        assert s[|t| + 2..] == s[1..][|t| + 1..];
      }
    }
  }

  /** The first piece of `s.split(sep)` is the text before the first separator. */
  lemma SplitHead(s: string, sep: char)
    ensures Split(s, sep)[0] == TakeUntil(s, sep)
    ensures sep in s ==> Split(s, sep)[1..] == Split(s[|TakeUntil(s, sep)| + 1..], sep)
  {
    SplitFromShape(s, sep, []);
  }

  /** Number of occurrences of `c` in `s`. */
  function Count(s: string, c: char): nat
  {
    if s == [] then 0 else (if s[0] == c then 1 else 0) + Count(s[1..], c)
  }

  lemma {:induction false} SplitFromCount(s: string, sep: char, acc: string)
    requires sep !in acc
    ensures |SplitFrom(s, sep, acc)| == Count(s, sep) + 1
    decreases |s|
  {
    if s == [] {
    } else if s[0] == sep {
      SplitFromCount(s[1..], sep, []);
    } else {
      SplitFromCount(s[1..], sep, acc + [s[0]]);
    }
  }

  /** Python's `split` yields one more piece than there are separators. */
  lemma SplitCount(s: string, sep: char)
    ensures |Split(s, sep)| == Count(s, sep) + 1
  {
    SplitFromCount(s, sep, []);
  }

  /** Decimal digits of a natural number, most significant first, no leading zeros. */
  function NatToString(n: nat): (r: string)
    ensures |r| >= 1
    ensures forall i | 0 <= i < |r| :: IsDigit(r[i])
    ensures n >= 10 ==> |r| >= 2
    ensures n < 10 ==> |r| == 1
  {
    if n < 10 then [('0' as int + n) as char]
    else NatToString(n / 10) + [('0' as int + n % 10) as char]
  }

  /** Value of a string of decimal digits. */
  function DigitsValue(s: string): nat
    requires forall i | 0 <= i < |s| :: IsDigit(s[i])
  {
    if s == [] then 0
    else
      var last := s[|s| - 1];
      assert IsDigit(last);
      DigitsValue(s[..|s| - 1]) * 10 + (last as int - '0' as int)
  }

  lemma {:induction false} NatToStringValue(n: nat)
    ensures DigitsValue(NatToString(n)) == n
  {
    if n >= 10 {
      NatToStringValue(n / 10);
      var s := NatToString(n);
      assert s[..|s| - 1] == NatToString(n / 10);
    }
  }

  /** Python's `int(s)` for an optionally signed run of ASCII digits with optional
      surrounding whitespace; None where Python raises ValueError. */
  function ParseInt(s: string): (r: Option<int>)
  {
    var t := Strip(s);
    if t == [] then None
    else if t[0] == '-' || t[0] == '+' then
      var d := t[1..];
      if d != [] && (forall i | 0 <= i < |d| :: IsDigit(d[i])) then
        var v: int := DigitsValue(d);
        Some(if t[0] == '-' then -v else v)
      else None
    else if forall i | 0 <= i < |t| :: IsDigit(t[i]) then Some(DigitsValue(t))
    else None
  }

  /** Python's `str(n)` for an integer. */
  function IntToString(n: int): (r: string)
    ensures |r| >= 1
  {
    if n < 0 then "-" + NatToString(-n) else NatToString(n)
  }

  lemma StripOfDigits(s: string)
    requires s != [] && !IsSpace(s[0]) && !IsSpace(s[|s| - 1])
    ensures Strip(s) == s
  {
  }

  /** Stripping keeps everything from a non-blank character up to a non-blank end. */
  lemma StripKeepsFrom(s: string, k: nat)
    requires k < |s| && !IsSpace(s[k]) && !IsSpace(s[|s| - 1])
    ensures |Strip(s)| >= |s| - k
  {
    var l := StripLeft(s);
    assert l[|l| - 1] == s[|s| - 1];
  }

  /** Leading blanks before a stripped string are all that stripping removes. */
  lemma StripPadded(pad: string, s: string)
    requires IsBlank(pad) && s != [] && !IsSpace(s[0]) && !IsSpace(s[|s| - 1])
    ensures StripLeft(pad + s) == s && Strip(pad + s) == s
  {
    StripLeftPadded(pad, s);
  }

  lemma {:induction false} StripLeftPadded(pad: string, s: string)
    requires IsBlank(pad) && s != [] && !IsSpace(s[0])
    ensures StripLeft(pad + s) == s
    decreases |pad|
  {
    if pad != [] {
      assert (pad + s)[0] == pad[0];
      assert (pad + s)[1..] == pad[1..] + s;
      StripLeftPadded(pad[1..], s);
    } else {
      assert pad + s == s;
    }
  }

  /** `int(str(n)) == n` */
  lemma ParseIntToString(n: int)
    ensures ParseInt(IntToString(n)) == Some(n)
  {
    var s := IntToString(n);
    if n < 0 {
      var d := NatToString(-n);
      assert s[1..] == d;
      assert !IsSpace(s[|s| - 1]) by { assert s[|s| - 1] == d[|d| - 1]; }
      StripOfDigits(s);
      NatToStringValue(-n);
    } else {
      StripOfDigits(s);
      NatToStringValue(n);
    }
  }
}

=== FILE: time_format.dfy ===
/** The video helper's duration formatting: a whole number of seconds as "MM:SS". */
module TimeFormat {
  import opened Text

  /** Python's `f"{n:02d}"`: at least two characters, zero-padded after the sign. A
      negative number already has two characters, so only 0..9 gain a leading zero. */
  function Pad2(n: int): (r: string)
    ensures |r| >= 2
    ensures 0 <= n < 100 ==> |r| == 2 && forall i | 0 <= i < 2 :: IsDigit(r[i])
    ensures ':' !in r
  {
    if 0 <= n < 10 then "0" + NatToString(n) else IntToString(n)
  }

  /** convert_seconds_to_time: 0 (falsy) is "Unknown"; anything else is floor-divided
      into minutes and the remaining seconds. */
  function SecondsToTime(seconds: int): (r: string)
    ensures seconds == 0 <==> r == "Unknown"
    ensures seconds != 0 ==> |r| >= 5 && r[|r| - 3] == ':'
    ensures seconds != 0 ==> var ss := r[|r| - 2..]; forall i | 0 <= i < 2 :: IsDigit(ss[i])
  {
    if seconds == 0 then "Unknown"
    else
      var mm := Pad2(seconds / 60);
      var ss := Pad2(seconds % 60);
      assert (mm + ":" + ss)[|mm|] == ':';
      assert (mm + ":" + ss)[|mm| + 1..] == ss;
      mm + ":" + ss
  }

  /** Reading "MM:SS" back: minutes before the colon, seconds after it. The program has
      no such parser; this is the independent inverse the round trip below is stated
      against. */
  function ParseTime(t: string): (r: Option<int>)
  {
    var mm := TakeUntil(t, ':');
    if |mm| == |t| then None
    else
      Combine(ParseInt(mm), ParseInt(t[|mm| + 1..]))
  }

  /** Minutes and seconds read back into seconds, if both parsed. */
  function Combine(m: Option<int>, s: Option<int>): Option<int> {
    if m.Some? && s.Some? then Some(m.value * 60 + s.value) else None
  }

  lemma Pad2Value(n: int)
    ensures ParseInt(Pad2(n)) == Some(n)
  {
    if 0 <= n < 10 {
      PaddedDigitValue(n);
    } else {
      ParseIntToString(n);
    }
  }

  /** A single digit behind a leading zero reads back as itself. */
  lemma PaddedDigitValue(n: int)
    requires 0 <= n < 10
    ensures ParseInt("0" + NatToString(n)) == Some(n)
  {
    var d := NatToString(n);
    var s := "0" + d;
    assert s[1..] == d && s[..1] == "0";
    assert DigitsValue(s) == n by {
      assert s[..|s| - 1] == "0";
      assert DigitsValue("0") == 0 by { assert "0"[..0] == ""; }
    }
    StripOfDigits(s);
  }

  /** Every formatted duration reads back as the same number of seconds. */
  lemma FormatRoundTrip(seconds: int)
    requires seconds != 0
    ensures ParseTime(SecondsToTime(seconds)) == Some(seconds)
  {
    var a, b := seconds / 60, seconds % 60;
    var mm, ss := Pad2(a), Pad2(b);
    assert ParseInt(mm) == Some(a) by { Pad2Value(a); }
    assert ParseInt(ss) == Some(b) by { Pad2Value(b); }
    FieldsRoundTrip(mm, ss, a, b);
    assert SecondsToTime(seconds) == mm + ":" + ss;
  }

  lemma FieldsRoundTrip(mm: string, ss: string, m: int, s: int)
    requires ':' !in mm && ParseInt(mm) == Some(m) && ParseInt(ss) == Some(s)
    ensures ParseTime(mm + ":" + ss) == Some(m * 60 + s)
  {
    ParseJoined(mm, ss);
    CombineParsed(ParseInt(mm), ParseInt(ss), m, s);
  }

  lemma CombineParsed(pm: Option<int>, ps: Option<int>, m: int, s: int)
    requires pm == Some(m) && ps == Some(s)
    ensures Combine(pm, ps) == Some(m * 60 + s)
  {
  }

  /** Minutes and seconds fields without a colon are read back from either side of it. */
  lemma ParseJoined(mm: string, ss: string)
    requires ':' !in mm
    ensures ParseTime(mm + ":" + ss) == Combine(ParseInt(mm), ParseInt(ss))
  {
    var t := mm + ":" + ss;
    assert t == mm + [':'] + ss;
    TakeUntilAfter(mm, ':', ss);
    assert TakeUntil(t, ':') == mm;
    assert t[|mm| + 1..] == ss;
    assert ParseTime(t) == Combine(ParseInt(mm), ParseInt(ss));
  }

  /** The seconds field is always two digits between 00 and 59. */
  lemma SecondsFieldInRange(seconds: int)
    requires seconds != 0
    ensures var r := SecondsToTime(seconds);
            ParseInt(r[|r| - 2..]).Some? && 0 <= ParseInt(r[|r| - 2..]).value < 60
  {
    var mm := Pad2(seconds / 60);
    var ss := Pad2(seconds % 60);
    var r := SecondsToTime(seconds);
    assert r == mm + ":" + ss;
    assert r[|r| - 2..] == ss;
    Pad2Value(seconds % 60);
  }
}

=== FILE: wrap_text.dfy ===
/** Greedy word wrapping. The font's width measure is a parameter: any total function
    from a line to its width. Paragraphs are separated by '\n' and words by single spaces. */
module Wrap {
  import opened Text

  type Measure = string -> int

  /** The loop over one paragraph's words: `lines` are the lines emitted so far and
      `cur` the line being filled. */
  function WrapWords(words: seq<string>, measure: Measure, maxWidth: int, lines: seq<string>, cur: string): seq<string>
    decreases |words|
  {
    if words == [] then (if cur != "" then lines + [cur] else lines)
    else
      var w := words[0];
      var test := cur + (if cur != "" then " " else "") + w;
      if measure(test) <= maxWidth then WrapWords(words[1..], measure, maxWidth, lines, test)
      else if cur != "" then WrapWords(words[1..], measure, maxWidth, lines + [cur], w)
      else WrapWords(words[1..], measure, maxWidth, lines + [w], "")
  }

  /** A line fits, or it is a single word that could not be broken. */
  predicate Acceptable(line: string, measure: Measure, maxWidth: int) {
    measure(line) <= maxWidth || ' ' !in line
  }

  /** The lines one paragraph contributes: a single empty line for a blank one. */
  function ParagraphLines(p: string, measure: Measure, maxWidth: int): (r: seq<string>)
    ensures IsBlank(p) ==> r == [""]
    ensures |r| >= 1
    ensures '\n' !in p ==> forall k | 0 <= k < |r| :: '\n' !in r[k]
    ensures forall k | 0 <= k < |r| :: Acceptable(r[k], measure, maxWidth)
  {
    if IsBlank(p) then [""]
    else
      var words := Split(p, ' ');
      WrappedParagraphFacts(p, measure, maxWidth);
      WrapWords(words, measure, maxWidth, [], "")
  }

  function ConcatLines(paragraphs: seq<string>, measure: Measure, maxWidth: int): (r: seq<string>)
    ensures |r| >= |paragraphs|
    ensures (forall k | 0 <= k < |paragraphs| :: '\n' !in paragraphs[k]) ==> forall k | 0 <= k < |r| :: '\n' !in r[k]
    ensures forall k | 0 <= k < |r| :: Acceptable(r[k], measure, maxWidth)
  {
    if paragraphs == [] then []
    else ParagraphLines(paragraphs[0], measure, maxWidth) + ConcatLines(paragraphs[1..], measure, maxWidth)
  }

  /** wrap_text: whitespace-only text comes back unchanged as the only line; otherwise
      each paragraph is wrapped in turn. */
  function WrapText(text: string, measure: Measure, maxWidth: int): (r: seq<string>)
    ensures IsBlank(text) ==> r == [text]
    ensures |r| >= 1
    ensures !IsBlank(text) ==> |r| >= |Split(text, '\n')|
    ensures !IsBlank(text) ==> forall k | 0 <= k < |r| :: '\n' !in r[k]
    ensures !IsBlank(text) ==> forall k | 0 <= k < |r| :: Acceptable(r[k], measure, maxWidth)
  {
    StripEmptyIffBlank(text);
    if Strip(text) == "" then [text]
    else ConcatLines(Split(text, '\n'), measure, maxWidth)
  }

  // ---------------------------------------------------------------- lemmas

  lemma WrappedParagraphFacts(p: string, measure: Measure, maxWidth: int)
    requires !IsBlank(p)
    ensures var r := WrapWords(Split(p, ' '), measure, maxWidth, [], "");
            && |r| >= 1
            && ('\n' !in p ==> forall k | 0 <= k < |r| :: '\n' !in r[k])
            && (forall k | 0 <= k < |r| :: Acceptable(r[k], measure, maxWidth))
  {
    var words := Split(p, ' ');
    NonBlankHasWord(p);
    WrapWordsGrows(words, measure, maxWidth, [], "");
    if '\n' !in p {
      forall k | 0 <= k < |words| ensures '\n' !in words[k] {
        JoinKeepsOut(words, " ", '\n', k);
      }
    }
    WrapWordsLines(words, measure, maxWidth, [], "");
  }

  lemma {:induction false} JoinKeepsOut(parts: seq<string>, sep: string, c: char, k: nat)
    requires k < |parts| && c !in Join(parts, sep)
    ensures c !in parts[k]
  {
    if |parts| > 1 {
      if k > 0 {
        JoinKeepsOut(parts[1..], sep, c, k - 1);
      }
    }
  }

  /** A paragraph that is not blank has a non-empty word. */
  lemma NonBlankHasWord(p: string)
    requires !IsBlank(p)
    ensures exists k | 0 <= k < |Split(p, ' ')| :: Split(p, ' ')[k] != ""
  {
    var words := Split(p, ' ');
    if forall k | 0 <= k < |words| :: words[k] == "" {
      AllEmptyJoin(words);
      assert false;
    }
  }

  /** Joining empty words with single spaces gives a run of spaces. */
  lemma {:induction false} AllEmptyJoin(words: seq<string>)
    requires forall k | 0 <= k < |words| :: words[k] == ""
    ensures IsBlank(Join(words, " "))
  {
    if |words| > 1 {
      AllEmptyJoin(words[1..]);
      assert Join(words, " ") == " " + Join(words[1..], " ");
    }
  }

  /** The loop only ever appends to the emitted lines. */
  lemma {:induction false} WrapWordsExtends(words: seq<string>, measure: Measure, maxWidth: int, lines: seq<string>, cur: string)
    ensures var r := WrapWords(words, measure, maxWidth, lines, cur);
            |lines| <= |r| && r[..|lines|] == lines
    decreases |words|
  {
    if words != [] {
      var w := words[0];
      var test := cur + (if cur != "" then " " else "") + w;
      if measure(test) <= maxWidth {
        WrapWordsExtends(words[1..], measure, maxWidth, lines, test);
      } else if cur != "" {
        WrapWordsExtends(words[1..], measure, maxWidth, lines + [cur], w);
      } else {
        WrapWordsExtends(words[1..], measure, maxWidth, lines + [w], "");
      }
    }
  }

  /** While a line is being filled or a non-empty word remains, the paragraph emits at
      least one more line. */
  lemma {:induction false} WrapWordsGrows(words: seq<string>, measure: Measure, maxWidth: int, lines: seq<string>, cur: string)
    requires cur != "" || exists k | 0 <= k < |words| :: words[k] != ""
    ensures |WrapWords(words, measure, maxWidth, lines, cur)| > |lines|
    decreases |words|
  {
    if words != [] {
      var w := words[0];
      var test := cur + (if cur != "" then " " else "") + w;
      if measure(test) <= maxWidth {
        if test == "" {
          var k :| 0 <= k < |words| && words[k] != "";
          assert words[1..][k - 1] == words[k];
        }
        WrapWordsGrows(words[1..], measure, maxWidth, lines, test);
      } else if cur != "" {
        WrapWordsExtends(words[1..], measure, maxWidth, lines + [cur], w);
      } else {
        WrapWordsExtends(words[1..], measure, maxWidth, lines + [w], "");
      }
    }
  }

  /** Every emitted line is acceptable, and no line gains a character the words lack. */
  lemma {:induction false} WrapWordsLines(words: seq<string>, measure: Measure, maxWidth: int, lines: seq<string>, cur: string)
    requires forall k | 0 <= k < |words| :: ' ' !in words[k]
    requires Acceptable(cur, measure, maxWidth)
    requires forall k | 0 <= k < |lines| :: Acceptable(lines[k], measure, maxWidth)
    ensures forall k | 0 <= k < |WrapWords(words, measure, maxWidth, lines, cur)| ::
              Acceptable(WrapWords(words, measure, maxWidth, lines, cur)[k], measure, maxWidth)
    ensures (forall k | 0 <= k < |words| :: '\n' !in words[k]) && '\n' !in cur &&
            (forall k | 0 <= k < |lines| :: '\n' !in lines[k]) ==>
              forall k | 0 <= k < |WrapWords(words, measure, maxWidth, lines, cur)| ::
                '\n' !in WrapWords(words, measure, maxWidth, lines, cur)[k]
    decreases |words|
  {
    if words != [] {
      var w := words[0];
      assert ' ' !in w;
      var test := cur + (if cur != "" then " " else "") + w;
      if measure(test) <= maxWidth {
        WrapWordsLines(words[1..], measure, maxWidth, lines, test);
      } else if cur != "" {
        WrapWordsLines(words[1..], measure, maxWidth, lines + [cur], w);
      } else {
        WrapWordsLines(words[1..], measure, maxWidth, lines + [w], "");
      }
    }
  }

  /** The pending line followed by the words still to place. */
  function Pending(cur: string, words: seq<string>): seq<string> {
    (if cur != "" then [cur] else []) + words
  }

  lemma JoinCons(a: string, rest: seq<string>, sep: string)
    requires rest != []
    ensures Join([a] + rest, sep) == a + sep + Join(rest, sep)
  {
    assert ([a] + rest)[1..] == rest;
  }

  /** Without empty words, the lines a paragraph emits joined by single spaces give back
      exactly the pending text: no word is dropped, reordered or altered. */
  lemma {:induction false} WrapWordsJoin(words: seq<string>, measure: Measure, maxWidth: int, lines: seq<string>, cur: string)
    requires forall k | 0 <= k < |words| :: words[k] != ""
    ensures var r := WrapWords(words, measure, maxWidth, lines, cur);
            |lines| <= |r| && r[..|lines|] == lines &&
            Join(r[|lines|..], " ") == Join(Pending(cur, words), " ") &&
            (r[|lines|..] == [] <==> Pending(cur, words) == [])
    decreases |words|
  {
    WrapWordsExtends(words, measure, maxWidth, lines, cur);
    var r := WrapWords(words, measure, maxWidth, lines, cur);
    if words == [] {
      if cur != "" {
        assert r[|lines|..] == [cur];
      } else {
        assert r[|lines|..] == [];
      }
    } else {
      var w := words[0];
      var rest := words[1..];
      assert words == [w] + rest;
      assert forall k | 0 <= k < |rest| :: rest[k] == words[k + 1];
      var test := cur + (if cur != "" then " " else "") + w;
      if measure(test) <= maxWidth {
        WrapWordsJoin(rest, measure, maxWidth, lines, test);
        if cur == "" {
          assert test == w;
          assert Pending(test, rest) == Pending(cur, words);
        } else {
          assert Pending(test, rest) == [cur + " " + w] + rest;
          assert Pending(cur, words) == [cur] + ([w] + rest);
          if rest == [] {
            assert Join([cur + " " + w], " ") == cur + " " + w;
            JoinCons(cur, [w], " ");
          } else {
            JoinCons(cur + " " + w, rest, " ");
            JoinCons(w, rest, " ");
            JoinCons(cur, [w] + rest, " ");
          }
        }
      } else if cur != "" {
        var lines' := lines + [cur];
        WrapWordsJoin(rest, measure, maxWidth, lines', w);
        var tail := r[|lines'|..];
        assert r[|lines|..] == [cur] + tail;
        assert Pending(w, rest) == words;
        assert tail != [];
        JoinCons(cur, tail, " ");
        JoinCons(cur, words, " ");
      } else {
        var lines' := lines + [w];
        WrapWordsJoin(rest, measure, maxWidth, lines', "");
        var tail := r[|lines'|..];
        assert r[|lines|..] == [w] + tail;
        assert Pending("", rest) == rest;
        if rest == [] {
          assert tail == [];
          assert r[|lines|..] == [w];
        } else {
          assert tail != [];
          assert Join(tail, " ") == Join(rest, " ");
          JoinCons(w, tail, " ");
          JoinCons(w, rest, " ");
          assert Join(r[|lines|..], " ") == w + " " + Join(rest, " ");
        }
        assert Pending(cur, words) == words;
      }
    }
  }

  /** A paragraph without empty words (no doubled, leading or trailing spaces) is
      reproduced by joining its lines with single spaces. */
  lemma ParagraphRoundTrip(p: string, measure: Measure, maxWidth: int)
    requires !IsBlank(p)
    requires forall k | 0 <= k < |Split(p, ' ')| :: Split(p, ' ')[k] != ""
    ensures Join(ParagraphLines(p, measure, maxWidth), " ") == p
  {
    var words := Split(p, ' ');
    WrapWordsJoin(words, measure, maxWidth, [], "");
    assert Pending("", words) == words;
    assert WrapWords(words, measure, maxWidth, [], "")[0..] == WrapWords(words, measure, maxWidth, [], "");
  }
}
